=== FILE: README.md ===
# GMTKLoop core in Dafny

GMTKLoop is a small turn-based tactics game. A procedurally carved grid of
rooms and corridors holds a blue (player) squad and red (enemy) units. The
blue squad tries to put a unit on the escape cell before it runs out of
action points or is wiped out. This project models the rules layer of the
game as pure Dafny functions and methods over immutable data, and proves
what the rules guarantee:

- `Grid<T>`, `Cell`, `PathNode` and `HealthSystem`, the data the game is made of.
- `Unit`: move requests, attack requests, damage, and the completion callbacks
  the engine fires when an animation ends.
- `GridCombatSystem`, the turn state machine. It covers round start, turn
  hand-over between the factions, the two-pass reachability sweep, mouse and
  keyboard input, action points, escape and defeat, and units leaving the scene.
- `EnemyController`, the greedy red AI. It finds the closest blue unit,
  attacks it when in reach, and otherwise moves to the reachable cell nearest it.
- `WorldBuilder`: room and corridor generation from a stream of random draws,
  and the placement of the escape and the spawners.
- `GameManager`: the round counter, the stored high round and the escape cell.
- The ring arithmetic of `Utils` that lays out unit groups.

How the pieces are represented:

- The scene is a map from unit ids to units. A destroyed unit, which Unity
  treats as null, is an id missing from the map.
- A completion callback is a `Continuation` value that the orchestrator runs
  when the engine reports the animation finished.
- The A* search is a parameter `PathOracle`. It answers "a path from a to b,
  or none". Only whether a path exists and how many nodes it has are ever used.
- Random draws are a parameter `Draws`, the sequence of raw outputs of the
  builder's random generator.

Behaviours of the code that the model keeps:

- When the last red unit dies, the round goes on. `CheckTeamDefeat` only logs
  it (`CombatProperties.LastRedKillDoesNotEndRound`).
- `TestTurnOver` does not refill the action points when they reach zero.
  `ForceTurnOver` does (`CombatProperties.TurnOverPathsDisagreeOnLastPoint`).
- The `Grid` constructor loops run `y` over `GetLength(0)` (the width) and `x`
  over `GetLength(1)` (the height). It therefore completes only for square or
  empty grids (`GridMap.ConstructorLoopsStayInBounds`).
- `GetObjectGridPosition` breaks out of the inner loop only. It answers the
  first match in the last row holding the object, and (0, 0) when the object
  is absent.

## Model

| member | source | states |
|---|---|---|
| GridMap.NewGrid | GMTKLoop/Assets/Scripts/Environment/Grid.cs:22-60 | construction succeeds exactly for non-negative square or empty dimensions, and then every cell holds `createGridObject(x, y)` with the given size, cell size and origin |
| GridMap.ConstructorLoopsStayInBounds | GMTKLoop/Assets/Scripts/Environment/Grid.cs:29-37 | the transposed loops write only inside the array iff the grid is square or empty, and then they write every cell |
| GridMap.GetGridObject | GMTKLoop/Assets/Scripts/Environment/Grid.cs:120-131 | an object is returned exactly for in-range coordinates, and it is the stored one; outside, the default |
| GridMap.SetGridObject | GMTKLoop/Assets/Scripts/Environment/Grid.cs:96-106 | in range exactly that cell changes and one change event is raised for it; out of range nothing changes and nothing is raised |
| GridMap.TriggerGridObjectChanged | GMTKLoop/Assets/Scripts/Environment/Grid.cs:108-111 | raises one event for the given coordinates, without a range check, and stores nothing |
| GridMap.GetXY | GMTKLoop/Assets/Scripts/Environment/Grid.cs:65-69 | the cell returned is the one whose square, measured from the origin, contains the world position on both axes |
| GridMap.CellCenterRoundTrip | GMTKLoop/Assets/Scripts/Environment/Grid.cs:62-69 | converting a cell's centre to a world position and back gives the same cell |
| GridMap.CornerRoundTrip | GMTKLoop/Assets/Scripts/Environment/Grid.cs:62-69 | converting a cell's corner to a world position and back gives the same cell |
| GridMap.WorldAccessAtCellCenter | GMTKLoop/Assets/Scripts/Environment/Grid.cs:113-138 | reading or writing by world position at a cell's centre acts on that cell |
| GridMap.GetObjectGridPosition | GMTKLoop/Assets/Scripts/Environment/Grid.cs:78-94 | (0, 0) for an absent object; otherwise a cell holding it, with no earlier match in its row and none in any later row; an object held by exactly one cell is found there |
| Cells.NewCell | GMTKLoop/Assets/Scripts/Environment/Cell.cs:12-28 | a new cell has its coordinates, is not walkable, is a valid move position, has no unit and payload 0 |
| Cells.SetUnit | GMTKLoop/Assets/Scripts/Environment/Cell.cs:55 | the cell records the unit and keeps everything else |
| Cells.ClearUnit | GMTKLoop/Assets/Scripts/Environment/Cell.cs:57 | the cell records no unit and keeps everything else |
| Cells.SetWalkable | GMTKLoop/Assets/Scripts/Environment/Cell.cs:13 | only the walkable flag changes |
| Cells.SetValidMove | GMTKLoop/Assets/Scripts/Environment/Cell.cs:16 | only the valid-move flag changes |
| Cells.SetValue | GMTKLoop/Assets/Scripts/Environment/Cell.cs:30-34 | the payload is stored, the flags, occupant and coordinates are kept, and the change is reported for the cell's own coordinates |
| Cells.SetCellValue | GMTKLoop/Assets/Scripts/Environment/Cell.cs:30-34 | in a grid of cells only that cell's payload changes, and the grid raises one event for the coordinates the cell holds |
| Cells.CellTextRoundTrip | GMTKLoop/Assets/Scripts/Environment/Cell.cs:80-83 | the text form `[x,y, walkable]` parses back to the cell's coordinates and walkability |
| Cells.CellTextInjective | GMTKLoop/Assets/Scripts/Environment/Cell.cs:80-83 | two cells with the same text agree on coordinates and walkability |
| Pathfinding.NewPathNode | GMTKLoop/Assets/Scripts/Pathfinding/PathNode.cs:18-23 | a new node has its coordinates, zero costs, no object, no predecessor, and is not walkable |
| Pathfinding.SetNodeObject | GMTKLoop/Assets/Scripts/Pathfinding/PathNode.cs:25-29 | the node keeps the object and the object's walkability at the time of the call; costs and coordinates are unchanged |
| Pathfinding.CalculateFCost | GMTKLoop/Assets/Scripts/Pathfinding/PathNode.cs:32-35 | the f cost becomes the sum of the g and h costs; nothing else changes |
| Pathfinding.WalkableIsSnapshot | GMTKLoop/Assets/Scripts/Pathfinding/PathNode.cs:25-30 | after the cell changes, the node still names the cell but keeps the old walkability |
| Pathfinding.NodeTextRoundTrip | GMTKLoop/Assets/Scripts/Pathfinding/PathNode.cs:37-40 | the text form `x,y` parses back to the node's coordinates |
| Health.NewHealthSystem | GMTKLoop/Assets/Scripts/Gameplay/HealthSystem.cs:13-17 | a new health system is at full health |
| Health.TakeDamage | GMTKLoop/Assets/Scripts/Gameplay/HealthSystem.cs:29-38 | health drops by the damage, floored at zero; the death event fires exactly when the result is zero, so every hit taken at zero fires it again; the health-changed event fires once, last; non-negative damage keeps health between zero and the maximum |
| Health.Heal | GMTKLoop/Assets/Scripts/Gameplay/HealthSystem.cs:40-45 | health rises by the amount, capped at the maximum; one health-changed event; a non-negative amount keeps health between zero and the maximum |
| Units.EnemyIsTeamDifference | GMTKLoop/Assets/Scripts/Unit/Unit.cs:149-152 | being enemies means being on different teams, so it is never reflexive and always symmetric |
| Units.MoveTo | GMTKLoop/Assets/Scripts/Unit/Unit.cs:63-106 | a request is accepted exactly when the unit is idle, both cells exist, the destination is walkable and the path is non-empty; a refused one changes nothing, an accepted one starts the path and holds the callback |
| Units.ArrivalCell | GMTKLoop/Assets/Scripts/Unit/UnitMovement.cs:28-42 | a move ends on the last path node's cell when that cell is in the grid, and always inside the grid |
| Units.CompleteMove | GMTKLoop/Assets/Scripts/Unit/UnitMovement.cs:44-84 | at the end of the path the unit is no longer moving, stands on the arrival cell, and the callback it was given is handed back |
| Units.MoveCallbackRunsOnce | GMTKLoop/Assets/Scripts/Unit/Unit.cs:63-106 | a moving unit ignores further move requests, and its single completion returns the original callback and leaves it idle |
| Units.AttackUnit | GMTKLoop/Assets/Scripts/Unit/Unit.cs:154-158 | the attack callback is stored, replacing any pending one; nothing else changes |
| Units.OnAnimationComplete | GMTKLoop/Assets/Scripts/Unit/Unit.cs:130-134 | the pending callback is handed back and cleared |
| Units.AttackCallbackRunsOnce | GMTKLoop/Assets/Scripts/Unit/Unit.cs:130-158 | only the latest attack callback runs, and a second animation event runs nothing |
| Units.TakeDamage | GMTKLoop/Assets/Scripts/Unit/Unit.cs:165-173 | the unit's health follows the health system, and the death event is reported exactly at zero health |
| Units.ResetToSpawn | GMTKLoop/Assets/Scripts/Gameplay/GameManager.cs:118-132 | a unit with a spawner moves onto the spawner's cell; one without stays as it was |
| Reachability.UpdateValidMovePositions | GMTKLoop/Assets/Scripts/Gameplay/GridCombatSystem.cs:415-461 | after both passes a cell is flagged iff it lies in the square around the unit, is walkable, and a path of at most range + 1 nodes reaches it; only the flags change |
| Combat.Awake | GMTKLoop/Assets/Scripts/Gameplay/GridCombatSystem.cs:48-62 | empty team lists, indices at -1, no active unit, input closed |
| Combat.PlaceUnits | GMTKLoop/Assets/Scripts/Gameplay/GridCombatSystem.cs:64-82 | registering the units only changes the occupants of cells, and only of cells that some registered unit stands on |
| Combat.PlaceUnitsLastWriter | GMTKLoop/Assets/Scripts/Gameplay/GridCombatSystem.cs:64-82 | a unit that no later unit shares a cell with is the occupant recorded on its cell |
| Combat.Enlist | GMTKLoop/Assets/Scripts/Gameplay/GridCombatSystem.cs:64-82 | every registered unit is appended to its team's list in scan order, after the entries already there |
| Combat.RemoveFirst | GMTKLoop/Assets/Scripts/Gameplay/GridCombatSystem.cs:209-212 | exactly one copy of the unit leaves the list when it is there, and nothing else does |
| Combat.RemoveFirstSplits | GMTKLoop/Assets/Scripts/Gameplay/GridCombatSystem.cs:209-212 | the copy removed is the first one: what came before it and what came after it stay, in order |
| Combat.Prune | GMTKLoop/Assets/Scripts/Gameplay/GridCombatSystem.cs:303-306 | the pruned list holds exactly the listed ids that still exist, and a list of existing units is kept whole |
| Combat.PruneAppend | GMTKLoop/Assets/Scripts/Gameplay/GridCombatSystem.cs:303-306 | pruning keeps the survivors in their order: pruning a concatenation prunes each part |
| Combat.NextIndex | GMTKLoop/Assets/Scripts/Gameplay/GridCombatSystem.cs:343-360 | the next index lies in the list and is one step forward reduced modulo the list length: index + 1 is a whole number of laps of the list plus the new index, so it wraps to the front past the end even when the list shrank |
| Combat.GetNextActiveUnit | GMTKLoop/Assets/Scripts/Gameplay/GridCombatSystem.cs:343-360 | only the chosen team's index advances, and the unit returned is the one at the new index |
| Combat.UpdateValidMovePositions | GMTKLoop/Assets/Scripts/Gameplay/GridCombatSystem.cs:415-461 | with an active unit the flags become those of the sweep around its cell; without one nothing changes; only flags ever change |
| Combat.SetActiveUnit | GMTKLoop/Assets/Scripts/Gameplay/GridCombatSystem.cs:84-89 | the unit becomes active and the flags become the sweep around it |
| Combat.HandTurnTo | GMTKLoop/Assets/Scripts/Gameplay/GridCombatSystem.cs:316-341 | the next unit of the team becomes active with a fresh move and attack; teams, units, points and phase are kept |
| Combat.SelectNextActiveUnit | GMTKLoop/Assets/Scripts/Gameplay/GridCombatSystem.cs:303-341 | destroyed units leave both lists; with nobody left nothing else changes; otherwise the next unit of the only non-empty faction, or else of the faction other than the current one, becomes active with a fresh move and attack and its sweep |
| Combat.Enrolled | GMTKLoop/Assets/Scripts/Gameplay/GridCombatSystem.cs:65-77 | the scene the first selection starts from: full points, the roster recorded, each scanned unit written onto its cell and appended to its team's list in scan order, nothing else changed |
| Combat.StartRound | GMTKLoop/Assets/Scripts/Gameplay/GridCombatSystem.cs:64-82 | full action points, input open, every scanned unit written onto its cell (the grid equals `PlaceUnits` over the scan order, up to valid-move flags) and enlisted in its team's list; the lists are then pruned and, with anyone left, the first active unit is blue when blue units remain and either no red ones do or the previous active unit was red or gone, red otherwise, with a fresh move and attack and its reach swept on the placed grid; no unit created or destroyed |
| Combat.EndGame | GMTKLoop/Assets/Scripts/Gameplay/GridCombatSystem.cs:379-413 | the outcome is recorded once; lists cleared, no active unit, input closed; units, grid and points are kept |
| Combat.CheckEscapeCondition | GMTKLoop/Assets/Scripts/Gameplay/GridCombatSystem.cs:284-301 | a blue unit on the escape cell wins; otherwise an empty blue list loses; otherwise nothing changes |
| Combat.CheckTeamDefeat | GMTKLoop/Assets/Scripts/Gameplay/GridCombatSystem.cs:362-377 | with no blue unit left the round is lost; otherwise only the lists are pruned, even when no red unit is left |
| Combat.Unsubscribe | GMTKLoop/Assets/Scripts/Gameplay/GridCombatSystem.cs:201-216 | before the first round nothing changes; afterwards the unit's cell is cleared and the unit leaves the roster and its team's list; no other cell changes |
| Combat.DamageUnit | GMTKLoop/Assets/Scripts/Unit/Unit.cs:136-173 | a missing target takes nothing; otherwise only the target's health changes, to its old health minus the damage floored at zero; a surviving target changes nothing else; the move and attack flags are kept and, unless the hit ended the round, so are the active unit and the phase; the round either goes on with the same phase and outcomes or ends with one more outcome and input closed |
| Combat.DestroyUnit | GMTKLoop/Assets/Scripts/Unit/Unit.cs:58-61 | the unit leaves the scene after unsubscribing; points, phase and outcomes are kept |
| Combat.SpendActionPoint | GMTKLoop/Assets/Scripts/Gameplay/GridCombatSystem.cs:218-281 | one point is spent, a blue unit on the escape wins, and at zero points the blue units go back to their spawners (with the refill, the points return to the maximum); units only move; when nobody stands on the escape the lists, phase and outcomes are kept |
| Combat.TestTurnOver | GMTKLoop/Assets/Scripts/Gameplay/GridCombatSystem.cs:244-281 | with an action left only the escape is checked: a blue unit on the escape cell wins the round, an empty blue list loses it, and otherwise nothing changes; with both spent a blue turn costs one point, at zero the blue units are sent back and the points are not refilled; with both spent and, unless the round ends, a unit left in either list, the next unit becomes active with a fresh move and attack |
| Combat.ForceTurnOver | GMTKLoop/Assets/Scripts/Gameplay/GridCombatSystem.cs:218-242 | a blue unit that used its move or attack costs one point; at zero the blue units are sent back and the points are refilled; otherwise the points are kept; units only move; when no blue unit stands on the escape and a unit is left in either list, the next unit becomes active with a fresh move and attack and the phase is kept |
| CombatInput.Click | GMTKLoop/Assets/Scripts/Gameplay/GridCombatSystem.cs:91-181 | an accepted attack spends the attack and waits for its callback; an accepted move spends the move and waits; any other click changes nothing |
| CombatInput.Space | GMTKLoop/Assets/Scripts/Gameplay/GridCombatSystem.cs:183-189 | ignored while waiting or without an active unit; otherwise the turn is forced over: a blue unit that has used an action pays a point, refilled at zero, and a blue unit on the escape cell then wins the round; any other unit pays nothing; when the turn can be handed over, the next unit becomes active with a fresh move and attack |
| CombatInput.Resume | GMTKLoop/Assets/Scripts/Gameplay/GridCombatSystem.cs:107-174 | running a callback keeps the unit set, costs at most one action point, and equals that callback's own member: the player's move (`PlayerMoveDone`), the player's attack (`PlayerAttackDone`), the enemy's move (`EnemyMoveDone`) or the enemy's hit (`EnemyAttackDone`), so each of their contracts holds for it |
| CombatInput.PlayerMoveDone | GMTKLoop/Assets/Scripts/Gameplay/GridCombatSystem.cs:162-174 | the player's move completion clears the old cell, records the unit on the new one and keeps every other cell; units only move; input reopens; with an action left the same unit keeps its turn and flags, and the valid-move flags are swept again around the cell it now stands on, unless a blue unit on the escape cell wins the round or an empty blue list loses it; with both actions spent a blue unit pays one point and the next unit takes over unless the round ends |
| CombatInput.Stepped | GMTKLoop/Assets/Scripts/Gameplay/GridCombatSystem.cs:163-169 | after the player's unit arrives: input reopens, the occupant record moves from the old cell to the new one, the valid-move flags are swept again around the active unit, and nothing else changes |
| CombatInput.Landed | GMTKLoop/Assets/Scripts/Gameplay/GridCombatSystem.cs:125-128 | once the player's hit lands: the target takes the active unit's damage and nobody else's health changes; points, escape cell, unit set and the move and attack flags are kept; unless the hit ended the round, the active unit is the same and input is open |
| CombatInput.PlayerAttackDone | GMTKLoop/Assets/Scripts/Gameplay/GridCombatSystem.cs:121-131 | the player's attack completion reopens input and the target takes the active unit's damage, nobody else's health changing; then, on the scene after the hit (`Landed`): with both actions spent a blue unit pays one point and the next unit takes over unless the round ends; with an action left the same unit keeps its turn and flags and nothing else changes, unless a blue unit on the escape cell wins the round or the hit ended it; without an active unit only input reopens |
| CombatInput.EnemyMoveDone | GMTKLoop/Assets/Scripts/Gameplay/EnemyController.cs:56-62 | the enemy's move completion moves the occupant record from the old cell to the new one and keeps every other occupant; the valid-move flags are swept again around the active unit's cell (left as they were without an active unit); units, points, phase and everything else are kept |
| CombatInput.EnemyAttackDone | GMTKLoop/Assets/Scripts/Gameplay/EnemyController.cs:87-91 | the enemy's hit lands the attacker's damage on the target when the attacker still exists, and changes nothing otherwise; action points are kept |
| CombatInput.MoveFinished | GMTKLoop/Assets/Scripts/Unit/UnitMovement.cs:44-84 | the unit stops on its arrival cell; with no callback nothing else changes; otherwise the callback it was given runs on the arrived scene |
| CombatInput.AnimationFinished | GMTKLoop/Assets/Scripts/Unit/Unit.cs:130-134 | the pending attack callback runs and its slot is emptied; with none nothing changes. The source runs the callback before emptying the slot and the model empties it first; no callback starts another attack on the same unit, so the order cannot be observed |
| CombatInput.AnimationRunsEnemyAttack | GMTKLoop/Assets/Scripts/Unit/Unit.cs:130-134 | an animation event with the enemy's damage callback pending is exactly the enemy's hit on the cleared scene |
| CombatInput.ClickThenSpace | GMTKLoop/Assets/Scripts/Gameplay/GridCombatSystem.cs:91-192 | a click and a space press in one frame: nothing without an active unit or while waiting, nothing when the click stops the frame (off the grid, or an empty cell that is not a valid move or is the unit's own), otherwise the click followed by a forced turn-over even though input is now waiting |
| CombatInput.Step | GMTKLoop/Assets/Scripts/Gameplay/GridCombatSystem.cs:91-199 | any event, including a click and a space press in the same frame, keeps the invariant, and the action points stay, drop by one, or return to the maximum |
| CombatProperties.FirstRoundStartsWithFirstBlue | GMTKLoop/Assets/Scripts/Gameplay/GridCombatSystem.cs:64-82 | the first round hands the first turn to the first blue unit scanned, with a fresh move and attack |
| CombatProperties.TurnsAlternate | GMTKLoop/Assets/Scripts/Gameplay/GridCombatSystem.cs:303-341 | while both factions have units, the turn always passes to the other faction |
| CombatProperties.SameFactionRotates | GMTKLoop/Assets/Scripts/Gameplay/GridCombatSystem.cs:303-360 | with red gone, blue turns walk the blue list in order and wrap around |
| CombatProperties.TurnOverPathsDisagreeOnLastPoint | GMTKLoop/Assets/Scripts/Gameplay/GridCombatSystem.cs:218-281 | spending the last point leaves 0 through the turn-over test and the maximum through the forced turn-over |
| CombatProperties.LastRedKillDoesNotEndRound | GMTKLoop/Assets/Scripts/Gameplay/GridCombatSystem.cs:362-377 | killing the last red unit records no outcome and leaves the phase as it was |
| CombatProperties.LastBlueKillLoses | GMTKLoop/Assets/Scripts/Gameplay/GridCombatSystem.cs:362-377 | killing the last blue unit records a loss and closes input |
| CombatProperties.EndedRoundIsInert | GMTKLoop/Assets/Scripts/Gameplay/GridCombatSystem.cs:379-413 | after the end of a round no turn is handed out, and clicks and the space bar do nothing |
| CombatProperties.WaitingIgnoresInput | GMTKLoop/Assets/Scripts/Gameplay/GridCombatSystem.cs:191-192 | while a request is in flight clicks and the space bar do nothing |
| CombatProperties.RefusedMoveStallsInput | GMTKLoop/Assets/Scripts/Gameplay/GridCombatSystem.cs:146-181 | a move the orchestrator accepts but the unit refuses spends the move and stops all further input |
| CombatProperties.SpaceInAttackFrameEndsTurnEarly | GMTKLoop/Assets/Scripts/Gameplay/GridCombatSystem.cs:112-192 | an attack click and a space press in one frame hand the turn to a unit with a fresh move and attack while input stays closed, and the attack callback is still pending on the unit that attacked |
| CombatProperties.AttackRangeIsMoveRange | GMTKLoop/Assets/Scripts/Unit/Unit.cs:160-163 | an enemy can be attacked exactly when its cell passes the reachability sweep around the active unit |
| EnemyAI.FindClosestBlueUnit | GMTKLoop/Assets/Scripts/Gameplay/EnemyController.cs:143-162 | null exactly when no blue unit exists; otherwise an existing blue unit no other is closer than, the first such in list order |
| EnemyAI.ClosestBlueUnique | GMTKLoop/Assets/Scripts/Gameplay/EnemyController.cs:143-162 | the closest blue unit is determined uniquely |
| EnemyAI.CandidatesAreFreeSweptCells | GMTKLoop/Assets/Scripts/Gameplay/EnemyController.cs:169-190 | a move candidate is exactly a grid cell the reachability sweep would flag that no existing unit stands on |
| EnemyAI.FindBestMovePosition | GMTKLoop/Assets/Scripts/Gameplay/EnemyController.cs:164-212 | null exactly when there is no candidate; otherwise a candidate no other candidate is closer to the target than |
| EnemyAI.Struck | GMTKLoop/Assets/Scripts/Gameplay/EnemyController.cs:87-91 | once the enemy's hit lands, the target's health is its old health minus the attacker's damage, floored at zero; no other health changes; the round goes on or ends |
| EnemyAI.StruckIsAnimationFinished | GMTKLoop/Assets/Scripts/Gameplay/EnemyController.cs:87-93 | requesting the attack and letting its animation finish gives exactly the landed hit |
| EnemyAI.EnemyHitSurvivesTurnOver | GMTKLoop/Assets/Scripts/Gameplay/EnemyController.cs:87-97 | the damage landed is still there once the turn is forced over |
| EnemyAI.PerformAttack | GMTKLoop/Assets/Scripts/Gameplay/EnemyController.cs:81-98 | the calls are: wait, attack the target, reset, force the turn over, once and last; the resulting scene is the turn forced over after the hit landed, and the target's health is its old health minus the attacker's damage, floored at zero |
| EnemyAI.EnemyMoves | GMTKLoop/Assets/Scripts/Gameplay/EnemyController.cs:50-65 | after an accepted move the enemy stands on the arrival cell of its path, its occupant record moved from the old cell to the chosen one with every other occupant kept, no other unit changed, the valid-move flags swept again around the active unit's (possibly new) cell, and everything but the units and the grid kept |
| EnemyAI.ActAfterMove | GMTKLoop/Assets/Scripts/Gameplay/EnemyController.cs:67-78 | the closest blue unit is chosen again from the new cell; it is attacked exactly when it exists and is in reach (the attack's calls and the turn forced over after the hit); otherwise the turn is just forced over |
| EnemyAI.MoveAndAct | GMTKLoop/Assets/Scripts/Gameplay/EnemyController.cs:50-78 | the move is requested either way; the routine finishes exactly when the unit accepts the move; a refused move leaves everything as it was, waiting; a finished one moves the enemy to the chosen cell (the scene `EnemyMoves` describes) and then acts from there as `ActAfterMove` states: the closest blue unit, chosen again from the new cell, is attacked exactly when it is in reach, and the turn is forced over otherwise |
| EnemyAI.MoveThenAct | GMTKLoop/Assets/Scripts/Gameplay/EnemyController.cs:50-78 | an accepted move followed by the end of the turn: the result is what `ActAfterMove` gives from the moved scene `EnemyMoves`, with the after-move calls |
| EnemyAI.MoveTracesWellFormed | GMTKLoop/Assets/Scripts/Gameplay/EnemyController.cs:50-78 | every trace of a finished move ends the turn once, requests nothing after an attack, and moves only to the chosen cell |
| EnemyAI.EnemyTurnRoutine | GMTKLoop/Assets/Scripts/Gameplay/EnemyController.cs:21-79 | with no blue unit the turn is forced over at once; a closest blue unit in reach is attacked and the turn forced over after the hit; otherwise, with no candidate cell the turn is forced over, and with one the move goes to a best cell towards the target, the routine finishes exactly when the move is accepted, and a finished move leaves the enemy on that cell and then acts from there (re-targeted attack when in reach, otherwise the turn forced over); a finished turn ends exactly once and no request follows an attack |
| EnemyAI.ActOnTarget | GMTKLoop/Assets/Scripts/Gameplay/EnemyController.cs:33-79 | a target in reach is attacked at once and the turn forced over after the hit; otherwise, with no candidate cell the turn is forced over, and with one the move goes to a best cell towards the target, the routine finishes exactly when the move is accepted, and a finished move leaves the enemy on that cell and then acts from there (re-targeted attack when in reach, otherwise the turn forced over) |
| EnemyAI.Approach | GMTKLoop/Assets/Scripts/Gameplay/EnemyController.cs:40-79 | with no candidate cell the turn is forced over at once; otherwise the move goes to a best cell towards the target, the routine finishes exactly when the move is accepted, a refused move leaves everything as it was, and an accepted one moves the enemy there and then acts from the new cell (re-targeted attack when in reach, otherwise the turn forced over) |
| EnemyAI.EnemyAttackLandsOnce | GMTKLoop/Assets/Scripts/Gameplay/EnemyController.cs:81-98 | the enemy's damage lands once on the target, and a second animation event changes nothing |
| WorldBuilder.ResetCells | GMTKLoop/Assets/Scripts/Environment/WorldBuilder.cs:107-120 | every cell becomes unwalkable and nothing else changes |
| WorldBuilder.SetAllValidMovePositions | GMTKLoop/Assets/Scripts/Environment/WorldBuilder.cs:252-263 | every cell's valid-move flag becomes the given state and nothing else changes |
| WorldBuilder.Next | GMTKLoop/Assets/Scripts/Environment/WorldBuilder.cs:135-138 | a draw lies in the half-open range, equals the lower bound for an empty range, and throws exactly when the bounds are reversed |
| WorldBuilder.OverlapsSymmetric | GMTKLoop/Assets/Scripts/Environment/WorldBuilder.cs:145-147 | overlap does not depend on the order of the rooms, and rooms side by side do not overlap |
| WorldBuilder.RoundHalf | GMTKLoop/Assets/Scripts/Environment/WorldBuilder.cs:159-174 | half of n is rounded to the nearest integer, ties going to the even one |
| WorldBuilder.CentreInsideRoom | GMTKLoop/Assets/Scripts/Environment/WorldBuilder.cs:159-174 | a room's rounded centre lies on the room or its far edge, so a fitting room's centre is a grid cell |
| WorldBuilder.CarveRoom | GMTKLoop/Assets/Scripts/Environment/WorldBuilder.cs:151-157 | exactly the room's cells become walkable |
| WorldBuilder.CreateHorizontalTunnel | GMTKLoop/Assets/Scripts/Environment/WorldBuilder.cs:181-185 | the inclusive row segment becomes walkable; it throws exactly when an end leaves the grid |
| WorldBuilder.CreateVerticalTunnel | GMTKLoop/Assets/Scripts/Environment/WorldBuilder.cs:187-191 | the inclusive column segment becomes walkable; it throws exactly when an end leaves the grid |
| WorldBuilder.ConnectRooms | GMTKLoop/Assets/Scripts/Environment/WorldBuilder.cs:159-174 | the L-shaped corridor whose bend the coin picks becomes walkable; between two cells of the grid it never throws |
| WorldBuilder.AcceptRoom | GMTKLoop/Assets/Scripts/Environment/WorldBuilder.cs:151-174 | carving an accepted room and its corridor keeps the carving invariant, and never throws for upright rooms |
| WorldBuilder.DrawnRoom | GMTKLoop/Assets/Scripts/Environment/WorldBuilder.cs:135-138 | the room drawn from four draws: under sane settings it exists, fits the grid and has a non-negative extent; its position is at least 1 and its extent at least the minimum size |
| WorldBuilder.TryRoom | GMTKLoop/Assets/Scripts/Environment/WorldBuilder.cs:133-175 | a drawn room that fits and overlaps no earlier room is appended (and the attempt succeeds when the rooms are upright); any other drawn room is dropped and nothing changes; a throwing draw fails the attempt; the carving invariant is kept; with sane settings it cannot throw |
| WorldBuilder.GenerateRoomsAndCorridors | GMTKLoop/Assets/Scripts/Environment/WorldBuilder.cs:122-179 | only walkability changes; rooms fit, never overlap, are walkable and are joined in order by walkable corridors; nothing else is walkable; at most roomCount rooms and 10 × roomCount attempts; fewer rooms means every attempt was spent; with sane settings and at least one room asked for, at least one is placed |
| WorldBuilder.GetAllUnitSpawners | GMTKLoop/Assets/Scripts/Environment/WorldBuilder.cs:226-238 | the blue spawner comes first, then the red spawners in order |
| WorldBuilder.PlaceEscapeAndSpawners | GMTKLoop/Assets/Scripts/Environment/WorldBuilder.cs:193-222 | throws exactly with fewer than two rooms; otherwise the escape is at the last room's centre, blue at the first's, and one red spawner at each room in between |
| WorldBuilder.CentresWalkable | GMTKLoop/Assets/Scripts/Environment/WorldBuilder.cs:159-174 | with two or more joined rooms every room centre inside the grid is walkable |
| WorldBuilder.RegenerateWorld | GMTKLoop/Assets/Scripts/Environment/WorldBuilder.cs:56-62 | with sane settings the generation goes through; a world is built exactly when the generation went through with at least two rooms, and then it holds the generated rooms, the escape at the last one's centre, and the escape and every spawner on walkable grid cells |
| GameManager.CheckAndUpdateHighRound | GMTKLoop/Assets/Scripts/Gameplay/GameManager.cs:106-116 | the stored high round becomes the larger of itself and the current round; no other stored key changes |
| GameManager.ResetHighRound | GMTKLoop/Assets/Scripts/Gameplay/GameManager.cs:99-104 | the key is deleted, so the high round reads 0; no other key changes |
| GameManager.ResetRounds | GMTKLoop/Assets/Scripts/Gameplay/GameManager.cs:87-92 | the round counter returns to 0 and nothing else changes |
| GameManager.ResetBlueUnitsToSpawn | GMTKLoop/Assets/Scripts/Gameplay/GameManager.cs:118-132 | every existing listed unit goes back to its spawner; unlisted units are untouched; no unit appears or disappears |
| GameRound.CaptureEscapeCell | GMTKLoop/Assets/Scripts/Gameplay/GameManager.cs:36-51 | the escape cell is the grid cell under the marker, and none when the marker is off the grid |
| GameRound.MarkerCapturesEscapeCell | GMTKLoop/Assets/Scripts/Gameplay/GameManager.cs:36-51 | a marker at a cell's centre captures that cell |
| GameRound.StartRound | GMTKLoop/Assets/Scripts/Gameplay/GameManager.cs:36-51 | the round counter goes up by one, the high round catches up with it, and the combat round starts with the captured escape cell, full points and input open |
| GameRound.RoundStartSetsRecord | GMTKLoop/Assets/Scripts/Gameplay/GameManager.cs:36-51 | when the stored high round is not ahead of the counter the new round becomes the high round; otherwise the high round stays |
| Rings.RingsTotalClosedForm | GMTKLoop/Assets/Scripts/Utils/Utils.cs:40-57 | k rings growing by b units each hold b·k(k+1)/2 units |
| Rings.CalculateRingAmount | GMTKLoop/Assets/Scripts/Utils/Utils.cs:40-57 | no rings for at most one unit; otherwise the fewest rings that hold every unit but the centre one |
| Rings.CalcRingSizeAndAmount | GMTKLoop/Assets/Scripts/Utils/Utils.cs:59-69 | ring i is at distance (i + 1) × base distance and holds (i + 1) × base units; a negative count throws |
| Rings.SumOfRingCounts | GMTKLoop/Assets/Scripts/Utils/Utils.cs:59-69 | the ring sizes produced add up to the closed-form total |
| Rings.LayoutFor | GMTKLoop/Assets/Scripts/Utils/Utils.cs:40-69 | the rings have room for every unit but the centre one, and dropping the last ring would not |
| Rings.RingPositions | GMTKLoop/Assets/Scripts/Utils/Utils.cs:21-36 | the requested number of points (none for a non-positive count), evenly spaced in angle at the given distance: the whole ring |
| Rings.PositionListAround | GMTKLoop/Assets/Scripts/Utils/Utils.cs:9-19 | the start position followed by the rings one after another, each ring's points in order; throws exactly when there are fewer counts than distances |
| Rings.AllRingsSlot | GMTKLoop/Assets/Scripts/Utils/Utils.cs:9-19 | ring i's points occupy the stretch after the points of the rings before it, in order |
| Rings.GroupPositions | GMTKLoop/Assets/Scripts/Utils/Utils.cs:9-69 | the position list built for a group has a place for every unit, the start position first |

## Left out

- Rendering, camera, UI, menus, health bars, selectors, wall meshes and
  `Debug` logging. They only display state.
- Coroutine delays and animation timing. An animation or path is taken to
  finish, and the engine's completion event is an input (`CombatInput.Step`).
- The A* search of `Pathfinder`. It is the `PathOracle` parameter.
- Floating point. World positions and distances are exact reals. Distances
  between units on cell centres are compared through squared cell distances,
  which orders them the same way.
- `PlayerPrefs` persistence. Preferences are a string-keyed map, and
  `PlayerPrefs.Save` is not modelled.
- Unit spawning (`SpawnAllUnits`, `UnitSpawner`, `RemoveAllUnits`). The
  spawned scene is an input, and removal arrives as `DestroyUnit` events.
  `Unit.GetSpawner` and `UnitSpawner.ResetUnitPosition` are represented by a
  unit's optional spawn cell.
- `SetStateWaiting`, `ResetEnemyTurn` and `GetBlueTeam` are called by the
  enemy routine but do not appear in `GridCombatSystem`. The first two are
  recorded in the routine's call trace only. The third reads the blue list.
- `TakeEnemyTurn` is never called from `GridCombatSystem`. The enemy routine
  is therefore modelled on its own and is not wired into the input loop.
- The unused `Attack` and `HandlePostMoveAttack` coroutines of `EnemyController`.
- EnemyAI.FindBestMovePosition: `List.Sort` is not stable, so among equally
  close candidates the model promises only some closest one, not the one the
  sort would pick.
- Combat.DamageUnit: a target destroyed before the callback runs takes no
  damage. In the source the stale C# object would still run `TakeDamage`.
- CombatInput.Click: a click outside the grid changes nothing. The source
  dereferences a null cell there, and that frame's handler stops.
- Combat.CheckEscapeCondition: it skips destroyed units. The source reads
  `unit.gameObject` on them, which throws.
- Combat.GetNextActiveUnit: the source's fallback branch for a team that is
  neither blue nor red recurses forever. The model's two-valued team cannot
  reach it.
- WorldBuilder.PlaceEscapeAndSpawners: when it throws, the model returns None
  and drops the markers the source had already moved.
- WorldBuilder.RegenerateWorld: graphics refresh and selector reset are left
  out, and the world is regenerated from a grid supplied as input.
- Rings.CalculateRingAmount: it requires a positive base count whenever more
  than one unit is placed. With a zero base the source's loop never ends.
  With a negative base b, after k rings the remainder is
  n - 1 + |b|·k(k+1)/2 and grows, so the loop ends only through 32-bit
  wrap-around. When it ends, and what it returns, depends on which counter
  wraps first: the remainder after about 2^16/sqrt(|b|) rings, or, for a
  large |b|, `unitsInRing` itself. Its counters are unbounded: the source's
  32-bit `unitsInRing += baseUnitCount` and `remainingUnits -= unitsInRing`
  wrap, and the model does not reproduce that.
- Health.TakeDamage: health is an unbounded integer. The source's 32-bit
  `health -= damage` wraps for a damage near the edge of the `int` range,
  which the model does not reproduce.
- Health.Heal: likewise, the source's `health += amount` wraps past
  `int.MaxValue` to a negative value that the cap then lets through; the model
  adds without bound.
- Combat.SpendActionPoint: `CurrentActionPoints--` is unbounded in the model.
  The 32-bit counter could only wrap after about 2^31 decrements without a
  refill, which the zero test rules out in practice.
- GameRound.StartRound: the round counter is unbounded. The source's
  `currentRound++` wraps to a negative value after 2^31 - 1 rounds.
- Rings.RingPositions: a point is recorded as a distance and an angle, not as
  the rotated `Vector3`.
- GridMap.SetGridObject, GridMap.TriggerGridObjectChanged, Cells.SetValue,
  Cells.SetCellValue: the change event is modelled as raised and handled.
  In the game the grid is built with `showDebug` on
  (GMTKLoop/Assets/Scripts/Environment/WorldBuilder.cs:45). Its
  `debugTextArray` is allocated but never filled
  (GMTKLoop/Assets/Scripts/Environment/Grid.cs:41), and the handler writes
  `debugTextArray[x, y].text`
  (GMTKLoop/Assets/Scripts/Environment/Grid.cs:55-58). So every change event
  throws a NullReferenceException after the write. The model does not
  represent that exception: the write stands and the event is recorded.

=== FILE: cell.dfy ===
/** `Cell`: one grid position with walkability, its occupant, the transient
    valid-move flag and a numeric payload. A unit reference is a `UnitId`;
    `None` is `null`. */
module Cells {
  import opened Wrappers
  import opened GridMap
  import opened Text

  type UnitId = nat

  datatype Cell = Cell(x: int, y: int, value: real, walkable: bool, validMove: bool, unit: Option<UnitId>)

  /** `new Cell(grid, x, y, ...)`: field initialisers make a fresh cell
      unwalkable, a valid move position, unoccupied, with payload 0. */
  function NewCell(x: int, y: int): (c: Cell)
    ensures c.x == x && c.y == y
    ensures !c.walkable && c.validMove && c.unit == None && c.value == 0.0
  {
    Cell(x, y, 0.0, false, true, None)
  }

  function SetUnit(c: Cell, u: UnitId): (r: Cell)
    ensures r.unit == Some(u)
    ensures r.walkable == c.walkable && r.validMove == c.validMove
    ensures r.x == c.x && r.y == c.y && r.value == c.value
  {
    c.(unit := Some(u))
  }

  function ClearUnit(c: Cell): (r: Cell)
    ensures r.unit == None
    ensures r.walkable == c.walkable && r.validMove == c.validMove
    ensures r.x == c.x && r.y == c.y && r.value == c.value
  {
    c.(unit := None)
  }

  /** The `IsWalkable` setter. */
  function SetWalkable(c: Cell, b: bool): (r: Cell)
    ensures r.walkable == b
    ensures r.validMove == c.validMove && r.unit == c.unit
    ensures r.x == c.x && r.y == c.y && r.value == c.value
  {
    c.(walkable := b)
  }

  /** The `IsValidMovePos` setter. */
  function SetValidMove(c: Cell, b: bool): (r: Cell)
    ensures r.validMove == b
    ensures r.walkable == c.walkable && r.unit == c.unit
    ensures r.x == c.x && r.y == c.y && r.value == c.value
  {
    c.(validMove := b)
  }

  /** `SetValue(v)`: stores the payload and asks the owning grid to raise a
      change notification for the cell's own coordinates. */
  function SetValue(c: Cell, v: real): (r: (Cell, Coord))
    ensures r.0.value == v
    ensures r.1 == Coord(c.x, c.y)
    ensures r.0.walkable == c.walkable && r.0.validMove == c.validMove && r.0.unit == c.unit
    ensures r.0.x == c.x && r.0.y == c.y
  {
    (c.(value := v), Coord(c.x, c.y))
  }

  /** Stores a new payload in the cell at (x, y) of a grid of cells; the
      notification is the one `TriggerGridObjectChanged` raises. */
  function SetCellValue(g: Grid<Cell>, x: int, y: int, v: real): (r: Updated<Cell>)
    requires g.Valid() && g.InBounds(x, y)
    ensures r.grid.Valid() && AgreeExcept(g, r.grid, x, y)
    ensures r.grid.cells[x][y].value == v
    ensures r.raised == [Coord(g.cells[x][y].x, g.cells[x][y].y)]
  {
    var (c, at) := SetValue(g.cells[x][y], v);
    var t := TriggerGridObjectChanged(g, at.x, at.y);
    Updated(Put(t.grid, x, y, c), t.raised)
  }

  /** `ToString()` = `$"[{x},{y}, {IsWalkable}]"`. */
  function CellText(c: Cell): string {
    "[" + IntToString(c.x) + "," + IntToString(c.y) + ", " + BoolToString(c.walkable) + "]"
  }

  /** Reads "[x,y, b]" back into its three fields. */
  function ParseCellText(s: string): Option<(int, int, bool)> {
    if |s| < 2 || s[0] != '[' || s[|s| - 1] != ']' then None
    else
      match SplitAtComma(s[1..|s| - 1])
      case None => None
      case Some((xs, rest)) =>
        match SplitAtComma(rest)
        case None => None
        case Some((ys, tail)) =>
          if |tail| == 0 || tail[0] != ' ' then None
          else
            match ParseInt(xs)
            case None => None
            case Some(x) =>
              match ParseInt(ys)
              case None => None
              case Some(y) =>
                match ParseBool(tail[1..])
                case None => None
                case Some(b) => Some((x, y, b))
  }

  /** The text form of a cell determines its coordinates and walkability. */
  lemma CellTextRoundTrip(c: Cell)
    ensures ParseCellText(CellText(c)) == Some((c.x, c.y, c.walkable))
  {
    var xs := IntToString(c.x);
    var ys := IntToString(c.y);
    var tail := " " + BoolToString(c.walkable);
    var rest := ys + "," + tail;
    var inner := xs + "," + rest;
    var s := CellText(c);
    assert s == "[" + inner + "]";
    assert s[1..|s| - 1] == inner;
    IntTextHasNoComma(c.x);
    IntTextHasNoComma(c.y);
    SplitAtCommaJoin(xs, rest);
    SplitAtCommaJoin(ys, tail);
    assert tail[1..] == BoolToString(c.walkable);
    IntRoundTrip(c.x);
    IntRoundTrip(c.y);
    BoolRoundTrip(c.walkable);
  }

  /** Two cells print alike only if they agree on coordinates and walkability. */
  lemma CellTextInjective(c: Cell, d: Cell)
    requires CellText(c) == CellText(d)
    ensures c.x == d.x && c.y == d.y && c.walkable == d.walkable
  {
    CellTextRoundTrip(c);
    CellTextRoundTrip(d);
  }
}

=== FILE: combat.dfy ===
/** `GridCombatSystem`: the turn state machine. The live scene is a map from
    unit ids to units; a destroyed unit (Unity's "fake null") is an id that is
    no longer in the map. Every `void` method of the source is a function from
    state to state. */
module Combat {
  import opened Wrappers
  import opened GridMap
  import opened Cells
  import opened Pathfinding
  import opened Units
  import WorldBuilder
  import Reachability
  import GameManager

  /** `enum State { Normal, Waiting }`. */
  datatype Phase = Normal | Waiting

  /** The game settings the orchestrator reads, and the path search. */
  datatype Env = Env(maxMoveDistance: int, maxActionPoints: int, findPath: PathOracle)

  datatype CombatState = CombatState(
    grid: Grid<Cell>,
    units: map<UnitId, Unit>,
    roster: Option<seq<UnitId>>,   // `units`: null until the first `StartRound`
    blue: seq<UnitId>,             // `blueTeam`
    red: seq<UnitId>,              // `redTeam`
    blueIndex: int,
    redIndex: int,
    active: Option<UnitId>,
    phase: Phase,
    canMove: bool,
    canAttack: bool,
    actionPoints: int,
    escape: Option<Coord>,         // `GameManager.GetEscapeCell()`
    ended: seq<bool>)              // the `EndGame(playerWon)` calls made so far

  /** `activeUnit == null`, with Unity's null for a destroyed unit. */
  predicate ActiveIsNull(s: CombatState) {
    s.active.None? || s.active.value !in s.units
  }

  ghost predicate Inv(s: CombatState) {
    && s.grid.Valid()
    && (forall id :: id in s.units ==> s.grid.Contains(s.units[id].pos))
    && (forall id :: id in s.units && s.units[id].spawn.Some? ==> s.grid.Contains(s.units[id].spawn.value))
    && (forall id :: id in s.blue && id in s.units ==> s.units[id].team == Blue)
    && (forall id :: id in s.red && id in s.units ==> s.units[id].team == Red)
    && s.blueIndex >= -1 && s.redIndex >= -1
  }

  /** What `Inv` depends on: the same unit map, a grid of the same size, and
      team lists that gained only units of their own team. */
  lemma InvFrame(s: CombatState, r: CombatState)
    requires Inv(s)
    requires r.grid.Valid() && r.grid.width == s.grid.width && r.grid.height == s.grid.height
    requires r.units == s.units
    requires forall id :: id in r.blue && id in s.units ==> id in s.blue || s.units[id].team == Blue
    requires forall id :: id in r.red && id in s.units ==> id in s.red || s.units[id].team == Red
    requires r.blueIndex >= -1 && r.redIndex >= -1
    ensures Inv(r)
  {
  }

  /** Replacing a unit by one inside the grid, with the same spawner and
      team, keeps `Inv`. */
  lemma InvUnitUpdate(s: CombatState, id: UnitId, u: Unit)
    requires Inv(s) && id in s.units
    requires s.grid.Contains(u.pos) && u.spawn == s.units[id].spawn && u.team == s.units[id].team
    ensures Inv(s.(units := s.units[id := u]))
  {
  }

  /** Removing a unit from the scene keeps `Inv`. */
  lemma InvRemoveUnit(s: CombatState, id: UnitId)
    requires Inv(s)
    ensures Inv(s.(units := s.units - {id}))
  {
  }

  /** The grids differ at most in valid-move flags. */
  ghost predicate SameGround(g: Grid<Cell>, h: Grid<Cell>) {
    && WorldBuilder.SameShape(g, h)
    && forall a, b :: g.InBounds(a, b) ==> h.cells[a][b] == SetValidMove(g.cells[a][b], h.cells[a][b].validMove)
  }

  /** The valid-move flags of `h` are those the sweep around `u` computes
      on `g`. */
  ghost predicate SweptAround(g: Grid<Cell>, h: Grid<Cell>, u: Coord, env: Env) {
    && WorldBuilder.SameShape(g, h)
    && forall x, y :: g.InBounds(x, y) ==>
         (h.cells[x][y].validMove <==> Reachability.SweepFlag(g, u, env.maxMoveDistance, env.findPath, x, y))
  }

  /** The sweep reads only the shape and the walkable flags of the grid it
      runs on, so it gives the same flags on a grid that differs from it
      only in occupants and valid-move flags. */
  lemma SweptAroundSameWalkable(g: Grid<Cell>, g1: Grid<Cell>, h: Grid<Cell>, u: Coord, env: Env)
    requires WorldBuilder.SameShape(g, g1)
    requires forall a, b :: g.InBounds(a, b) ==> g1.cells[a][b].walkable == g.cells[a][b].walkable
    requires SweptAround(g1, h, u, env)
    ensures SweptAround(g, h, u, env)
  {
    forall x, y | g.InBounds(x, y)
      ensures Reachability.SweepFlag(g, u, env.maxMoveDistance, env.findPath, x, y)
              == Reachability.SweepFlag(g1, u, env.maxMoveDistance, env.findPath, x, y)
    {
    }
  }

  /** A cell with the given occupant (`SetUnit(u)` with `u` possibly null). */
  function Occupy(c: Cell, who: Option<UnitId>): (r: Cell)
    ensures r.unit == who
    ensures r.walkable == c.walkable && r.validMove == c.validMove
    ensures r.x == c.x && r.y == c.y && r.value == c.value
  {
    match who
    case Some(id) => SetUnit(c, id)
    case None => ClearUnit(c)
  }

  /** The occupant a cell reports: `GetUnit()`, null when the unit is gone. */
  function Occupant(s: CombatState, c: Coord): Option<UnitId>
    requires s.grid.Valid() && s.grid.Contains(c)
  {
    var o := s.grid.cells[c.x][c.y].unit;
    if o.Some? && o.value in s.units then o else None
  }

  // ---------------------------------------------------------------------
  // Lists of units

  /** `List.Remove(x)`: drops the first occurrence, if any. */
  function RemoveFirst(xs: seq<UnitId>, x: UnitId): (r: seq<UnitId>)
    ensures x in xs ==> |r| == |xs| - 1
    ensures x !in xs ==> r == xs
    ensures multiset(r) == multiset(xs) - multiset{x}
    ensures forall y :: y in r ==> y in xs
  {
    if |xs| == 0 then xs
    else if xs[0] == x then
      assert xs == [xs[0]] + xs[1..];
      xs[1..]
    else
      assert xs == [xs[0]] + xs[1..];
      [xs[0]] + RemoveFirst(xs[1..], x)
  }

  /** `RemoveAll(unit => unit == null || !unit.gameObject.activeSelf)`: keeps
      the entries whose unit still exists, in order. */
  function Prune(units: map<UnitId, Unit>, ids: seq<UnitId>): (r: seq<UnitId>)
    ensures |r| <= |ids|
    ensures forall id :: id in r <==> id in ids && id in units
    ensures (forall i :: 0 <= i < |ids| ==> ids[i] in units) ==> r == ids
  {
    if |ids| == 0 then ids
    else
      assert ids == [ids[0]] + ids[1..];
      if ids[0] in units then [ids[0]] + Prune(units, ids[1..]) else Prune(units, ids[1..])
  }

  /** `List.Remove` drops exactly the first occurrence: everything before it
      and everything after it stays, in order. */
  lemma {:induction false} RemoveFirstSplits(xs: seq<UnitId>, x: UnitId, k: int)
    requires 0 <= k < |xs| && xs[k] == x
    requires forall j :: 0 <= j < k ==> xs[j] != x
    ensures RemoveFirst(xs, x) == xs[..k] + xs[k + 1..]
  {
    if k == 0 {
      assert xs[..0] + xs[1..] == xs[1..];
    } else {
      RemoveFirstSplits(xs[1..], x, k - 1);
      RemoveFirstPastHead(xs, x);
      SplitPastHead(xs, k);
    }
  }

  /** Past a head that differs, `RemoveFirst` keeps the head and works on
      the tail. */
  lemma RemoveFirstPastHead(xs: seq<UnitId>, x: UnitId)
    requires |xs| > 0 && xs[0] != x
    ensures RemoveFirst(xs, x) == [xs[0]] + RemoveFirst(xs[1..], x)
  {
  }

  /** Cutting element `k` out of a list is keeping the head and cutting
      element `k - 1` out of the tail. */
  lemma SplitPastHead(xs: seq<UnitId>, k: int)
    requires 0 < k < |xs|
    ensures [xs[0]] + (xs[1..][..k - 1] + xs[1..][k..]) == xs[..k] + xs[k + 1..]
  {
    assert [xs[0]] + xs[1..][..k - 1] == xs[..k];
    assert xs[1..][k..] == xs[k + 1..];
  }

  /** `RemoveAll` keeps the survivors in order: pruning a concatenation
      prunes each part. */
  lemma {:induction false} PruneAppend(units: map<UnitId, Unit>, a: seq<UnitId>, b: seq<UnitId>)
    ensures Prune(units, a + b) == Prune(units, a) + Prune(units, b)
  {
    if |a| == 0 {
      assert a + b == b;
    } else {
      assert (a + b)[0] == a[0];
      assert (a + b)[1..] == a[1..] + b;
      PruneAppend(units, a[1..], b);
    }
  }

  /** `Prune` only looks at which ids exist. */
  lemma {:induction false} PruneSameKeys(u1: map<UnitId, Unit>, u2: map<UnitId, Unit>, ids: seq<UnitId>)
    requires u1.Keys == u2.Keys
    ensures Prune(u1, ids) == Prune(u2, ids)
  {
    if |ids| > 0 {
      assert ids[0] in u1 <==> ids[0] in u2;
      PruneSameKeys(u1, u2, ids[1..]);
    }
  }

  /** The ids of the given team, in scan order. */
  function OfTeam(units: map<UnitId, Unit>, order: seq<UnitId>, t: Team): (r: seq<UnitId>)
    requires forall i :: 0 <= i < |order| ==> order[i] in units
    ensures forall id :: id in r <==> id in order && units[id].team == t
    ensures forall i :: 0 <= i < |r| ==> r[i] in units
  {
    if |order| == 0 then []
    else
      assert order == [order[0]] + order[1..];
      if units[order[0]].team == t then [order[0]] + OfTeam(units, order[1..], t)
      else OfTeam(units, order[1..], t)
  }

  // ---------------------------------------------------------------------
  // Set-up

  /** `Awake`: empty rosters, indices -1, waiting. The grid and the scene are
      whatever the world builder and the spawners made. */
  function Awake(g: Grid<Cell>, units: map<UnitId, Unit>): (s: CombatState)
    requires g.Valid()
    requires forall id :: id in units ==> g.Contains(units[id].pos)
    requires forall id :: id in units && units[id].spawn.Some? ==> g.Contains(units[id].spawn.value)
    ensures Inv(s) && ActiveIsNull(s) && s.phase == Waiting
    ensures s.blue == [] && s.red == [] && s.blueIndex == -1 && s.redIndex == -1 && s.active.None?
    ensures s.grid == g && s.units == units && s.ended == []
  {
    CombatState(g, units, None, [], [], -1, -1, None, Waiting, false, false, 0, None, [])
  }

  /** Every listed unit exists and stands inside the grid. */
  predicate Placeable(g: Grid<Cell>, units: map<UnitId, Unit>, order: seq<UnitId>) {
    forall id :: id in order ==> id in units && g.Contains(units[id].pos)
  }

  /** The grid half of the `foreach (Unit unit in units)` loop of
      `StartRound`: each unit is written onto the cell it stands on, so the
      last unit of `order` on a cell is the one recorded there. */
  function PlaceUnits(g: Grid<Cell>, units: map<UnitId, Unit>, order: seq<UnitId>): (h: Grid<Cell>)
    requires g.Valid() && Placeable(g, units, order)
    ensures WorldBuilder.SameShape(g, h)
    ensures forall a, b :: g.InBounds(a, b) ==> h.cells[a][b] == Occupy(g.cells[a][b], h.cells[a][b].unit)
    ensures forall a, b :: g.InBounds(a, b) && (forall id :: id in order ==> units[id].pos != Coord(a, b)) ==>
              h.cells[a][b] == g.cells[a][b]
    decreases |order|
  {
    if |order| == 0 then g
    else
      var id := order[0];
      var p := units[id].pos;
      assert id in order;
      assert forall k :: k in order[1..] ==> k in order;
      PlaceUnits(Put(g, p.x, p.y, SetUnit(g.cells[p.x][p.y], id)), units, order[1..])
  }

  /** A unit that no later unit of `order` shares a cell with is the one
      recorded on its cell. */
  lemma {:induction false} PlaceUnitsLastWriter(g: Grid<Cell>, units: map<UnitId, Unit>, order: seq<UnitId>, i: int)
    requires g.Valid() && Placeable(g, units, order)
    requires 0 <= i < |order|
    requires forall j :: i < j < |order| ==> units[order[j]].pos != units[order[i]].pos
    ensures var p := units[order[i]].pos; var h := PlaceUnits(g, units, order);
            g.Contains(p) && h.cells[p.x][p.y].unit == Some(order[i])
    decreases |order|
  {
    var id := order[0];
    var p := units[id].pos;
    assert id in order;
    assert forall k :: k in order[1..] ==> k in order;
    var g1 := Put(g, p.x, p.y, SetUnit(g.cells[p.x][p.y], id));
    assert order[i] in order;
    if i > 0 {
      assert order[1..][i - 1] == order[i];
      assert forall j :: i - 1 < j < |order| - 1 ==> order[1..][j] == order[j + 1];
      PlaceUnitsLastWriter(g1, units, order[1..], i - 1);
    } else {
      assert forall k :: k in order[1..] ==> units[k].pos != p by {
        forall k | k in order[1..] ensures units[k].pos != p {
          var j :| 0 <= j < |order[1..]| && order[1..][j] == k;
          assert order[j + 1] == k;
        }
      }
    }
  }

  /** The `foreach (Unit unit in units)` loop of `StartRound`: each unit is
      written onto its cell and appended to its team's list (anything not
      blue goes to red); the lists are not cleared first. The loop's grid
      writes and list appends touch different fields, so they are applied
      one after the other. */
  function Enlist(s: CombatState, order: seq<UnitId>): (r: CombatState)
    requires Inv(s)
    requires forall i :: 0 <= i < |order| ==> order[i] in s.units
    ensures Inv(r)
    ensures r == s.(grid := r.grid, blue := r.blue, red := r.red)
    ensures r.grid == PlaceUnits(s.grid, s.units, order)
    ensures r.blue == s.blue + OfTeam(s.units, order, Blue)
    ensures r.red == s.red + OfTeam(s.units, order, Red)
    ensures forall id :: id in r.blue <==> id in s.blue || (id in order && s.units[id].team == Blue)
    ensures forall id :: id in r.red <==> id in s.red || (id in order && s.units[id].team == Red)
  {
    var g := PlaceUnits(s.grid, s.units, order);
    var blue := OfTeam(s.units, order, Blue);
    var red := OfTeam(s.units, order, Red);
    var r := s.(grid := g, blue := s.blue + blue, red := s.red + red);
    InvFrame(s, r);
    r
  }

  /** `(index + 1) % count` for an index that is never below -1: the next
      position in the list, wrapping to the front past the end. An index left
      over from a longer list is reduced modulo the new length. */
  function NextIndex(index: int, count: int): (i: int)
    requires index >= -1 && count > 0
    ensures 0 <= i < count
    ensures exists laps: nat :: index + 1 == laps * count + i
    ensures index + 1 < count ==> i == index + 1
    ensures index + 1 == count ==> i == 0
  {
    var i := (index + 1) % count;
    var laps: nat := (index + 1) / count;
    assert index + 1 == laps * count + i;
    i
  }

  /** `GetNextActiveUnit(team)`: advances the team's index cyclically and
      returns the unit it lands on. */
  function GetNextActiveUnit(s: CombatState, t: Team): (r: (CombatState, UnitId))
    requires s.blueIndex >= -1 && s.redIndex >= -1
    requires t == Blue ==> |s.blue| > 0
    requires t == Red ==> |s.red| > 0
    ensures t == Blue ==>
              && r.0 == s.(blueIndex := NextIndex(s.blueIndex, |s.blue|))
              && r.1 == s.blue[r.0.blueIndex]
    ensures t == Red ==>
              && r.0 == s.(redIndex := NextIndex(s.redIndex, |s.red|))
              && r.1 == s.red[r.0.redIndex]
  {
    if t == Blue then
      var i := NextIndex(s.blueIndex, |s.blue|);
      (s.(blueIndex := i), s.blue[i])
    else
      var i := NextIndex(s.redIndex, |s.red|);
      (s.(redIndex := i), s.red[i])
  }

  /** `UpdateValidMovePositions()`: with an active unit, the sweep around its
      cell; without one, nothing. */
  function UpdateValidMovePositions(s: CombatState, env: Env): (r: CombatState)
    requires Inv(s)
    ensures Inv(r)
    ensures r == s.(grid := r.grid)
    ensures SameGround(s.grid, r.grid)
    ensures ActiveIsNull(s) ==> r == s
    ensures !ActiveIsNull(s) ==> SweptAround(s.grid, r.grid, s.units[s.active.value].pos, env)
  {
    if ActiveIsNull(s) then s
    else
      var u := s.units[s.active.value].pos;
      Reachability.SweptShape(s.grid, u, env.maxMoveDistance, env.findPath);
      s.(grid := Reachability.Swept(s.grid, u, env.maxMoveDistance, env.findPath))
  }

  /** `SetActiveUnit(unit)`. */
  function SetActiveUnit(s: CombatState, env: Env, id: UnitId): (r: CombatState)
    requires Inv(s) && id in s.units
    ensures Inv(r)
    ensures r == s.(active := Some(id), grid := r.grid)
    ensures SameGround(s.grid, r.grid)
    ensures SweptAround(s.grid, r.grid, s.units[id].pos, env)
  {
    UpdateValidMovePositions(s.(active := Some(id)), env)
  }

  /** Which faction `SelectNextActiveUnit` draws from once both lists are
      pruned: the only non-empty one, otherwise blue exactly when the current
      active unit is gone or red. */
  predicate PicksBlue(s: CombatState)
    requires Inv(s)
  {
    var blue := Prune(s.units, s.blue);
    var red := Prune(s.units, s.red);
    |blue| > 0 && (|red| == 0 || ActiveIsNull(s) || s.units[s.active.value].team == Red)
  }

  /** The second half of `SelectNextActiveUnit`: the next unit of `team`
      becomes active with a fresh move and attack. */
  function HandTurnTo(s: CombatState, env: Env, team: Team): (r: CombatState)
    requires Inv(s)
    requires team == Blue ==> |s.blue| > 0 && forall id :: id in s.blue ==> id in s.units
    requires team == Red ==> |s.red| > 0 && forall id :: id in s.red ==> id in s.units
    ensures Inv(r)
    ensures r.blue == s.blue && r.red == s.red && r.units == s.units && r.roster == s.roster
    ensures r.phase == s.phase && r.actionPoints == s.actionPoints && r.escape == s.escape && r.ended == s.ended
    ensures SameGround(s.grid, r.grid)
    ensures r.active.Some? && r.active.value in r.units && r.canMove && r.canAttack
    ensures team == Blue ==> r.blueIndex == NextIndex(s.blueIndex, |s.blue|) && r.active == Some(s.blue[r.blueIndex])
    ensures team == Red ==> r.redIndex == NextIndex(s.redIndex, |s.red|) && r.active == Some(s.red[r.redIndex])
    ensures SweptAround(s.grid, r.grid, r.units[r.active.value].pos, env)
  {
    var next := GetNextActiveUnit(s, team);
    var s2 := SetActiveUnit(next.0, env, next.1);
    s2.(canMove := true, canAttack := true)
  }

  /** `SelectNextActiveUnit()`: prune both teams; with nobody left change
      nothing else; otherwise hand the turn to the next unit of the chosen
      faction, sweep its reachable cells and give it a fresh move and attack. */
  function SelectNextActiveUnit(s: CombatState, env: Env): (r: CombatState)
    requires Inv(s)
    ensures Inv(r)
    ensures r.blue == Prune(s.units, s.blue) && r.red == Prune(s.units, s.red)
    ensures r.units == s.units && r.roster == s.roster && r.phase == s.phase
    ensures r.actionPoints == s.actionPoints && r.escape == s.escape && r.ended == s.ended
    ensures SameGround(s.grid, r.grid)
    ensures |r.blue| == 0 && |r.red| == 0 ==> r == s.(blue := [], red := [])
    ensures |r.blue| + |r.red| > 0 ==>
              && r.active.Some? && r.active.value in r.units
              && r.canMove && r.canAttack
              && (PicksBlue(s) ==> r.active.value in r.blue && r.units[r.active.value].team == Blue)
              && (!PicksBlue(s) ==> r.active.value in r.red && r.units[r.active.value].team == Red)
              && (PicksBlue(s) ==> r.blueIndex == NextIndex(s.blueIndex, |r.blue|) && r.active == Some(r.blue[r.blueIndex]))
              && (!PicksBlue(s) ==> r.redIndex == NextIndex(s.redIndex, |r.red|) && r.active == Some(r.red[r.redIndex]))
              && SweptAround(s.grid, r.grid, r.units[r.active.value].pos, env)
  {
    var s1 := s.(blue := Prune(s.units, s.blue), red := Prune(s.units, s.red));
    InvFrame(s, s1);
    if |s1.blue| == 0 && |s1.red| == 0 then s1
    else
      var team :=
        if |s1.blue| == 0 then Red
        else if |s1.red| == 0 then Blue
        else if ActiveIsNull(s1) || s1.units[s1.active.value].team == Red then Blue
        else Red;
      assert team == Blue <==> PicksBlue(s);
      HandTurnTo(s1, env, team)
  }

  /** The scene `StartRound` selects from: full action points, the roster
      recorded and every unit of `order` written onto its cell and enlisted. */
  function Enrolled(s: CombatState, env: Env, order: seq<UnitId>): (e: CombatState)
    requires Inv(s)
    requires forall i :: 0 <= i < |order| ==> order[i] in s.units
    ensures Inv(e)
    ensures e == s.(actionPoints := env.maxActionPoints, roster := Some(order), grid := e.grid, blue := e.blue, red := e.red)
    ensures Placeable(s.grid, s.units, order) && e.grid == PlaceUnits(s.grid, s.units, order)
    ensures e.blue == s.blue + OfTeam(s.units, order, Blue) && e.red == s.red + OfTeam(s.units, order, Red)
    ensures forall id :: id in e.blue <==> id in s.blue || (id in order && s.units[id].team == Blue)
    ensures forall id :: id in e.red <==> id in s.red || (id in order && s.units[id].team == Red)
  {
    assert Placeable(s.grid, s.units, order);
    Enlist(s.(actionPoints := env.maxActionPoints, roster := Some(order)), order)
  }

  /** `StartRound()`: full action points, register every unit of the scene
      (in `order`, the engine's instance-id order), pick the first active unit
      and start accepting input. */
  function StartRound(s: CombatState, env: Env, order: seq<UnitId>): (r: CombatState)
    requires Inv(s)
    requires forall i :: 0 <= i < |order| ==> order[i] in s.units
    ensures Inv(r)
    ensures r.actionPoints == env.maxActionPoints
    ensures r.phase == Normal
    ensures r.roster == Some(order)
    ensures r.units == s.units && r.ended == s.ended
    ensures forall id :: id in r.blue <==> (id in s.blue && id in s.units) || (id in order && s.units[id].team == Blue)
    ensures forall id :: id in r.red <==> (id in s.red && id in s.units) || (id in order && s.units[id].team == Red)
    ensures r.blue == Prune(s.units, s.blue + OfTeam(s.units, order, Blue))
    ensures r.red == Prune(s.units, s.red + OfTeam(s.units, order, Red))
    ensures Placeable(s.grid, s.units, order) && SameGround(PlaceUnits(s.grid, s.units, order), r.grid)
    ensures |r.blue| + |r.red| > 0 ==>
              && r.active.Some? && r.active.value in r.units
              && r.canMove && r.canAttack
              && (|r.blue| > 0 && (|r.red| == 0 || ActiveIsNull(s) || s.units[s.active.value].team == Red) ==>
                    r.units[r.active.value].team == Blue)
              && (!(|r.blue| > 0 && (|r.red| == 0 || ActiveIsNull(s) || s.units[s.active.value].team == Red)) ==>
                    r.units[r.active.value].team == Red)
              && SweptAround(PlaceUnits(s.grid, s.units, order), r.grid, r.units[r.active.value].pos, env)
  {
    var e := Enrolled(s, env, order);
    var r := SelectNextActiveUnit(e, env);
    assert PicksBlue(e) <==> |r.blue| > 0 && (|r.red| == 0 || ActiveIsNull(s) || s.units[s.active.value].team == Red);
    r.(phase := Normal)
  }

  // ---------------------------------------------------------------------
  // End of the round

  /** `ClearStage` and the state change of `EndGame(playerWon)`; the menus,
      the selector meshes and the removal of the spawned units are outside
      the model (the removal reaches the model as `DestroyUnit` events). */
  function EndGame(s: CombatState, won: bool): (r: CombatState)
    requires Inv(s)
    ensures Inv(r)
    ensures r.ended == s.ended + [won]
    ensures r.phase == Waiting && ActiveIsNull(r)
    ensures r.blue == [] && r.red == [] && r.roster == Some([])
    ensures r.units == s.units && r.grid == s.grid && r.actionPoints == s.actionPoints && r.escape == s.escape
    ensures r.canMove == s.canMove && r.canAttack == s.canAttack
  {
    s.(phase := Waiting, active := None, roster := Some([]), blue := [], red := [],
       blueIndex := -1, redIndex := -1, ended := s.ended + [won])
  }

  /** Some existing blue unit stands on the escape cell. */
  predicate BlueOnEscape(s: CombatState) {
    exists i :: 0 <= i < |s.blue| && s.blue[i] in s.units && s.escape == Some(s.units[s.blue[i]].pos)
  }

  /** `CheckEscapeCondition()`: a blue unit on the escape cell wins the round;
      otherwise an empty blue list (unpruned) loses it. */
  function CheckEscapeCondition(s: CombatState): (r: CombatState)
    requires Inv(s)
    ensures Inv(r)
    ensures r.units == s.units && r.grid == s.grid && r.actionPoints == s.actionPoints && r.escape == s.escape
    ensures BlueOnEscape(s) ==> r.ended == s.ended + [true] && r.phase == Waiting && ActiveIsNull(r)
    ensures !BlueOnEscape(s) && |s.blue| == 0 ==> r.ended == s.ended + [false] && r.phase == Waiting
    ensures !BlueOnEscape(s) && |s.blue| > 0 ==> r == s
  {
    if BlueOnEscape(s) then EndGame(s, true)
    else if |s.blue| == 0 then EndGame(s, false)
    else s
  }

  /** `CheckTeamDefeat()`: prune both lists; no blue unit left loses the round.
      No red unit left only logs: the round goes on. */
  function CheckTeamDefeat(s: CombatState): (r: CombatState)
    requires Inv(s)
    ensures Inv(r)
    ensures r.units == s.units && r.grid == s.grid && r.actionPoints == s.actionPoints && r.escape == s.escape
    ensures |Prune(s.units, s.blue)| == 0 ==> r.ended == s.ended + [false] && r.phase == Waiting && ActiveIsNull(r)
    ensures |Prune(s.units, s.blue)| > 0 ==>
              r == s.(blue := Prune(s.units, s.blue), red := Prune(s.units, s.red))
  {
    var s1 := s.(blue := Prune(s.units, s.blue), red := Prune(s.units, s.red));
    if |s1.blue| == 0 then EndGame(s1, false) else s1
  }

  // ---------------------------------------------------------------------
  // Leaving the game

  /** `Unsubscribe(unit)`: before the first round it does nothing; afterwards
      it clears the cell under the unit and drops the unit from the unit list
      and from the red list, or else from the blue list. */
  function Unsubscribe(s: CombatState, id: UnitId): (r: CombatState)
    requires Inv(s) && id in s.units
    ensures Inv(r)
    ensures r.units == s.units && r.active == s.active && r.phase == s.phase
    ensures r.actionPoints == s.actionPoints && r.escape == s.escape && r.ended == s.ended
    ensures r.blueIndex == s.blueIndex && r.redIndex == s.redIndex && r.canMove == s.canMove && r.canAttack == s.canAttack
    ensures s.roster.None? ==> r == s
    ensures s.roster.Some? ==>
              && AgreeExcept(s.grid, r.grid, s.units[id].pos.x, s.units[id].pos.y)
              && r.grid.cells[s.units[id].pos.x][s.units[id].pos.y] == ClearUnit(s.grid.cells[s.units[id].pos.x][s.units[id].pos.y])
              && r.roster == Some(RemoveFirst(s.roster.value, id))
              && (id in s.red ==> r.blue == s.blue && r.red == RemoveFirst(s.red, id))
              && (id !in s.red ==> r.red == s.red && r.blue == RemoveFirst(s.blue, id))
  {
    if s.roster.None? then s
    else
      var p := s.units[id].pos;
      var g := Put(s.grid, p.x, p.y, ClearUnit(s.grid.cells[p.x][p.y]));
      var inRed := id in s.red;
      var red := if inRed then RemoveFirst(s.red, id) else s.red;
      var blue := if inRed then s.blue else RemoveFirst(s.blue, id);
      var r := s.(grid := g, roster := Some(RemoveFirst(s.roster.value, id)), red := red, blue := blue);
      InvFrame(s, r);
      r
  }

  /** From `s` to `r` the round either went on in the same phase, or it
      ended (more `EndGame` calls were made) and input stopped. */
  predicate GoesOnOrEnds(s: CombatState, r: CombatState) {
    || (r.ended == s.ended && r.phase == s.phase)
    || (|r.ended| > |s.ended| && r.phase == Waiting)
  }

  lemma GoesOnOrEndsChains(a: CombatState, b: CombatState, c: CombatState)
    requires GoesOnOrEnds(a, b) && GoesOnOrEnds(b, c)
    ensures GoesOnOrEnds(a, c)
  {
  }

  /** The units of `b` are those of `a` after a hit of `damage` on `target`:
      the target's health drops, floored at zero, every other unit keeps its
      health, and nothing else about any unit changes but where it stands. */
  ghost predicate Hit(a: map<UnitId, Unit>, b: map<UnitId, Unit>, target: UnitId, damage: int) {
    && OnlyMovedOrHit(a, b)
    && (forall id :: id in a && id != target ==> b[id].health == a[id].health)
    && (target in a ==> b[target].health.health == Health.Max(a[target].health.health - damage, 0))
  }

  /** A hit followed by moves is still the same hit. */
  lemma HitThenMoved(a: map<UnitId, Unit>, b: map<UnitId, Unit>, c: map<UnitId, Unit>, target: UnitId, damage: int)
    requires Hit(a, b, target, damage) && OnlyMoved(b, c)
    ensures Hit(a, c, target, damage)
  {
    forall id | id in a ensures c[id] == a[id].(pos := c[id].pos, health := c[id].health) {
      assert c[id] == b[id].(pos := c[id].pos);
    }
  }

  /** `unit.TakeDamage(d)`: a unit that is already gone takes nothing; a
      lethal hit runs `OnUnitDeath` (unsubscribe, then `CheckTeamDefeat`). */
  function DamageUnit(s: CombatState, target: UnitId, damage: int): (r: CombatState)
    requires Inv(s)
    ensures Inv(r)
    ensures r.actionPoints == s.actionPoints && r.escape == s.escape
    ensures r.units.Keys == s.units.Keys
    ensures target !in s.units ==> r == s
    ensures target in s.units ==>
              r.units[target].health.health == Health.Max(s.units[target].health.health - damage, 0)
    ensures target in s.units && r.units[target].health.health > 0 ==>
              r == s.(units := s.units[target := r.units[target]])
    ensures target in s.units ==>
              && r.units == s.units[target := r.units[target]]
              && r.units[target] == s.units[target].(health := r.units[target].health)
    ensures Hit(s.units, r.units, target, damage)
    ensures GoesOnOrEnds(s, r)
    ensures r.canMove == s.canMove && r.canAttack == s.canAttack
    ensures r.ended == s.ended ==> r.active == s.active && r.phase == s.phase
  {
    if target !in s.units then s
    else
      var (u, died) := Units.TakeDamage(s.units[target], damage);
      InvUnitUpdate(s, target, u);
      var s1 := s.(units := s.units[target := u]);
      assert Hit(s.units, s1.units, target, damage);
      var r := if died then CheckTeamDefeat(Unsubscribe(s1, target)) else s1;
      assert r.units == s1.units;
      r
  }

  /** The engine destroys a unit: `OnDisable` unsubscribes it, then it is gone. */
  function DestroyUnit(s: CombatState, id: UnitId): (r: CombatState)
    requires Inv(s) && id in s.units
    ensures Inv(r)
    ensures id !in r.units && r.units == s.units - {id}
    ensures r.actionPoints == s.actionPoints && r.phase == s.phase && r.ended == s.ended
  {
    var s1 := Unsubscribe(s, id);
    InvRemoveUnit(s1, id);
    s1.(units := s1.units - {id})
  }

  // ---------------------------------------------------------------------
  // Turn over

  /** The active unit is an existing blue unit. */
  predicate BlueActive(s: CombatState) {
    !ActiveIsNull(s) && s.units[s.active.value].team == Blue
  }

  /** A turn-over that neither wins nor loses the round finds a next unit:
      the round is not won on the escape cell, the blue list is not empty,
      and some listed unit still exists. */
  predicate CanHandOver(s: CombatState) {
    && !BlueOnEscape(s) && |s.blue| > 0
    && |Prune(s.units, s.blue)| + |Prune(s.units, s.red)| > 0
  }

  /** Whether a turn can be handed over depends only on the lists, the
      escape cell, which units exist and where they stand. */
  lemma CanHandOverFrame(s: CombatState, t: CombatState)
    requires t.blue == s.blue && t.red == s.red && t.escape == s.escape && t.units.Keys == s.units.Keys
    requires forall id :: id in s.units ==> t.units[id].pos == s.units[id].pos
    ensures CanHandOver(t) <==> CanHandOver(s)
  {
    PruneSameKeys(s.units, t.units, s.blue);
    PruneSameKeys(s.units, t.units, s.red);
    if BlueOnEscape(s) {
      var i :| 0 <= i < |s.blue| && s.blue[i] in s.units && s.escape == Some(s.units[s.blue[i]].pos);
      assert t.escape == Some(t.units[t.blue[i]].pos);
    }
    if BlueOnEscape(t) {
      var i :| 0 <= i < |t.blue| && t.blue[i] in t.units && t.escape == Some(t.units[t.blue[i]].pos);
      assert s.escape == Some(s.units[s.blue[i]].pos);
    }
  }

  /** `r` gives an existing unit a fresh move and attack, and the round goes
      on as it was. */
  predicate HandedOver(s: CombatState, r: CombatState) {
    && r.active.Some? && r.active.value in r.units
    && r.canMove && r.canAttack
    && r.phase == s.phase && r.ended == s.ended
  }

  /** The middle both turn-over methods share: one action point is spent
      and the escape is checked; at zero points the blue units go back to
      their spawners and, with `refill`, the points are restored. */
  function SpendActionPoint(s: CombatState, env: Env, refill: bool): (r: CombatState)
    requires Inv(s)
    ensures Inv(r)
    ensures r.grid == s.grid && r.escape == s.escape && r.units.Keys == s.units.Keys
    ensures r.actionPoints == if s.actionPoints > 1 || !refill then s.actionPoints - 1 else env.maxActionPoints
    ensures BlueOnEscape(s) ==> r.ended == s.ended + [true] && r.phase == Waiting
    ensures s.actionPoints > 1 ==> r.units == s.units
    ensures s.actionPoints <= 1 && !BlueOnEscape(s) ==>
              forall id :: id in s.blue && id in s.units ==> r.units[id] == ResetToSpawn(s.units[id])
    ensures OnlyMoved(s.units, r.units)
    ensures GoesOnOrEnds(s, r)
    ensures !BlueOnEscape(s) && |s.blue| > 0 ==>
              r.blue == s.blue && r.red == s.red && r.phase == s.phase && r.ended == s.ended
  {
    var s1 := s.(actionPoints := s.actionPoints - 1);
    var s2 := CheckEscapeCondition(s1);
    if s2.actionPoints <= 0 then
      var s3 := s2.(units := GameManager.ResetBlueUnitsToSpawn(s2.units, s2.blue));
      if refill then s3.(actionPoints := env.maxActionPoints) else s3
    else s2
  }

  /** `TestTurnOver()`: once both the move and the attack are spent, a blue
      turn costs an action point and checks the escape; at zero points the
      blue units go back to their spawners. The points are NOT restored
      here. With an action left, only the escape is checked. */
  function TestTurnOver(s: CombatState, env: Env): (r: CombatState)
    requires Inv(s)
    ensures Inv(r)
    ensures SameGround(s.grid, r.grid) && r.escape == s.escape && r.units.Keys == s.units.Keys
    ensures (s.canMove || s.canAttack) && !BlueOnEscape(s) && |s.blue| > 0 ==> r == s
    ensures (s.canMove || s.canAttack || BlueActive(s)) && BlueOnEscape(s) ==> r.ended == s.ended + [true] && r.phase == Waiting
    ensures (s.canMove || s.canAttack) && !BlueOnEscape(s) && |s.blue| == 0 ==> r.ended == s.ended + [false] && r.phase == Waiting
    ensures !s.canMove && !s.canAttack && BlueActive(s) ==> r.actionPoints == s.actionPoints - 1
    ensures !(!s.canMove && !s.canAttack && BlueActive(s)) ==> r.actionPoints == s.actionPoints
    ensures !s.canMove && !s.canAttack && BlueActive(s) && s.actionPoints <= 1 && !BlueOnEscape(s) ==>
              forall id :: id in s.blue && id in s.units ==> r.units[id] == ResetToSpawn(s.units[id])
    ensures OnlyMoved(s.units, r.units)
    ensures GoesOnOrEnds(s, r)
    ensures !s.canMove && !s.canAttack && CanHandOver(s) ==> HandedOver(s, r)
  {
    if !s.canAttack && !s.canMove then
      if BlueActive(s) then
        var s1 := SpendActionPoint(s, env, false);
        HandOverAfterSpend(s, s1);
        SelectNextActiveUnit(s1, env)
      else SelectNextActiveUnit(s, env)
    else CheckEscapeCondition(s)
  }

  /** `ForceTurnOver()`: ends the turn. A blue unit that has spent its move or
      its attack costs an action point; at zero points the blue units go back
      to their spawners and the points are refilled. */
  function ForceTurnOver(s: CombatState, env: Env): (r: CombatState)
    requires Inv(s)
    ensures Inv(r)
    ensures SameGround(s.grid, r.grid) && r.escape == s.escape && r.units.Keys == s.units.Keys
    ensures (!s.canMove || !s.canAttack) && BlueActive(s) ==>
              r.actionPoints == if s.actionPoints > 1 then s.actionPoints - 1 else env.maxActionPoints
    ensures !((!s.canMove || !s.canAttack) && BlueActive(s)) ==> r.actionPoints == s.actionPoints
    ensures (!s.canMove || !s.canAttack) && BlueActive(s) && BlueOnEscape(s) ==> r.ended == s.ended + [true] && r.phase == Waiting
    ensures (!s.canMove || !s.canAttack) && BlueActive(s) && s.actionPoints <= 1 && !BlueOnEscape(s) ==>
              forall id :: id in s.blue && id in s.units ==> r.units[id] == ResetToSpawn(s.units[id])
    ensures OnlyMoved(s.units, r.units)
    ensures GoesOnOrEnds(s, r)
    ensures CanHandOver(s) ==> HandedOver(s, r)
  {
    if (!s.canMove || !s.canAttack) && BlueActive(s) then
      var s1 := SpendActionPoint(s, env, true);
      HandOverAfterSpend(s, s1);
      SelectNextActiveUnit(s1, env)
    else SelectNextActiveUnit(s, env)
  }

  /** Spending a point without ending the round leaves a unit to hand the
      turn to whenever there was one before. */
  lemma HandOverAfterSpend(s: CombatState, s1: CombatState)
    requires Inv(s) && s1.units.Keys == s.units.Keys
    requires CanHandOver(s) ==> s1.blue == s.blue && s1.red == s.red && s1.phase == s.phase && s1.ended == s.ended
    ensures CanHandOver(s) ==>
              |Prune(s1.units, s1.blue)| + |Prune(s1.units, s1.red)| > 0 && s1.phase == s.phase && s1.ended == s.ended
  {
    if CanHandOver(s) {
      PruneSameKeys(s.units, s1.units, s.blue);
      PruneSameKeys(s.units, s1.units, s.red);
    }
  }
}

=== FILE: combat_input.dfy ===
/** `GridCombatSystem.Update` and the completion callbacks: what a mouse click
    or the space bar does in the current state, and what runs when the engine
    reports that a move or an attack animation has finished. */
module CombatInput {
  import opened Wrappers
  import opened GridMap
  import opened Cells
  import opened Pathfinding
  import opened Units
  import opened Combat
  import WorldBuilder

  /** The clicked cell holds a unit that still exists. */
  predicate ClickedOnUnit(s: CombatState, c: Coord)
    requires s.grid.Valid() && s.grid.Contains(c)
  {
    Occupant(s, c).Some?
  }

  /** A click the attack branch of `Update` acts on: an existing enemy on a
      cell the active unit can reach, with its attack still unspent. */
  predicate AttackRequestAccepted(s: CombatState, c: Coord)
    requires Inv(s)
  {
    && !ActiveIsNull(s) && s.phase == Normal
    && s.grid.Contains(c) && ClickedOnUnit(s, c)
    && IsEnemy(s.units[Occupant(s, c).value], s.units[s.active.value])
    && CanAttackUnit(s.grid, s.units[Occupant(s, c).value])
    && s.canAttack
  }

  /** A click the move branch of `Update` acts on: an empty cell flagged as a
      valid move, other than the active unit's own, with the move unspent. */
  predicate MoveRequestAccepted(s: CombatState, c: Coord)
    requires Inv(s)
  {
    && !ActiveIsNull(s) && s.phase == Normal
    && s.grid.Contains(c) && !ClickedOnUnit(s, c)
    && s.grid.cells[c.x][c.y].validMove
    && c != s.units[s.active.value].pos
    && s.canMove
  }

  /** A left click on cell `c` (the cell under `Mouse3D.GetMouseWorldPosition`).
      Outside the grid the source dereferences a null cell and the frame's
      handler stops; nothing has changed by then. An accepted attack stores
      the attack callback; an accepted move spends the move and hands
      `MoveTo` the arrival callback, even when `MoveTo` then refuses. */
  function Click(s: CombatState, env: Env, c: Coord): (r: CombatState)
    requires Inv(s)
    ensures Inv(r)
    ensures r.grid == s.grid && r.units.Keys == s.units.Keys && r.actionPoints == s.actionPoints
    ensures AttackRequestAccepted(s, c) ==>
              && r.phase == Waiting && !r.canAttack && r.canMove == s.canMove
              && r.units == s.units[s.active.value := AttackUnit(s.units[s.active.value], PlayerAttack(Occupant(s, c).value))]
    ensures MoveRequestAccepted(s, c) ==>
              && r.phase == Waiting && !r.canMove && r.canAttack == s.canAttack
              && var u := s.units[s.active.value];
                 r.units == s.units[s.active.value := MoveTo(u, s.grid, c, Some(PlayerMove(u.pos, c)), env.findPath)]
    ensures !AttackRequestAccepted(s, c) && !MoveRequestAccepted(s, c) ==> r == s
  {
    if ActiveIsNull(s) || s.phase == Waiting || !s.grid.Contains(c) then s
    else
      var me := s.active.value;
      var unit := s.units[me];
      var target := Occupant(s, c);
      if target.Some? then
        var t := s.units[target.value];
        if IsEnemy(t, unit) && CanAttackUnit(s.grid, t) && s.canAttack then
          var u := AttackUnit(unit, PlayerAttack(target.value));
          InvUnitUpdate(s, me, u);
          s.(canAttack := false, phase := Waiting, units := s.units[me := u])
        else s
      else if !s.grid.cells[c.x][c.y].validMove || c == unit.pos then s
      else if s.canMove then
        var u := MoveTo(unit, s.grid, c, Some(PlayerMove(unit.pos, c)), env.findPath);
        InvUnitUpdate(s, me, u);
        s.(canMove := false, phase := Waiting, units := s.units[me := u])
      else s
  }

  /** The space bar: `ForceTurnOver()` while input is accepted. */
  function Space(s: CombatState, env: Env): (r: CombatState)
    requires Inv(s)
    ensures Inv(r)
    ensures ActiveIsNull(s) || s.phase == Waiting ==> r == s
    ensures r.actionPoints == s.actionPoints || r.actionPoints == s.actionPoints - 1 || r.actionPoints == env.maxActionPoints
    ensures s.phase == Normal && (!s.canMove || !s.canAttack) && BlueActive(s) ==>
              r.actionPoints == if s.actionPoints > 1 then s.actionPoints - 1 else env.maxActionPoints
    ensures s.phase == Normal && (!s.canMove || !s.canAttack) && BlueActive(s) && BlueOnEscape(s) ==>
              r.ended == s.ended + [true] && r.phase == Waiting
    ensures s.phase == Normal && !ActiveIsNull(s) && CanHandOver(s) ==> HandedOver(s, r)
    ensures s.phase == Normal && !ActiveIsNull(s) && !((!s.canMove || !s.canAttack) && BlueActive(s)) ==>
              r.actionPoints == s.actionPoints
  {
    if ActiveIsNull(s) || s.phase == Waiting then s else ForceTurnOver(s, env)
  }

  /** The click handler leaves the frame early: on a point off the grid (the
      null cell is dereferenced) and on an empty cell that is not a valid
      move or is the active unit's own cell (the early `return`). */
  predicate ClickEndsFrame(s: CombatState, c: Coord)
    requires Inv(s) && !ActiveIsNull(s)
  {
    || !s.grid.Contains(c)
    || (!ClickedOnUnit(s, c) && (!s.grid.cells[c.x][c.y].validMove || c == s.units[s.active.value].pos))
  }

  /** One frame with both a left click and the space bar. The click is
      handled first; the space bar is read afterwards in the same frame, even
      when the click has just made the orchestrator wait, unless the click's
      handler left the frame early. */
  function ClickThenSpace(s: CombatState, env: Env, c: Coord): (r: CombatState)
    requires Inv(s)
    ensures Inv(r)
    ensures ActiveIsNull(s) || s.phase == Waiting ==> r == s
    ensures !ActiveIsNull(s) && s.phase == Normal && ClickEndsFrame(s, c) ==> r == s
    ensures !ActiveIsNull(s) && s.phase == Normal && !ClickEndsFrame(s, c) ==> r == ForceTurnOver(Click(s, env, c), env)
  {
    if ActiveIsNull(s) || s.phase == Waiting then s
    else if ClickEndsFrame(s, c) then s
    else ForceTurnOver(Click(s, env, c), env)
  }

  /** `h` is `g` with an occupant moved from `from` to `to`: the cell left is
      empty, the cell reached holds `who`, and every other occupant and all
      the terrain stay. */
  ghost predicate Transferred(g: Grid<Cell>, h: Grid<Cell>, from: Coord, to: Coord, who: Option<UnitId>) {
    && WorldBuilder.SameShape(g, h)
    && (g.Contains(to) ==> h.cells[to.x][to.y].unit == who)
    && (g.Contains(from) && from != to ==> h.cells[from.x][from.y].unit.None?)
    && (forall a, b :: g.InBounds(a, b) ==> h.cells[a][b].walkable == g.cells[a][b].walkable)
    && (forall a, b :: g.InBounds(a, b) && Coord(a, b) != from && Coord(a, b) != to ==>
          h.cells[a][b].unit == g.cells[a][b].unit)
  }

  /** Recomputing valid-move flags afterwards keeps a transfer a transfer. */
  lemma TransferredThenSwept(g: Grid<Cell>, h: Grid<Cell>, k: Grid<Cell>, from: Coord, to: Coord, who: Option<UnitId>)
    requires Transferred(g, h, from, to, who) && SameGround(h, k)
    ensures Transferred(g, k, from, to, who)
  {
  }

  /** Moves an occupant from one cell to another: the cell left is cleared
      first, then the destination records `who`. */
  function Relocate(g: Grid<Cell>, from: Coord, to: Coord, who: Option<UnitId>): (h: Grid<Cell>)
    requires g.Valid()
    ensures WorldBuilder.SameShape(g, h)
    ensures g.Contains(to) ==> h.cells[to.x][to.y] == Occupy(g.cells[to.x][to.y], who)
    ensures g.Contains(from) && from != to ==> h.cells[from.x][from.y] == ClearUnit(g.cells[from.x][from.y])
    ensures forall a, b :: g.InBounds(a, b) && Coord(a, b) != from && Coord(a, b) != to ==> h.cells[a][b] == g.cells[a][b]
    ensures Transferred(g, h, from, to, who)
  {
    var g1 := if g.Contains(from) then Put(g, from.x, from.y, ClearUnit(g.cells[from.x][from.y])) else g;
    if g1.Contains(to) then Put(g1, to.x, to.y, Occupy(g1.cells[to.x][to.y], who)) else g1
  }

  /** The scene once the player's unit has arrived: input is open again, the
      unit has changed cells and the valid-move flags are swept again around
      the active unit. Nothing else changes. */
  function Stepped(s: CombatState, env: Env, from: Coord, to: Coord): (m: CombatState)
    requires Inv(s)
    ensures Inv(m)
    ensures m == s.(phase := Normal, grid := m.grid)
    ensures Transferred(s.grid, m.grid, from, to, s.active)
    ensures !ActiveIsNull(s) ==> SweptAround(s.grid, m.grid, s.units[s.active.value].pos, env)
  {
    var s1 := s.(phase := Normal, grid := Relocate(s.grid, from, to, s.active));
    InvFrame(s, s1);
    var m := UpdateValidMovePositions(s1, env);
    TransferredThenSwept(s.grid, s1.grid, m.grid, from, to, s.active);
    assert !ActiveIsNull(s) ==> SweptAround(s.grid, m.grid, s.units[s.active.value].pos, env) by {
      if !ActiveIsNull(s) {
        SweptAroundSameWalkable(s.grid, s1.grid, m.grid, s.units[s.active.value].pos, env);
      }
    }
    m
  }

  /** The player's move callback: input reopens, the active unit changes
      cells, its reach is swept again and the end of the turn is tested. With
      an action left the same unit keeps its turn, swept around the cell it
      now stands on, unless the round is over; with both spent a blue unit
      pays a point and the turn is handed over. */
  function PlayerMoveDone(s: CombatState, env: Env, from: Coord, to: Coord): (r: CombatState)
    requires Inv(s)
    ensures Inv(r)
    ensures r.actionPoints == s.actionPoints || r.actionPoints == s.actionPoints - 1
    ensures Transferred(s.grid, r.grid, from, to, s.active)
    ensures OnlyMoved(s.units, r.units)
    ensures GoesOnOrEnds(s.(phase := Normal), r)
    ensures !s.canMove && !s.canAttack && CanHandOver(s) ==> HandedOver(s.(phase := Normal), r)
    ensures !s.canMove && !s.canAttack && BlueActive(s) ==> r.actionPoints == s.actionPoints - 1
    ensures !(!s.canMove && !s.canAttack && BlueActive(s)) ==> r.actionPoints == s.actionPoints
    ensures (s.canMove || s.canAttack) && BlueOnEscape(s) ==> r.ended == s.ended + [true] && r.phase == Waiting
    ensures (s.canMove || s.canAttack) && r.ended == s.ended ==>
              && r.active == s.active && r.canMove == s.canMove && r.canAttack == s.canAttack
              && r.units == s.units && r.phase == Normal
              && (!ActiveIsNull(s) ==> SweptAround(s.grid, r.grid, s.units[s.active.value].pos, env))
  {
    var m := Stepped(s, env, from, to);
    var r := TestTurnOver(m, env);
    TransferredThenSwept(s.grid, m.grid, r.grid, from, to, s.active);
    r
  }

  /** The scene once the player's hit has landed: input is open again and
      the target has taken the active unit's damage. Unless that hit lost the
      round, the active unit and its flags are as they were. */
  function Landed(s: CombatState, target: UnitId): (d: CombatState)
    requires Inv(s) && !ActiveIsNull(s)
    ensures Inv(d)
    ensures Hit(s.units, d.units, target, s.units[s.active.value].attackDamage)
    ensures GoesOnOrEnds(s.(phase := Normal), d)
    ensures d.actionPoints == s.actionPoints && d.escape == s.escape && d.units.Keys == s.units.Keys
    ensures d.canMove == s.canMove && d.canAttack == s.canAttack
    ensures d.ended == s.ended ==> d.active == s.active && d.phase == Normal
  {
    DamageUnit(s.(phase := Normal), target, s.units[s.active.value].attackDamage)
  }

  /** The player's attack callback: input reopens, the target takes the
      active unit's damage and the end of the turn is tested on the scene
      after the hit. With both actions spent a blue unit pays a point and the
      turn is handed over; with an action left the same unit keeps its turn
      unless a blue unit stands on the escape cell. */
  function PlayerAttackDone(s: CombatState, env: Env, target: UnitId): (r: CombatState)
    requires Inv(s)
    ensures Inv(r)
    ensures r.actionPoints == s.actionPoints || r.actionPoints == s.actionPoints - 1
    ensures ActiveIsNull(s) ==> r == s.(phase := Normal)
    ensures !ActiveIsNull(s) ==>
              && Hit(s.units, r.units, target, s.units[s.active.value].attackDamage)
              && GoesOnOrEnds(s.(phase := Normal), r)
    ensures !ActiveIsNull(s) ==>
              var d := Landed(s, target);
              && (!s.canMove && !s.canAttack && CanHandOver(d) ==> HandedOver(d, r))
              && (!s.canMove && !s.canAttack && BlueActive(d) ==> r.actionPoints == s.actionPoints - 1)
              && (!(!s.canMove && !s.canAttack && BlueActive(d)) ==> r.actionPoints == s.actionPoints)
              && ((s.canMove || s.canAttack) && BlueOnEscape(d) ==> r.ended == d.ended + [true] && r.phase == Waiting)
              && ((s.canMove || s.canAttack) && r.ended == s.ended ==>
                    r == d && r.active == s.active && r.canMove == s.canMove && r.canAttack == s.canAttack)
  {
    if ActiveIsNull(s) then s.(phase := Normal)
    else
      var damage := s.units[s.active.value].attackDamage;
      var d := Landed(s, target);
      var r := TestTurnOver(d, env);
      HitThenMoved(s.units, d.units, r.units, target, damage);
      GoesOnOrEndsChains(s.(phase := Normal), d, r);
      r
  }

  /** The enemy's move callback: the mover changes cells and the active
      unit's reach is swept again. */
  function EnemyMoveDone(s: CombatState, env: Env, mover: UnitId, from: Coord, to: Coord): (r: CombatState)
    requires Inv(s)
    ensures Inv(r)
    ensures Transferred(s.grid, r.grid, from, to, Some(mover))
    ensures r == s.(grid := r.grid)
    ensures r.actionPoints == s.actionPoints && r.units == s.units
    ensures !ActiveIsNull(s) ==> SweptAround(s.grid, r.grid, s.units[s.active.value].pos, env)
    ensures ActiveIsNull(s) ==> r.grid == Relocate(s.grid, from, to, Some(mover))
  {
    var s1 := s.(grid := Relocate(s.grid, from, to, Some(mover)));
    InvFrame(s, s1);
    var r := UpdateValidMovePositions(s1, env);
    TransferredThenSwept(s.grid, s1.grid, r.grid, from, to, Some(mover));
    assert !ActiveIsNull(s) ==> SweptAround(s.grid, r.grid, s.units[s.active.value].pos, env) by {
      if !ActiveIsNull(s) {
        SweptAroundSameWalkable(s.grid, s1.grid, r.grid, s.units[s.active.value].pos, env);
      }
    }
    r
  }

  /** The enemy's attack callback: the target takes the attacker's damage;
      an attacker that is gone by then deals none. */
  function EnemyAttackDone(s: CombatState, attacker: UnitId, target: UnitId): (r: CombatState)
    requires Inv(s)
    ensures Inv(r)
    ensures r.actionPoints == s.actionPoints
    ensures attacker in s.units ==> Hit(s.units, r.units, target, s.units[attacker].attackDamage) && GoesOnOrEnds(s, r)
    ensures attacker !in s.units ==> r == s
  {
    if attacker in s.units then DamageUnit(s, target, s.units[attacker].attackDamage) else s
  }

  /** Runs a completion callback. The player's callbacks reopen input, do
      their work and test for the end of the turn; the enemy's only do their
      work (the enemy routine continues on its own, see `EnemyAI`); the
      enemy's attack callback lands the attacker's damage on the target. */
  function Resume(s: CombatState, env: Env, k: Continuation): (r: CombatState)
    requires Inv(s)
    ensures Inv(r)
    ensures r.actionPoints == s.actionPoints || r.actionPoints == s.actionPoints - 1
    ensures r.units.Keys == s.units.Keys
    ensures OnlyMovedOrHit(s.units, r.units)
    ensures k.PlayerMove? ==>
              && Transferred(s.grid, r.grid, k.from, k.to, s.active)
              && OnlyMoved(s.units, r.units)
              && GoesOnOrEnds(s.(phase := Normal), r)
              && (!s.canMove && !s.canAttack && CanHandOver(s) ==> HandedOver(s.(phase := Normal), r))
    ensures k.PlayerAttack? && ActiveIsNull(s) ==> r == s.(phase := Normal)
    ensures k.PlayerAttack? && !ActiveIsNull(s) ==>
              && Hit(s.units, r.units, k.target, s.units[s.active.value].attackDamage)
              && GoesOnOrEnds(s.(phase := Normal), r)
    ensures k.EnemyMove? ==>
              && Transferred(s.grid, r.grid, k.from, k.to, Some(k.mover))
              && r == s.(grid := r.grid)
    ensures k.EnemyAttack? && k.attacker in s.units ==>
              && Hit(s.units, r.units, k.target, s.units[k.attacker].attackDamage)
              && GoesOnOrEnds(s, r)
    ensures k.EnemyAttack? && k.attacker !in s.units ==> r == s
    ensures k.PlayerMove? ==> r == PlayerMoveDone(s, env, k.from, k.to)
    ensures k.PlayerAttack? ==> r == PlayerAttackDone(s, env, k.target)
    ensures k.EnemyMove? ==> r == EnemyMoveDone(s, env, k.mover, k.from, k.to)
    ensures k.EnemyAttack? ==> r == EnemyAttackDone(s, k.attacker, k.target)
  {
    match k
    case PlayerMove(from, to) =>
      var r := PlayerMoveDone(s, env, from, to);
      OnlyMovedIsOnlyMovedOrHit(s.units, r.units);
      r
    case PlayerAttack(target) => PlayerAttackDone(s, env, target)
    case EnemyMove(mover, from, to) =>
      var r := EnemyMoveDone(s, env, mover, from, to);
      UnchangedIsOnlyMovedOrHit(s.units);
      r
    case EnemyAttack(attacker, target) => EnemyAttackDone(s, attacker, target)
  }

  /** The scene once moving unit `id` has stopped on its arrival cell. */
  function Arrived(s: CombatState, id: UnitId): (r: CombatState)
    requires Inv(s) && id in s.units && IsMoving(s.units[id])
    ensures Inv(r) && id in r.units
    ensures r == s.(units := s.units[id := r.units[id]])
    ensures var u := s.units[id];
            r.units[id] == u.(movement := None, pos := ArrivalCell(s.grid, u.pos, u.movement.value.path))
  {
    var (u, _) := CompleteMove(s.units[id], s.grid);
    InvUnitUpdate(s, id, u);
    s.(units := s.units[id := u])
  }

  /** The engine reports that unit `id` reached the end of its path: the
      unit stops on its arrival cell and the callback handed to `MoveTo`
      runs, once. */
  function MoveFinished(s: CombatState, env: Env, id: UnitId): (r: CombatState)
    requires Inv(s) && id in s.units && IsMoving(s.units[id])
    ensures Inv(r)
    ensures r.actionPoints == s.actionPoints || r.actionPoints == s.actionPoints - 1
    ensures r.units.Keys == s.units.Keys
    ensures !IsMoving(r.units[id])
    ensures s.units[id].movement.value.onArrival.None? ==> r == Arrived(s, id)
    ensures s.units[id].movement.value.onArrival.Some? ==>
              r == Resume(Arrived(s, id), env, s.units[id].movement.value.onArrival.value)
  {
    var s1 := Arrived(s, id);
    match s.units[id].movement.value.onArrival
    case None => s1
    case Some(k) => Resume(s1, env, k)
  }

  /** The scene once unit `id`'s pending attack callback is cleared. */
  function Disarmed(s: CombatState, id: UnitId): (r: CombatState)
    requires Inv(s) && id in s.units
    ensures Inv(r)
    ensures r == s.(units := s.units[id := s.units[id].(onAttackCompleted := None)])
  {
    var (u, _) := OnAnimationComplete(s.units[id]);
    InvUnitUpdate(s, id, u);
    s.(units := s.units[id := u])
  }

  /** The engine's animation event `OnAnimationComplete` on unit `id`: the
      pending attack callback, if any, runs and the slot is emptied. The
      source runs the callback first and then empties the slot; the model
      empties it first. No callback here starts another attack on `id`, so
      nothing can tell the two orders apart. */
  function AnimationFinished(s: CombatState, env: Env, id: UnitId): (r: CombatState)
    requires Inv(s) && id in s.units
    ensures Inv(r)
    ensures r.actionPoints == s.actionPoints || r.actionPoints == s.actionPoints - 1
    ensures r.units.Keys == s.units.Keys
    ensures r.units[id].onAttackCompleted.None?
    ensures s.units[id].onAttackCompleted.None? ==> r == s
    ensures s.units[id].onAttackCompleted.Some? ==>
              r == Resume(Disarmed(s, id), env, s.units[id].onAttackCompleted.value)
  {
    var s1 := Disarmed(s, id);
    match s.units[id].onAttackCompleted
    case None =>
      assert s1 == s;
      s1
    case Some(k) => Resume(s1, env, k)
  }

  /** An animation event on a unit whose pending callback is an enemy
      attack runs exactly that attack's damage, on the scene with the
      callback cleared. */
  lemma AnimationRunsEnemyAttack(s: CombatState, env: Env, id: UnitId, attacker: UnitId, target: UnitId)
    requires Inv(s) && id in s.units
    requires s.units[id].onAttackCompleted == Some(EnemyAttack(attacker, target))
    ensures AnimationFinished(s, env, id) == EnemyAttackDone(Disarmed(s, id), attacker, target)
  {
    assert AnimationFinished(s, env, id) == Resume(Disarmed(s, id), env, EnemyAttack(attacker, target));
  }

  /** Everything that can happen to the orchestrator between frames. */
  datatype Input =
    | Clicked(c: Coord)
    | SpacePressed
    | ClickedWithSpace(c: Coord)
    | MoveDone(id: UnitId)
    | AnimationDone(id: UnitId)
    | Destroyed(id: UnitId)

  /** The engine only reports events about units that exist, and a move
      completion only for a unit that is moving. */
  predicate Enabled(s: CombatState, i: Input) {
    match i
    case Clicked(_) => true
    case SpacePressed => true
    case ClickedWithSpace(_) => true
    case MoveDone(id) => id in s.units && IsMoving(s.units[id])
    case AnimationDone(id) => id in s.units
    case Destroyed(id) => id in s.units
  }

  /** One event. Whatever happens, the action points either stay, drop by
      one, or are refilled to the maximum. */
  function Step(s: CombatState, env: Env, i: Input): (r: CombatState)
    requires Inv(s) && Enabled(s, i)
    ensures Inv(r)
    ensures r.actionPoints == s.actionPoints || r.actionPoints == s.actionPoints - 1 || r.actionPoints == env.maxActionPoints
  {
    match i
    case Clicked(c) => Click(s, env, c)
    case SpacePressed => Space(s, env)
    case ClickedWithSpace(c) => ClickThenSpace(s, env, c)
    case MoveDone(id) => MoveFinished(s, env, id)
    case AnimationDone(id) => AnimationFinished(s, env, id)
    case Destroyed(id) => DestroyUnit(s, id)
  }
}

=== FILE: combat_props.dfy ===
/** Properties of the turn state machine that relate several operations:
    how a round starts, how turns alternate, what a turn costs, how a round
    ends and what an ended round still does. */
module CombatProperties {
  import opened Wrappers
  import opened GridMap
  import opened Cells
  import opened Pathfinding
  import opened Units
  import opened Combat
  import opened CombatInput
  import Reachability
  import GameManager

  // ---------------------------------------------------------------------
  // Starting a round

  /** A round started with no blue list yet, no active unit and the blue
      index at -1 (the state `Awake` leaves) hands the first turn to the
      first blue unit of the scan order, with a fresh move and attack. */
  lemma FirstRoundStartsWithFirstBlue(s: CombatState, env: Env, order: seq<UnitId>)
    requires Inv(s) && s.blue == [] && s.active.None? && s.blueIndex == -1
    requires forall i :: 0 <= i < |order| ==> order[i] in s.units
    requires |OfTeam(s.units, order, Blue)| > 0
    ensures var r := StartRound(s, env, order);
            && r.active == Some(OfTeam(s.units, order, Blue)[0])
            && r.blueIndex == 0 && r.canMove && r.canAttack && r.phase == Normal
  {
    var e := Enrolled(s, env, order);
    var blue := OfTeam(s.units, order, Blue);
    assert e.blue == blue && e.units == s.units && e.active == None && e.blueIndex == -1;
    assert Prune(e.units, e.blue) == e.blue;
    assert PicksBlue(e);
    var s3 := SelectNextActiveUnit(e, env);
    assert s3.blue == blue && s3.blueIndex == 0;
    assert s3.active == Some(blue[0]);
    var r := StartRound(s, env, order);
    assert r == s3.(phase := Normal);
  }

  /** With both factions present and an existing active unit, the next
      active unit belongs to the other faction. */
  lemma TurnsAlternate(s: CombatState, env: Env)
    requires Inv(s) && !ActiveIsNull(s)
    requires |Prune(s.units, s.blue)| > 0 && |Prune(s.units, s.red)| > 0
    ensures var r := SelectNextActiveUnit(s, env);
            r.active.Some? && r.active.value in r.units &&
            r.units[r.active.value].team != s.units[s.active.value].team
  {
  }

  /** Consecutive turns of one faction walk its list in order and wrap
      around: with the list unchanged, the index moves one step. */
  lemma SameFactionRotates(s: CombatState, env: Env)
    requires Inv(s) && |Prune(s.units, s.red)| == 0 && |s.blue| > 0
    requires forall i :: 0 <= i < |s.blue| ==> s.blue[i] in s.units
    ensures var r := SelectNextActiveUnit(s, env);
            && (s.blueIndex + 1 < |s.blue| ==> r.active == Some(s.blue[s.blueIndex + 1]))
            && (s.blueIndex + 1 == |s.blue| ==> r.active == Some(s.blue[0]))
  {
    assert Prune(s.units, s.blue) == s.blue;
    assert PicksBlue(s);
    var r := SelectNextActiveUnit(s, env);
    assert r.blue == s.blue;
    var i := NextIndex(s.blueIndex, |s.blue|);
    assert r.blueIndex == i && r.active == Some(s.blue[i]);
  }

  // ---------------------------------------------------------------------
  // What a turn costs

  /** The two ways of ending a turn disagree on the last point: after it,
      `TestTurnOver` leaves 0 points while `ForceTurnOver` refills them. */
  lemma TurnOverPathsDisagreeOnLastPoint(s: CombatState, env: Env)
    requires Inv(s) && !s.canMove && !s.canAttack && BlueActive(s) && s.actionPoints == 1
    ensures TestTurnOver(s, env).actionPoints == 0
    ensures ForceTurnOver(s, env).actionPoints == env.maxActionPoints
  {
  }

  // ---------------------------------------------------------------------
  // How a round ends

  /** Removing the one existing entry of a list leaves no existing entry. */
  lemma {:induction false} RemovingLastLiveEntry(units: map<UnitId, Unit>, ids: seq<UnitId>, x: UnitId)
    requires Prune(units, ids) == [x]
    ensures Prune(units, RemoveFirst(ids, x)) == []
  {
    if |ids| > 0 {
      if ids[0] == x {
        assert x in units;
        assert Prune(units, ids[1..]) == [];
      } else {
        assert ids[0] !in units;
        assert Prune(units, ids[1..]) == [x];
        RemovingLastLiveEntry(units, ids[1..], x);
        var rest := RemoveFirst(ids[1..], x);
        assert RemoveFirst(ids, x) == [ids[0]] + rest;
        assert ([ids[0]] + rest)[1..] == rest;
      }
    }
  }

  /** A lethal hit on the last red unit does not end the round. */
  lemma LastRedKillDoesNotEndRound(s: CombatState, target: UnitId, damage: int)
    requires Inv(s) && s.roster.Some?
    requires target in s.units && target in s.red
    requires s.units[target].health.health - damage <= 0
    requires |Prune(s.units, s.blue)| > 0
    ensures DamageUnit(s, target, damage).ended == s.ended
    ensures DamageUnit(s, target, damage).phase == s.phase
  {
    var (u, died) := Units.TakeDamage(s.units[target], damage);
    assert died;
    InvUnitUpdate(s, target, u);
    var s1 := s.(units := s.units[target := u]);
    var s2 := Unsubscribe(s1, target);
    assert DamageUnit(s, target, damage) == CheckTeamDefeat(s2);
    assert s2.blue == s.blue && s2.units == s1.units;
    PruneSameKeys(s.units, s2.units, s.blue);
  }

  /** A lethal hit on the last blue unit loses the round. */
  lemma LastBlueKillLoses(s: CombatState, target: UnitId, damage: int)
    requires Inv(s) && s.roster.Some?
    requires target in s.units && s.units[target].team == Blue
    requires s.units[target].health.health - damage <= 0
    requires Prune(s.units, s.blue) == [target]
    ensures DamageUnit(s, target, damage).ended == s.ended + [false]
    ensures DamageUnit(s, target, damage).phase == Waiting
  {
    var (u, died) := Units.TakeDamage(s.units[target], damage);
    assert died;
    InvUnitUpdate(s, target, u);
    var s1 := s.(units := s.units[target := u]);
    assert target !in s.red;
    var s2 := Unsubscribe(s1, target);
    assert DamageUnit(s, target, damage) == CheckTeamDefeat(s2);
    assert s2.blue == RemoveFirst(s.blue, target) && s2.units == s1.units;
    RemovingLastLiveEntry(s.units, s.blue, target);
    PruneSameKeys(s.units, s2.units, s2.blue);
  }

  /** An ended round is inert: no turn is handed out, and clicks and the
      space bar do nothing. */
  lemma EndedRoundIsInert(s: CombatState, env: Env, won: bool, c: Coord)
    requires Inv(s)
    ensures var e := EndGame(s, won);
            && SelectNextActiveUnit(e, env) == e
            && Click(e, env, c) == e
            && Space(e, env) == e
  {
  }

  /** While a request is in flight no input is taken. */
  lemma WaitingIgnoresInput(s: CombatState, env: Env, c: Coord)
    requires Inv(s) && s.phase == Waiting
    ensures Click(s, env, c) == s && Space(s, env) == s
  {
  }

  /** A move the orchestrator accepts but `MoveTo` refuses (no path, a busy
      unit) spends the move and leaves the game waiting for a completion that
      never comes: clicks and the space bar are ignored from then on. */
  lemma RefusedMoveStallsInput(s: CombatState, env: Env, c: Coord, c2: Coord)
    requires Inv(s) && MoveRequestAccepted(s, c)
    requires !MoveAccepted(s.units[s.active.value], s.grid, c, env.findPath)
    ensures var r := Click(s, env, c);
            && r.phase == Waiting && r.units == s.units && !r.canMove
            && Click(r, env, c2) == r && Space(r, env) == r
  {
  }

  /** An attack click and the space bar in the same frame end the turn while
      the attack is still in flight: a unit with a fresh move and attack
      becomes active, input stays closed, and the attack callback is still
      pending on the unit that attacked. */
  lemma SpaceInAttackFrameEndsTurnEarly(s: CombatState, env: Env, c: Coord)
    requires Inv(s) && AttackRequestAccepted(s, c) && CanHandOver(s)
    ensures var r := ClickThenSpace(s, env, c);
            var attacker := s.active.value;
            && HandedOver(s.(phase := Waiting), r)
            && r.units[attacker].onAttackCompleted == Some(PlayerAttack(Occupant(s, c).value))
  {
    var a := s.active.value;
    var s1 := Click(s, env, c);
    assert s1.units == s.units[a := AttackUnit(s.units[a], PlayerAttack(Occupant(s, c).value))];
    CanHandOverFrame(s, s1);
    assert !ClickEndsFrame(s, c);
    var r := ForceTurnOver(s1, env);
    assert r == ClickThenSpace(s, env, c);
    assert r.units[a] == s1.units[a].(pos := r.units[a].pos);
  }

  // ---------------------------------------------------------------------
  // Moving and attacking

  /** The attack range is the move range: an enemy can be attacked exactly
      when its cell passed the reachability sweep, so one standing on an
      unwalkable cell, or farther than a short path, is out of reach. */
  lemma AttackRangeIsMoveRange(s: CombatState, env: Env, target: UnitId)
    requires Inv(s) && !ActiveIsNull(s) && target in s.units
    ensures var r := UpdateValidMovePositions(s, env);
            var p := s.units[target].pos;
            var u := s.units[s.active.value].pos;
            CanAttackUnit(r.grid, r.units[target]) <==>
              && Reachability.InSquare(u, env.maxMoveDistance, p.x, p.y)
              && s.grid.cells[p.x][p.y].walkable
              && WithinRange(env.findPath(u, p), env.maxMoveDistance)
  {
  }
}

=== FILE: enemy.dfy ===
/** `EnemyController`: the greedy turn of a red unit. It picks the nearest
    existing blue unit, attacks it when it is in reach, and otherwise walks to
    the reachable empty cell closest to it and tries again from there.

    Distances: every unit stands at the centre of its cell, and
    `Vector3.Distance` between two cell centres is the cell size times the
    Euclidean distance of their coordinates. Comparing distances is therefore
    the same as comparing squared coordinate distances, which is what the
    model does. */
module EnemyAI {
  import opened Wrappers
  import opened GridMap
  import opened Cells
  import opened Pathfinding
  import opened Units
  import opened Combat
  import opened CombatInput
  import Reachability

  /** The squared distance between two cells. */
  function SqDist(a: Coord, b: Coord): nat {
    (a.x - b.x) * (a.x - b.x) + (a.y - b.y) * (a.y - b.y)
  }

  // ---------------------------------------------------------------------
  // FindClosestBlueUnit

  /** Entry `k` of the blue list is what the scan keeps: it exists, none is
      closer, and every earlier existing entry is strictly farther. */
  ghost predicate FirstClosestAt(s: CombatState, from: Coord, k: int) {
    && 0 <= k < |s.blue| && s.blue[k] in s.units
    && (forall j :: 0 <= j < |s.blue| && s.blue[j] in s.units ==>
          SqDist(s.units[s.blue[k]].pos, from) <= SqDist(s.units[s.blue[j]].pos, from))
    && (forall j :: 0 <= j < k && s.blue[j] in s.units ==>
          SqDist(s.units[s.blue[k]].pos, from) < SqDist(s.units[s.blue[j]].pos, from))
  }

  /** No entry of the blue list exists any more. */
  ghost predicate NoLiveBlue(s: CombatState) {
    forall i :: 0 <= i < |s.blue| ==> s.blue[i] !in s.units
  }

  /** What `FindClosestBlueUnit` returns for a unit standing on `from`:
      null exactly when no blue unit exists, otherwise the first of the
      closest ones. */
  ghost predicate IsClosestBlue(s: CombatState, from: Coord, t: Option<UnitId>) {
    match t
    case None => NoLiveBlue(s)
    case Some(id) => exists k :: FirstClosestAt(s, from, k) && s.blue[k] == id
  }

  /** At most one entry is the first of the closest. */
  lemma FirstClosestUnique(s: CombatState, from: Coord, k1: int, k2: int)
    requires FirstClosestAt(s, from, k1) && FirstClosestAt(s, from, k2)
    ensures k1 == k2
  {
  }

  /** A unit is returned only while some blue unit exists. */
  lemma ClosestMeansLive(s: CombatState, from: Coord, id: UnitId)
    requires IsClosestBlue(s, from, Some(id))
    ensures !NoLiveBlue(s)
  {
    var k :| FirstClosestAt(s, from, k) && s.blue[k] == id;
    assert s.blue[k] in s.units;
  }

  /** So `FindClosestBlueUnit` has exactly one possible answer. */
  lemma ClosestBlueUnique(s: CombatState, from: Coord, t1: Option<UnitId>, t2: Option<UnitId>)
    requires IsClosestBlue(s, from, t1) && IsClosestBlue(s, from, t2)
    ensures t1 == t2
  {
    if t1.Some? {
      ClosestMeansLive(s, from, t1.value);
    }
    if t2.Some? {
      ClosestMeansLive(s, from, t2.value);
    }
    if t1.Some? && t2.Some? {
      var k1 :| FirstClosestAt(s, from, k1) && s.blue[k1] == t1.value;
      var k2 :| FirstClosestAt(s, from, k2) && s.blue[k2] == t2.value;
      FirstClosestUnique(s, from, k1, k2);
    }
  }

  /** `FindClosestBlueUnit(enemy)` for an enemy standing on `from`: scans the
      blue list (`GetBlueTeam()`), skips units that no longer exist, and keeps
      a unit only when it is strictly closer than the best so far, so the
      first of several equally close units wins. The initial `float.MaxValue`
      is beaten by any unit, which the model writes as "nothing kept yet". */
  method FindClosestBlueUnit(s: CombatState, from: Coord) returns (closest: Option<UnitId>)
    ensures IsClosestBlue(s, from, closest)
    ensures closest.Some? ==> closest.value in s.units && closest.value in s.blue
  {
    closest := None;
    var best := 0;
    ghost var at := -1;
    for i := 0 to |s.blue|
      invariant closest.None? <==> forall j :: 0 <= j < i ==> s.blue[j] !in s.units
      invariant closest.Some? ==>
                  && 0 <= at < i && s.blue[at] == closest.value && closest.value in s.units
                  && best == SqDist(s.units[closest.value].pos, from)
                  && (forall j :: 0 <= j < i && s.blue[j] in s.units ==> best <= SqDist(s.units[s.blue[j]].pos, from))
                  && (forall j :: 0 <= j < at && s.blue[j] in s.units ==> best < SqDist(s.units[s.blue[j]].pos, from))
    {
      var id := s.blue[i];
      if id !in s.units {
        continue;
      }
      var d := SqDist(s.units[id].pos, from);
      if closest.None? || d < best {
        closest := Some(id);
        best := d;
        at := i;
      }
    }
    if closest.Some? {
      assert FirstClosestAt(s, from, at);
    }
  }

  // ---------------------------------------------------------------------
  // FindBestMovePosition

  /** A cell the enemy on `u` may move to: inside the square of radius
      `maxMoveDistance`, in the grid, walkable, with no existing unit on it,
      and a path of at most `maxMoveDistance + 1` nodes from the enemy's cell. */
  predicate IsMoveCandidate(s: CombatState, env: Env, u: Coord, c: Coord)
    requires s.grid.Valid()
  {
    && Reachability.InSquare(u, env.maxMoveDistance, c.x, c.y)
    && s.grid.Contains(c)
    && s.grid.cells[c.x][c.y].walkable
    && Occupant(s, c).None?
    && WithinRange(env.findPath(u, c), env.maxMoveDistance)
  }

  /** The move candidates are the cells the reachability sweep around `u`
      would flag, less the occupied ones. */
  lemma CandidatesAreFreeSweptCells(s: CombatState, env: Env, u: Coord, c: Coord)
    requires s.grid.Valid()
    ensures IsMoveCandidate(s, env, u, c) <==>
              && s.grid.Contains(c)
              && Reachability.SweepFlag(s.grid, u, env.maxMoveDistance, env.findPath, c.x, c.y)
              && Occupant(s, c).None?
  {
  }

  /** A candidate no other candidate is closer to the target than. */
  ghost predicate IsBestMove(s: CombatState, env: Env, u: Coord, target: Coord, c: Coord)
    requires s.grid.Valid()
  {
    && IsMoveCandidate(s, env, u, c)
    && forall d: Coord :: IsMoveCandidate(s, env, u, d) ==> SqDist(c, target) <= SqDist(d, target)
  }

  /** Cell `c` comes before `(x, y)` in the column-major scan. */
  predicate ScannedBefore(c: Coord, x: int, y: int) {
    c.x < x || (c.x == x && c.y < y)
  }

  /** `FindBestMovePosition(enemy, target)` for an enemy on `u` and a target
      on `target`: collects the candidates of the square around `u` and
      returns the centre of the one the sort puts first. `List.Sort` is not
      stable, so among equally close candidates any may come first; the
      contract promises only a closest candidate, and the loop keeps the
      first one it meets. */
  method FindBestMovePosition(s: CombatState, env: Env, u: Coord, target: Coord) returns (best: Option<Coord>)
    requires s.grid.Valid()
    ensures best.None? <==> forall c: Coord :: !IsMoveCandidate(s, env, u, c)
    ensures best.Some? ==> IsBestMove(s, env, u, target, best.value)
  {
    var range := env.maxMoveDistance;
    best := None;
    var x := u.x - range;
    while x <= u.x + range
      invariant u.x - range <= x
      invariant best.None? ==> forall c: Coord :: IsMoveCandidate(s, env, u, c) ==> !(c.x < x)
      invariant best.Some? ==> IsMoveCandidate(s, env, u, best.value)
      invariant best.Some? ==> forall c: Coord :: IsMoveCandidate(s, env, u, c) && c.x < x ==>
                  SqDist(best.value, target) <= SqDist(c, target)
      decreases u.x + range - x
    {
      var y := u.y - range;
      while y <= u.y + range
        invariant u.y - range <= y
        invariant best.None? ==> forall c: Coord :: IsMoveCandidate(s, env, u, c) ==> !ScannedBefore(c, x, y)
        invariant best.Some? ==> IsMoveCandidate(s, env, u, best.value)
        invariant best.Some? ==> forall c: Coord :: IsMoveCandidate(s, env, u, c) && ScannedBefore(c, x, y) ==>
                    SqDist(best.value, target) <= SqDist(c, target)
        decreases u.y + range - y
      {
        var c := Coord(x, y);
        var cell := GetGridObject(s.grid, x, y);
        if cell.Some? && cell.value.walkable && Occupant(s, c).None? && WithinRange(env.findPath(u, c), range) {
          assert IsMoveCandidate(s, env, u, c);
          if best.None? || SqDist(c, target) < SqDist(best.value, target) {
            best := Some(c);
          }
        }
        y := y + 1;
      }
      x := x + 1;
    }
  }

  // ---------------------------------------------------------------------
  // EnemyTurnRoutine

  /** The calls the routine makes into the orchestrator and the units, in
      order: `SetStateWaiting`, `ResetEnemyTurn`, `ForceTurnOver`, an attack
      request on a target and a move request to a cell. */
  datatype Call =
    | WaitingSet
    | EnemyTurnReset
    | TurnForced
    | AttackStarted(target: UnitId)
    | MoveStarted(to: Coord)

  /** `ForceTurnOver` is the last call and occurs nowhere else. */
  predicate EndsTurnOnce(trace: seq<Call>) {
    && |trace| > 0 && trace[|trace| - 1] == TurnForced
    && forall i :: 0 <= i < |trace| - 1 ==> trace[i] != TurnForced
  }

  /** `attacker.AttackUnit(target, callback)` with the enemy's damage
      callback: the request the routine makes. */
  function Armed(s: CombatState, attacker: UnitId, target: UnitId): (s1: CombatState)
    requires Inv(s) && attacker in s.units
    ensures Inv(s1)
    ensures s1 == s.(units := s.units[attacker := AttackUnit(s.units[attacker], EnemyAttack(attacker, target))])
  {
    var u := AttackUnit(s.units[attacker], EnemyAttack(attacker, target));
    InvUnitUpdate(s, attacker, u);
    s.(units := s.units[attacker := u])
  }

  /** The scene once an enemy attack on `target` has landed: the target has
      taken the attacker's damage and nobody else's health changed.
      `StruckIsAnimationFinished` shows this is what the animation event
      makes of the request, so the attacker's callback slot is empty again. */
  function Struck(s: CombatState, env: Env, attacker: UnitId, target: UnitId): (m: CombatState)
    requires Inv(s) && attacker in s.units
    ensures Inv(m) && m.actionPoints == s.actionPoints && m.units.Keys == s.units.Keys
    ensures target in s.units ==>
              m.units[target].health.health == Health.Max(s.units[target].health.health - s.units[attacker].attackDamage, 0)
    ensures forall id :: id in s.units && id != target ==> m.units[id].health == s.units[id].health
    ensures GoesOnOrEnds(s, m)
  {
    var d := s.(units := s.units[attacker := s.units[attacker].(onAttackCompleted := None)]);
    InvUnitUpdate(s, attacker, d.units[attacker]);
    EnemyAttackDone(d, attacker, target)
  }

  /** Requesting the attack and letting its animation finish lands it. */
  lemma StruckIsAnimationFinished(s: CombatState, env: Env, attacker: UnitId, target: UnitId)
    requires Inv(s) && attacker in s.units
    ensures AnimationFinished(Armed(s, attacker, target), env, attacker) == Struck(s, env, attacker, target)
  {
    var s1 := Armed(s, attacker, target);
    AnimationRunsEnemyAttack(s1, env, attacker, attacker, target);
    assert Disarmed(s1, attacker).units == s.units[attacker := s.units[attacker].(onAttackCompleted := None)];
  }

  /** Forcing the turn over moves units but heals nobody: the damage an
      enemy attack landed is still there once the next unit is active. */
  lemma EnemyHitSurvivesTurnOver(s: CombatState, env: Env, attacker: UnitId, target: UnitId)
    requires Inv(s) && attacker in s.units && target in s.units
    ensures ForceTurnOver(Struck(s, env, attacker, target), env).units[target].health.health
              == Health.Max(s.units[target].health.health - s.units[attacker].attackDamage, 0)
  {
    var m := Struck(s, env, attacker, target);
    MovedKeepsHealth(m.units, ForceTurnOver(m, env).units, target);
  }

  /** The attack branch of the routine: the call record of `PerformAttack`
      on `t`, and the turn forced over once the hit has landed. */
  ghost predicate Attacked(s: CombatState, env: Env, enemy: UnitId, t: UnitId, r: CombatState, trace: seq<Call>)
    requires Inv(s) && enemy in s.units
  {
    && trace == [WaitingSet, AttackStarted(t), EnemyTurnReset, TurnForced]
    && r == ForceTurnOver(Struck(s, env, enemy, t), env)
  }

  /** `PerformAttack(attacker, target)`: request the attack with the damage
      callback and let the animation finish, which lands the hit once
      (`Struck`), then `ResetEnemyTurn` and `ForceTurnOver`. `SetStateWaiting` and `ResetEnemyTurn` are not part of
      the orchestrator this model covers; they appear in the call record
      only. */
  method PerformAttack(s: CombatState, env: Env, attacker: UnitId, target: UnitId) returns (r: CombatState, trace: seq<Call>)
    requires Inv(s) && attacker in s.units
    ensures Inv(r)
    ensures r.units.Keys == s.units.Keys
    ensures Attacked(s, env, attacker, target, r, trace)
    ensures EndsTurnOnce(trace) && AttackIsLast(trace)
    ensures target in s.units ==>
              r.units[target].health.health == Health.Max(s.units[target].health.health - s.units[attacker].attackDamage, 0)
  {
    var m := Struck(s, env, attacker, target);
    r := ForceTurnOver(m, env);
    if target in s.units {
      EnemyHitSurvivesTurnOver(s, env, attacker, target);
    }
    trace := [WaitingSet, AttackStarted(target), EnemyTurnReset, TurnForced];
    AttackTraceWellFormed(target);
  }

  /** The call record of an attack ends the turn once and requests nothing
      after the attack. */
  lemma AttackTraceWellFormed(target: UnitId)
    ensures var trace := [WaitingSet, AttackStarted(target), EnemyTurnReset, TurnForced];
            EndsTurnOnce(trace) && AttackIsLast(trace) && AfterMoveCalls(trace)
  {
    var trace := [WaitingSet, AttackStarted(target), EnemyTurnReset, TurnForced];
    assert trace[2..] == [EnemyTurnReset, TurnForced];
  }

  /** After an attack the routine requests nothing more: no second attack
      and no move follow it. */
  predicate AttackIsLast(trace: seq<Call>) {
    forall i, j :: 0 <= i < j < |trace| && trace[i].AttackStarted? ==> !trace[j].AttackStarted? && !trace[j].MoveStarted?
  }

  /** An accepted move request on `to` and its completion: the unit follows
      the path and stops on its arrival cell; on arrival the callback moves
      its occupant record from the cell it left to `to` and sweeps again. No
      other unit changes. */
  function EnemyMoves(s: CombatState, env: Env, enemy: UnitId, to: Coord): (r: CombatState)
    requires Inv(s) && enemy in s.units && MoveAccepted(s.units[enemy], s.grid, to, env.findPath)
    ensures Inv(r) && enemy in r.units
    ensures r.units == s.units[enemy := r.units[enemy]]
    ensures !IsMoving(r.units[enemy])
    ensures r.units[enemy].pos == ArrivalCell(s.grid, s.units[enemy].pos, env.findPath(s.units[enemy].pos, to).value)
    ensures Transferred(s.grid, r.grid, s.units[enemy].pos, to, Some(enemy))
    ensures r.actionPoints == s.actionPoints && r.phase == s.phase && r.ended == s.ended
    ensures r == s.(units := r.units, grid := r.grid)
    ensures !ActiveIsNull(s) ==> SweptAround(s.grid, r.grid, r.units[s.active.value].pos, env)
  {
    var u := s.units[enemy];
    var k := EnemyMove(enemy, u.pos, to);
    var moving := MoveTo(u, s.grid, to, Some(k), env.findPath);
    InvUnitUpdate(s, enemy, moving);
    var s1 := s.(units := s.units[enemy := moving]);
    assert s1.units[enemy].movement.value.onArrival == Some(k);
    var a := Arrived(s1, enemy);
    assert a.grid == s.grid && a.units == s.units[enemy := a.units[enemy]];
    var r := Resume(a, env, k);
    assert r == MoveFinished(s1, env, enemy);
    r
  }

  /** The move request and its completion as the rest of the routine sees
      them: the scene `EnemyMoves` describes, which stays consistent and
      still holds the enemy. */
  method RequestMove(s: CombatState, env: Env, enemy: UnitId, to: Coord) returns (r: CombatState)
    requires Inv(s) && enemy in s.units && MoveAccepted(s.units[enemy], s.grid, to, env.findPath)
    ensures Inv(r) && enemy in r.units && r.units.Keys == s.units.Keys
    ensures r == EnemyMoves(s, env, enemy, to)
  {
    r := EnemyMoves(s, env, enemy, to);
  }

  /** The calls after a finished move: `ResetEnemyTurn` and `ForceTurnOver`,
      preceded by an attack request when the target is then in reach. */
  predicate AfterMoveCalls(rest: seq<Call>) {
    || rest == [EnemyTurnReset, TurnForced]
    || (|rest| == 4 && rest[0] == WaitingSet && rest[1].AttackStarted? && rest[2..] == [EnemyTurnReset, TurnForced])
  }

  /** What the end of a turn that moved did from scene `m`: the calls after
      a move were made; with no live blue unit the turn is just forced over;
      otherwise the closest blue unit, chosen again from the enemy's cell in
      `m`, is attacked exactly when it is in reach, and the turn is forced
      over without an attack when it is not. */
  ghost predicate ActedAfter(m: CombatState, env: Env, enemy: UnitId, r: CombatState, rest: seq<Call>)
    requires Inv(m) && enemy in m.units
  {
    && AfterMoveCalls(rest)
    && (NoLiveBlue(m) ==> rest == [EnemyTurnReset, TurnForced] && r == ForceTurnOver(m, env))
    && (forall t {:trigger IsClosestBlue(m, m.units[enemy].pos, Some(t))} :: IsClosestBlue(m, m.units[enemy].pos, Some(t)) && t in m.units ==>
          && (CanAttackUnit(m.grid, m.units[t]) ==> Attacked(m, env, enemy, t, r, rest))
          && (!CanAttackUnit(m.grid, m.units[t]) ==>
                rest == [EnemyTurnReset, TurnForced] && r == ForceTurnOver(m, env)))
  }

  /** The end of a turn that moved: the nearest blue unit is chosen again
      from the new cell; it is attacked exactly when it exists and is in
      reach, otherwise `ResetEnemyTurn` and `ForceTurnOver`. */
  method ActAfterMove(s: CombatState, env: Env, enemy: UnitId) returns (r: CombatState, rest: seq<Call>)
    requires Inv(s) && enemy in s.units
    ensures Inv(r) && r.units.Keys == s.units.Keys
    ensures AfterMoveCalls(rest)
    ensures ActedAfter(s, env, enemy, r, rest)
  {
    var from := s.units[enemy].pos;
    var next := FindClosestBlueUnit(s, from);
    forall t: UnitId | IsClosestBlue(s, from, Some(t)) ensures Some(t) == next {
      ClosestBlueUnique(s, from, Some(t), next);
    }
    if next.Some? && CanAttackUnit(s.grid, s.units[next.value]) {
      r, rest := PerformAttack(s, env, enemy, next.value);
      AttackTraceWellFormed(next.value);
    } else {
      r := ForceTurnOver(s, env);
      rest := [EnemyTurnReset, TurnForced];
    }
  }

  /** An accepted move followed by the end of the turn from the new cell. */
  method MoveThenAct(s: CombatState, env: Env, enemy: UnitId, to: Coord) returns (r: CombatState, rest: seq<Call>)
    requires Inv(s) && enemy in s.units && MoveAccepted(s.units[enemy], s.grid, to, env.findPath)
    ensures Inv(r) && r.units.Keys == s.units.Keys && AfterMoveCalls(rest)
    ensures ActedAfter(EnemyMoves(s, env, enemy, to), env, enemy, r, rest)
  {
    var m := RequestMove(s, env, enemy, to);
    r, rest := ActAfterMove(m, env, enemy);
  }

  /** The second half of the routine, once `to` is chosen: request the move,
      let it finish, then act again from the new cell. The move request is
      made either way; a refused `MoveTo` never calls back. */
  method MoveAndAct(s: CombatState, env: Env, enemy: UnitId, to: Coord) returns (r: CombatState, trace: seq<Call>, finished: bool)
    requires Inv(s) && enemy in s.units
    ensures Inv(r) && r.units.Keys == s.units.Keys
    ensures finished <==> MoveAccepted(s.units[enemy], s.grid, to, env.findPath)
    ensures |trace| >= 2 && trace[..2] == [WaitingSet, MoveStarted(to)]
    ensures trace[0] == WaitingSet && trace[1] == MoveStarted(to)
    ensures !finished ==> r == s && trace == [WaitingSet, MoveStarted(to)]
    ensures finished ==> AfterMoveCalls(trace[2..])
    ensures finished ==> ActedAfter(EnemyMoves(s, env, enemy, to), env, enemy, r, trace[2..])
  {
    if !MoveAccepted(s.units[enemy], s.grid, to, env.findPath) {
      r := s;
      trace := [WaitingSet, MoveStarted(to)];
      finished := false;
      return;
    }
    var rest;
    r, rest := MoveThenAct(s, env, enemy, to);
    trace := [WaitingSet, MoveStarted(to)] + rest;
    MoveTraceParts(to, rest);
    finished := true;
  }

  /** The parts of the call record of a move request followed by `rest`. */
  lemma MoveTraceParts(to: Coord, rest: seq<Call>)
    ensures var trace := [WaitingSet, MoveStarted(to)] + rest;
            && |trace| >= 2 && trace[0] == WaitingSet && trace[1] == MoveStarted(to)
            && trace[..2] == [WaitingSet, MoveStarted(to)] && trace[2..] == rest
  {
    var trace := [WaitingSet, MoveStarted(to)] + rest;
    assert trace[..2] == [WaitingSet, MoveStarted(to)] && trace[2..] == rest;
  }

  /** The traces a move request can leave end the turn once when the move
      finished, request nothing after an attack, and request no other cell. */
  lemma MoveTracesWellFormed(trace: seq<Call>, to: Coord, finished: bool)
    requires |trace| >= 2 && trace[..2] == [WaitingSet, MoveStarted(to)]
    requires finished ==> AfterMoveCalls(trace[2..])
    requires !finished ==> trace == [WaitingSet, MoveStarted(to)]
    ensures finished ==> EndsTurnOnce(trace)
    ensures AttackIsLast(trace)
    ensures forall i :: 0 <= i < |trace| && trace[i].MoveStarted? ==> trace[i].to == to
  {
    assert trace[0] == WaitingSet && trace[1] == MoveStarted(to);
    if !finished {
    } else if |trace| == 6 {
      assert trace == [WaitingSet, MoveStarted(to), WaitingSet, trace[3], EnemyTurnReset, TurnForced];
    } else {
      assert trace == [WaitingSet, MoveStarted(to), EnemyTurnReset, TurnForced];
    }
  }

  /** No cell is a move candidate for an enemy standing on `u`. */
  ghost predicate NoMoveCandidate(s: CombatState, env: Env, u: Coord)
    requires s.grid.Valid()
  {
    forall c: Coord :: !IsMoveCandidate(s, env, u, c)
  }

  /** What the approach towards target `t` did: with no candidate cell the
      turn is forced over at once; otherwise the first two calls request a
      move to a best cell, the routine goes on exactly when `MoveTo` accepts
      it, a refused move leaves everything as it was, and an accepted one
      moves the enemy there (`EnemyMoves`) and ends the turn from the new
      cell (`ActedAfter`). */
  ghost predicate Approached(s: CombatState, env: Env, enemy: UnitId, t: UnitId, r: CombatState, trace: seq<Call>, finished: bool)
    requires Inv(s) && enemy in s.units && t in s.units
  {
    var u := s.units[enemy].pos;
    && (NoMoveCandidate(s, env, u) ==> finished && trace == [TurnForced] && r == ForceTurnOver(s, env))
    && (!NoMoveCandidate(s, env, u) ==>
          && |trace| >= 2 && trace[0] == WaitingSet && trace[1].MoveStarted?
          && IsBestMove(s, env, u, s.units[t].pos, trace[1].to)
          && (finished <==> MoveAccepted(s.units[enemy], s.grid, trace[1].to, env.findPath))
          && (!finished ==> r == s && trace == [WaitingSet, trace[1]])
          && (finished ==> ActedAfter(EnemyMoves(s, env, enemy, trace[1].to), env, enemy, r, trace[2..])))
  }

  /** With no candidate cell, forcing the turn over at once is an approach. */
  lemma ApproachedAtOnce(s: CombatState, env: Env, enemy: UnitId, t: UnitId,
                         r: CombatState, trace: seq<Call>, finished: bool)
    requires Inv(s) && enemy in s.units && t in s.units
    requires forall c: Coord :: !IsMoveCandidate(s, env, s.units[enemy].pos, c)
    requires finished && trace == [TurnForced] && r == ForceTurnOver(s, env)
    ensures Approached(s, env, enemy, t, r, trace, finished)
  {
  }

  /** A move request on a best cell towards `t`, with what `MoveAndAct`
      states about it, is an approach. */
  lemma ApproachedByMove(s: CombatState, env: Env, enemy: UnitId, t: UnitId, to: Coord,
                         r: CombatState, trace: seq<Call>, finished: bool)
    requires Inv(s) && enemy in s.units && t in s.units
    requires IsBestMove(s, env, s.units[enemy].pos, s.units[t].pos, to)
    requires |trace| >= 2 && trace[0] == WaitingSet && trace[1] == MoveStarted(to)
    requires finished <==> MoveAccepted(s.units[enemy], s.grid, to, env.findPath)
    requires !finished ==> r == s && trace == [WaitingSet, MoveStarted(to)]
    requires finished ==> ActedAfter(EnemyMoves(s, env, enemy, to), env, enemy, r, trace[2..])
    ensures Approached(s, env, enemy, t, r, trace, finished)
  {
    assert IsMoveCandidate(s, env, s.units[enemy].pos, to);
  }

  /** `EnemyTurnRoutine(enemy)` with the engine's waits resolved: a requested
      move or attack animation is taken to finish. `finished` is false when
      `MoveTo` refuses the chosen cell (a busy unit, no path, an empty path):
      the routine then waits for a completion that never comes, so the turn
      is never ended. */
  method EnemyTurnRoutine(s: CombatState, env: Env, enemy: UnitId) returns (r: CombatState, trace: seq<Call>, finished: bool)
    requires Inv(s) && enemy in s.units
    ensures Inv(r) && r.units.Keys == s.units.Keys
    ensures finished ==> EndsTurnOnce(trace)
    ensures !finished ==> r == s && |trace| == 2 && trace[0] == WaitingSet && trace[1].MoveStarted?
    ensures AttackIsLast(trace)
    ensures NoLiveBlue(s) ==> finished && trace == [TurnForced] && r == ForceTurnOver(s, env)
    ensures forall t :: IsClosestBlue(s, s.units[enemy].pos, Some(t)) && t in s.units ==>
              && (CanAttackUnit(s.grid, s.units[t]) ==> finished && Attacked(s, env, enemy, t, r, trace))
              && (!CanAttackUnit(s.grid, s.units[t]) ==> Approached(s, env, enemy, t, r, trace, finished))
  {
    var from := s.units[enemy].pos;
    var target := FindClosestBlueUnit(s, from);
    forall t: UnitId | IsClosestBlue(s, from, Some(t)) ensures Some(t) == target {
      ClosestBlueUnique(s, from, Some(t), target);
    }
    if target.None? {
      r := ForceTurnOver(s, env);
      trace := [TurnForced];
      finished := true;
      return;
    }
    r, trace, finished := ActOnTarget(s, env, enemy, target.value);
  }

  /** The routine once a target is chosen: attack it from where the enemy
      stands when it can, otherwise approach it. */
  method ActOnTarget(s: CombatState, env: Env, enemy: UnitId, t: UnitId) returns (r: CombatState, trace: seq<Call>, finished: bool)
    requires Inv(s) && enemy in s.units && t in s.units
    ensures Inv(r) && r.units.Keys == s.units.Keys
    ensures finished ==> EndsTurnOnce(trace)
    ensures !finished ==> r == s && |trace| == 2 && trace[0] == WaitingSet && trace[1].MoveStarted?
    ensures AttackIsLast(trace)
    ensures CanAttackUnit(s.grid, s.units[t]) ==> finished && Attacked(s, env, enemy, t, r, trace)
    ensures !CanAttackUnit(s.grid, s.units[t]) ==> Approached(s, env, enemy, t, r, trace, finished)
  {
    if CanAttackUnit(s.grid, s.units[t]) {
      r, trace := PerformAttack(s, env, enemy, t);
      finished := true;
      return;
    }
    r, trace, finished := Approach(s, env, enemy, t);
  }

  /** The branch of the routine for a target out of reach: move to the best
      cell towards it and act from there, or end the turn when no cell is a
      candidate. */
  method Approach(s: CombatState, env: Env, enemy: UnitId, t: UnitId) returns (r: CombatState, trace: seq<Call>, finished: bool)
    requires Inv(s) && enemy in s.units && t in s.units
    ensures Inv(r) && r.units.Keys == s.units.Keys
    ensures finished ==> EndsTurnOnce(trace)
    ensures !finished ==> r == s && |trace| == 2 && trace[0] == WaitingSet && trace[1].MoveStarted?
    ensures AttackIsLast(trace)
    ensures Approached(s, env, enemy, t, r, trace, finished)
    ensures forall i :: 0 <= i < |trace| && trace[i].MoveStarted? ==>
              IsBestMove(s, env, s.units[enemy].pos, s.units[t].pos, trace[i].to)
  {
    var best := FindBestMovePosition(s, env, s.units[enemy].pos, s.units[t].pos);
    if best.None? {
      r := ForceTurnOver(s, env);
      trace := [TurnForced];
      finished := true;
      ApproachedAtOnce(s, env, enemy, t, r, trace, finished);
      return;
    }
    r, trace, finished := MoveAndAct(s, env, enemy, best.value);
    MoveTracesWellFormed(trace, best.value, finished);
    ApproachedByMove(s, env, enemy, t, best.value, r, trace, finished);
  }

  /** The damage callback of an enemy attack runs once: with the callback
      pending, the first animation event applies the attacker's damage to the
      target, and a second one finds nothing pending and changes nothing. */
  lemma EnemyAttackLandsOnce(s: CombatState, env: Env, attacker: UnitId, target: UnitId)
    requires Inv(s) && attacker in s.units && target in s.units
    requires s.units[attacker].onAttackCompleted == Some(EnemyAttack(attacker, target))
    ensures var s2 := AnimationFinished(s, env, attacker);
            && s2.units[target].health.health == Health.Max(s.units[target].health.health - s.units[attacker].attackDamage, 0)
            && AnimationFinished(s2, env, attacker) == s2
  {
    var d := Disarmed(s, attacker);
    AnimationRunsEnemyAttack(s, env, attacker, attacker, target);
    assert d.units[target].health == s.units[target].health;
    assert d.units[attacker].attackDamage == s.units[attacker].attackDamage;
  }
}

=== FILE: gamemanager.dfy ===
/** `GameManager`: the round counter, the persisted high round (PlayerPrefs
    as a string-keyed map), the captured escape cell, and the reset of the
    blue units to their spawners. */
module GameManager {
  import opened Wrappers
  import opened GridMap
  import opened Cells
  import opened Units
  import Health

  const HighScoreKey: string := "HighRound"

  datatype Manager = Manager(currentRound: int, prefs: map<string, int>, escapeCell: Option<Coord>)

  /** `PlayerPrefs.GetInt(HighScoreKey, 0)`. */
  function GetHighRound(m: Manager): int {
    if HighScoreKey in m.prefs then m.prefs[HighScoreKey] else 0
  }

  /** `CheckAndUpdateHighRound`: the stored high round becomes the larger of
      itself and the current round; no other key is touched. */
  function CheckAndUpdateHighRound(m: Manager): (r: Manager)
    ensures GetHighRound(r) == Health.Max(GetHighRound(m), m.currentRound)
    ensures GetHighRound(r) >= GetHighRound(m)
    ensures r.currentRound == m.currentRound && r.escapeCell == m.escapeCell
    ensures forall k :: k != HighScoreKey ==> (k in r.prefs <==> k in m.prefs)
    ensures forall k :: k != HighScoreKey && k in m.prefs ==> r.prefs[k] == m.prefs[k]
  {
    var high := GetHighRound(m);
    if m.currentRound > high then m.(prefs := m.prefs[HighScoreKey := m.currentRound]) else m
  }

  /** `ResetHighRound`: deletes the key, so the high round reads as 0 again. */
  function ResetHighRound(m: Manager): (r: Manager)
    ensures HighScoreKey !in r.prefs
    ensures GetHighRound(r) == 0
    ensures r.currentRound == m.currentRound && r.escapeCell == m.escapeCell
    ensures forall k :: k != HighScoreKey ==> (k in r.prefs <==> k in m.prefs)
    ensures forall k :: k != HighScoreKey && k in m.prefs ==> r.prefs[k] == m.prefs[k]
  {
    m.(prefs := m.prefs - {HighScoreKey})
  }

  function ResetRounds(m: Manager): (r: Manager)
    ensures r.currentRound == 0
    ensures r.prefs == m.prefs && r.escapeCell == m.escapeCell
  {
    m.(currentRound := 0)
  }

  function GetEscapeCell(m: Manager): Option<Coord> {
    m.escapeCell
  }

  lemma ResetToSpawnIdempotent(u: Unit)
    ensures ResetToSpawn(ResetToSpawn(u)) == ResetToSpawn(u)
  {
  }

  /** `ResetBlueUnitsToSpawn(units)`: walks the list, skipping entries whose
      unit no longer exists, and sends every existing one back to its spawner.
      Units not on the list are untouched. */
  function ResetBlueUnitsToSpawn(units: map<UnitId, Unit>, ids: seq<UnitId>): (r: map<UnitId, Unit>)
    ensures r.Keys == units.Keys
    ensures forall id :: id in units && id in ids ==> r[id] == ResetToSpawn(units[id])
    ensures forall id :: id in units && id !in ids ==> r[id] == units[id]
    ensures OnlyMoved(units, r)
    decreases |ids|
  {
    if |ids| == 0 then units
    else
      var first := ids[0];
      assert forall id :: id in ids <==> id == first || id in ids[1..];
      if first in units then
        ResetToSpawnIdempotent(units[first]);
        ResetBlueUnitsToSpawn(units[first := ResetToSpawn(units[first])], ids[1..])
      else
        ResetBlueUnitsToSpawn(units, ids[1..])
  }
}

=== FILE: gameround.dfy ===
/** `GameManager.StartRound`: after the world is rebuilt and the units are
    spawned, the manager records the cell under the escape marker, starts
    the combat round, and then counts the round and updates the high round. */
module GameRound {
  import opened Wrappers
  import opened GridMap
  import opened Cells
  import opened Units
  import Health
  import Combat
  import GameManager

  /** The two singletons a round start touches. */
  datatype Game = Game(manager: GameManager.Manager, combat: Combat.CombatState)

  /** `GetGridObject(escapeMarker.transform.position)`: the cell under the
      marker, or null when the marker is off the grid. */
  function CaptureEscapeCell(g: Grid<Cell>, marker: Vec3): (r: Option<Coord>)
    requires g.Valid() && g.cellSize > 0.0
    ensures r.Some? <==> GetGridObjectAt(g, marker).Some?
    ensures r.Some? ==> g.Contains(r.value) && GetGridObjectAt(g, marker) == Some(g.cells[r.value.x][r.value.y])
  {
    var c := GetXY(g, marker);
    if g.InBounds(c.x, c.y) then Some(c) else None
  }

  /** The escape marker stands at the centre of the escape cell, so the
      manager captures exactly that cell. */
  lemma MarkerCapturesEscapeCell(g: Grid<Cell>, c: Coord)
    requires g.Valid() && g.cellSize > 0.0 && g.Contains(c)
    ensures CaptureEscapeCell(g, GetWorldPositionCellCenter(g, c.x, c.y)) == Some(c)
  {
    CellCenterRoundTrip(g, c.x, c.y);
  }

  /** `StartRound` on a rebuilt world with its units spawned: `order` is the
      scene's units in the order the combat system finds them, `marker` the
      escape marker's position. The combat round starts with the captured
      escape cell; the round counter then goes up by exactly one and the
      high round catches up with it. */
  function StartRound(game: Game, env: Combat.Env, order: seq<UnitId>, marker: Vec3): (r: Game)
    requires Combat.Inv(game.combat) && game.combat.grid.cellSize > 0.0
    requires forall i :: 0 <= i < |order| ==> order[i] in game.combat.units
    ensures Combat.Inv(r.combat)
    ensures r.manager.currentRound == game.manager.currentRound + 1
    ensures GameManager.GetHighRound(r.manager) == Health.Max(GameManager.GetHighRound(game.manager), game.manager.currentRound + 1)
    ensures GameManager.GetHighRound(r.manager) >= r.manager.currentRound
    ensures r.manager.escapeCell == CaptureEscapeCell(game.combat.grid, marker)
    ensures r.combat.escape == r.manager.escapeCell
    ensures r.combat.phase == Combat.Normal && r.combat.actionPoints == env.maxActionPoints
    ensures r.combat.roster == Some(order) && r.combat.units == game.combat.units
  {
    var escape := CaptureEscapeCell(game.combat.grid, marker);
    var m1 := game.manager.(escapeCell := escape);
    var c1 := game.combat.(escape := escape);
    Combat.InvFrame(game.combat, c1);
    var c2 := Combat.StartRound(c1, env, order);
    var m2 := m1.(currentRound := m1.currentRound + 1);
    Game(GameManager.CheckAndUpdateHighRound(m2), c2)
  }

  /** A round start after which the stored high round is not ahead of the
      counter (a fresh profile, a reset high round, a run of records) sets a
      new record: the high round becomes the current round. Otherwise the
      high round stays as it was. */
  lemma RoundStartSetsRecord(game: Game, env: Combat.Env, order: seq<UnitId>, marker: Vec3)
    requires Combat.Inv(game.combat) && game.combat.grid.cellSize > 0.0
    requires forall i :: 0 <= i < |order| ==> order[i] in game.combat.units
    ensures var r := StartRound(game, env, order, marker);
            && (GameManager.GetHighRound(game.manager) <= game.manager.currentRound ==>
                  GameManager.GetHighRound(r.manager) == r.manager.currentRound)
            && (GameManager.GetHighRound(game.manager) > game.manager.currentRound ==>
                  GameManager.GetHighRound(r.manager) == GameManager.GetHighRound(game.manager))
  {
  }
}

=== FILE: grid.dfy ===
/** `Grid<TGridObject>`: a bounds-checked two-dimensional container with
    world <-> cell conversion and a change notification per cell. Cells are
    stored column-major, `cells[x][y]`, as the source's `gridArray[x, y]`.
    World positions use exact reals in place of `float`. */
module GridMap {
  import opened Wrappers

  /** An integer cell coordinate. */
  datatype Coord = Coord(x: int, y: int)

  /** A world-space position; the grid lies in the x/z plane. */
  datatype Vec3 = Vec3(x: real, y: real, z: real)

  datatype Grid<T> = Grid(width: int, height: int, cellSize: real, origin: Vec3, cells: seq<seq<T>>)
  {
    /** The backing array has exactly `width` columns of `height` cells. */
    predicate Valid() {
      && 0 <= width
      && 0 <= height
      && |cells| == width
      && forall i :: 0 <= i < |cells| ==> |cells[i]| == height
    }

    predicate InBounds(x: int, y: int) {
      0 <= x < width && 0 <= y < height
    }

    predicate Contains(c: Coord) {
      InBounds(c.x, c.y)
    }
  }

  /** The outcome of a mutation: the new grid and the `OnGridObjectChanged`
      notifications it raised, in order. */
  datatype Updated<T> = Updated(grid: Grid<T>, raised: seq<Coord>)

  /** Two grids of the same geometry whose cells agree everywhere except
      possibly at (x, y). */
  ghost predicate AgreeExcept<T>(g: Grid<T>, h: Grid<T>, x: int, y: int)
    requires g.Valid() && h.Valid()
  {
    && g.width == h.width && g.height == h.height
    && g.cellSize == h.cellSize && g.origin == h.origin
    && forall a, b :: g.InBounds(a, b) && (a != x || b != y) ==> h.cells[a][b] == g.cells[a][b]
  }

  // ---------------------------------------------------------------------
  // Construction

  /** The constructor allocates `new T[width, height]` and then runs
      `y` over `GetLength(0)` (= width) and `x` over `GetLength(1)` (= height),
      writing `[x, y]`. This is the set of index pairs it writes. */
  ghost predicate ConstructorWrites(width: int, height: int, x: int, y: int) {
    0 <= y < width && 0 <= x < height
  }

  /** When the constructor completes: the allocation needs non-negative
      dimensions and the transposed loops stay inside the array exactly
      when the grid is square or has no cells. */
  predicate ConstructorCompletes(width: int, height: int) {
    0 <= width && 0 <= height && (width == height || width == 0 || height == 0)
  }

  /** The transposed loops write only in-bounds cells iff the grid is square
      (or empty), and then they write every cell. */
  lemma {:induction false} ConstructorLoopsStayInBounds(width: int, height: int)
    requires 0 <= width && 0 <= height
    ensures ConstructorCompletes(width, height) <==>
              (forall x, y :: ConstructorWrites(width, height, x, y) ==> 0 <= x < width && 0 <= y < height)
    ensures ConstructorCompletes(width, height) ==>
              (forall x, y :: 0 <= x < width && 0 <= y < height ==> ConstructorWrites(width, height, x, y))
  {
    if !ConstructorCompletes(width, height) {
      if width > height {
        assert ConstructorWrites(width, height, 0, height);
      } else {
        assert ConstructorWrites(width, height, width, 0);
      }
    }
  }

  /** `new Grid(width, height, cellSize, origin, createGridObject)`; None when
      the constructor throws (see ConstructorCompletes). */
  function NewGrid<T>(width: int, height: int, cellSize: real, origin: Vec3, create: (int, int) -> T): (r: Option<Grid<T>>)
    ensures r.Some? <==> ConstructorCompletes(width, height)
    ensures r.Some? ==> r.value.Valid() && r.value.width == width && r.value.height == height
    ensures r.Some? ==> r.value.cellSize == cellSize && r.value.origin == origin
    ensures r.Some? ==> forall x, y :: 0 <= x < width && 0 <= y < height ==> r.value.cells[x][y] == create(x, y)
  {
    if ConstructorCompletes(width, height) then
      Some(Grid(width, height, cellSize, origin, seq(width, x => seq(height, y => create(x, y)))))
    else
      None
  }

  // ---------------------------------------------------------------------
  // Access by cell coordinate

  /** `GetGridObject(x, y)`: the stored object, or `default` (None) outside. */
  function GetGridObject<T>(g: Grid<T>, x: int, y: int): (r: Option<T>)
    requires g.Valid()
    ensures r.Some? <==> g.InBounds(x, y)
    ensures r.Some? ==> r.value == g.cells[x][y]
  {
    if x >= 0 && y >= 0 && x < g.width && y < g.height then Some(g.cells[x][y]) else None
  }

  /** Overwrites cell (x, y) without raising anything; the building block of
      `SetGridObject` and of every in-place mutation of a stored object. */
  function Put<T>(g: Grid<T>, x: int, y: int, v: T): (r: Grid<T>)
    requires g.Valid() && g.InBounds(x, y)
    ensures r.Valid() && AgreeExcept(g, r, x, y) && r.cells[x][y] == v
  {
    g.(cells := g.cells[x := g.cells[x][y := v]])
  }

  /** `SetGridObject(x, y, value)`: in range it replaces exactly that cell and
      raises one change notification; out of range it changes nothing. */
  function SetGridObject<T>(g: Grid<T>, x: int, y: int, v: T): (r: Updated<T>)
    requires g.Valid()
    ensures r.grid.Valid()
    ensures g.InBounds(x, y) ==> r.raised == [Coord(x, y)]
    ensures !g.InBounds(x, y) ==> r.grid == g && r.raised == []
    ensures forall a, b :: GetGridObject(r.grid, a, b) ==
              if a == x && b == y && g.InBounds(x, y) then Some(v) else GetGridObject(g, a, b)
  {
    if x >= 0 && y >= 0 && x < g.width && y < g.height then
      Updated(Put(g, x, y, v), [Coord(x, y)])
    else
      Updated(g, [])
  }

  /** `TriggerGridObjectChanged(x, y)`: raises a notification without a
      range check and stores nothing. */
  function TriggerGridObjectChanged<T>(g: Grid<T>, x: int, y: int): (r: Updated<T>)
    ensures r.grid == g && r.raised == [Coord(x, y)]
  {
    Updated(g, [Coord(x, y)])
  }

  // ---------------------------------------------------------------------
  // World-space conversion

  function GetWorldPosition<T>(g: Grid<T>, x: int, y: int): Vec3 {
    Vec3((x as real) * g.cellSize + g.origin.x, 0.0 * g.cellSize + g.origin.y, (y as real) * g.cellSize + g.origin.z)
  }

  function GetWorldPositionCellCenter<T>(g: Grid<T>, x: int, y: int): Vec3 {
    var p := GetWorldPosition(g, x, y);
    Vec3(p.x + g.cellSize / 2.0, p.y + 0.0, p.z + g.cellSize / 2.0)
  }

  /** `GetXY`: floor division of the offset from the origin by the cell size. */
  function GetXY<T>(g: Grid<T>, p: Vec3): (c: Coord)
    requires g.cellSize > 0.0
    ensures (c.x as real) * g.cellSize <= p.x - g.origin.x < (c.x as real + 1.0) * g.cellSize
    ensures (c.y as real) * g.cellSize <= p.z - g.origin.z < (c.y as real + 1.0) * g.cellSize
  {
    FloorDivBounds(p.x - g.origin.x, g.cellSize);
    FloorDivBounds(p.z - g.origin.z, g.cellSize);
    Coord(((p.x - g.origin.x) / g.cellSize).Floor, ((p.z - g.origin.z) / g.cellSize).Floor)
  }

  lemma FloorDivBounds(d: real, s: real)
    requires s > 0.0
    ensures ((d / s).Floor as real) * s <= d < ((d / s).Floor as real + 1.0) * s
  {
    var q := d / s;
    DivTimes(d, s);
    Bracket(q, (d / s).Floor as real, s, d);
  }

  lemma DivTimes(d: real, s: real)
    requires s > 0.0
    ensures (d / s) * s == d
  {
  }

  /** Multiplying the bracket f <= q < f + 1 by a positive s. */
  lemma Bracket(q: real, f: real, s: real, d: real)
    requires s > 0.0 && q * s == d && f <= q < f + 1.0
    ensures f * s <= d
    ensures d < (f + 1.0) * s
  {
    MulNonneg(q - f, s);
    MulPositive(f + 1.0 - q, s);
    var m := (f + 1.0 - q) * s;
    assert m == f * s + s - q * s;
    assert (f + 1.0) * s == f * s + s;
    assert (f + 1.0) * s - d == m;
    assert m > 0.0;
    assert d < (f + 1.0) * s;
  }

  lemma MulNonneg(a: real, b: real)
    requires a >= 0.0 && b > 0.0
    ensures a * b >= 0.0
  {
  }

  lemma MulPositive(a: real, b: real)
    requires a > 0.0 && b > 0.0
    ensures a * b > 0.0
  {
  }

  /** A floor division is determined by the bracket it lies in. */
  lemma FloorUnique(d: real, s: real, k: int)
    requires s > 0.0
    requires (k as real) * s <= d < (k as real + 1.0) * s
    ensures (d / s).Floor == k
  {
    FloorDivBounds(d, s);
    var f := (d / s).Floor;
    if f < k {
      MulNonneg(k as real - (f as real + 1.0), s);
      assert false;
    } else if f > k {
      MulNonneg(f as real - (k as real + 1.0), s);
      assert false;
    }
  }

  /** With a positive cell size, converting a cell's centre back gives the cell. */
  lemma CellCenterRoundTrip<T>(g: Grid<T>, x: int, y: int)
    requires g.cellSize > 0.0
    ensures GetXY(g, GetWorldPositionCellCenter(g, x, y)) == Coord(x, y)
  {
    var p := GetWorldPositionCellCenter(g, x, y);
    assert p.x - g.origin.x == (x as real) * g.cellSize + g.cellSize / 2.0;
    assert p.z - g.origin.z == (y as real) * g.cellSize + g.cellSize / 2.0;
    FloorUnique(p.x - g.origin.x, g.cellSize, x);
    FloorUnique(p.z - g.origin.z, g.cellSize, y);
  }

  /** With a positive cell size, a cell's corner converts back to that cell. */
  lemma CornerRoundTrip<T>(g: Grid<T>, x: int, y: int)
    requires g.cellSize > 0.0
    ensures GetXY(g, GetWorldPosition(g, x, y)) == Coord(x, y)
  {
    var p := GetWorldPosition(g, x, y);
    assert p.x - g.origin.x == (x as real) * g.cellSize;
    assert p.z - g.origin.z == (y as real) * g.cellSize;
    FloorUnique(p.x - g.origin.x, g.cellSize, x);
    FloorUnique(p.z - g.origin.z, g.cellSize, y);
  }

  // ---------------------------------------------------------------------
  // Access by world position

  function GetGridObjectAt<T>(g: Grid<T>, p: Vec3): Option<T>
    requires g.Valid() && g.cellSize > 0.0
  {
    var c := GetXY(g, p);
    GetGridObject(g, c.x, c.y)
  }

  function SetGridObjectAt<T>(g: Grid<T>, p: Vec3, v: T): Updated<T>
    requires g.Valid() && g.cellSize > 0.0
  {
    var c := GetXY(g, p);
    SetGridObject(g, c.x, c.y, v)
  }

  /** Looking up or storing by world position acts on the cell the position
      falls in; at a cell centre that is the cell itself. */
  lemma WorldAccessAtCellCenter<T>(g: Grid<T>, x: int, y: int, v: T)
    requires g.Valid() && g.cellSize > 0.0
    ensures GetGridObjectAt(g, GetWorldPositionCellCenter(g, x, y)) == GetGridObject(g, x, y)
    ensures SetGridObjectAt(g, GetWorldPositionCellCenter(g, x, y), v) == SetGridObject(g, x, y, v)
  {
    CellCenterRoundTrip(g, x, y);
  }

  // ---------------------------------------------------------------------
  // Locating an object

  ghost predicate RowHolds<T>(g: Grid<T>, obj: T, j: int)
    requires g.Valid()
  {
    exists i :: 0 <= i < g.width && 0 <= j < g.height && g.cells[i][j] == obj
  }

  ghost predicate Absent<T>(g: Grid<T>, obj: T)
    requires g.Valid()
  {
    forall i, j :: g.InBounds(i, j) ==> g.cells[i][j] != obj
  }

  ghost predicate OccursOnlyAt<T>(g: Grid<T>, obj: T, a: int, b: int)
    requires g.Valid()
  {
    g.InBounds(a, b) && g.cells[a][b] == obj &&
    forall i, j :: g.InBounds(i, j) && g.cells[i][j] == obj ==> i == a && j == b
  }

  /** `GetObjectGridPosition`: rows j ascending, columns i ascending, and the
      `break` leaves only the inner loop. So the answer is the first match in
      the LAST row holding the object, and (0, 0) when it is absent. */
  method GetObjectGridPosition<T(==)>(g: Grid<T>, obj: T) returns (x: int, y: int)
    requires g.Valid()
    ensures Absent(g, obj) ==> x == 0 && y == 0
    ensures !Absent(g, obj) ==> g.InBounds(x, y) && g.cells[x][y] == obj
    ensures !Absent(g, obj) ==> forall i :: 0 <= i < x ==> g.cells[i][y] != obj
    ensures !Absent(g, obj) ==> forall i, j :: y < j < g.height && 0 <= i < g.width ==> g.cells[i][j] != obj
    ensures forall a, b :: OccursOnlyAt(g, obj, a, b) ==> x == a && y == b
  {
    x, y := 0, 0;
    ghost var found := false;
    var j := 0;
    while j < g.height
      invariant 0 <= j <= g.height
      invariant !found <==> forall i, k :: 0 <= i < g.width && 0 <= k < j ==> g.cells[i][k] != obj
      invariant !found ==> x == 0 && y == 0
      invariant found ==> 0 <= y < j && 0 <= x < g.width && g.cells[x][y] == obj
      invariant found ==> forall i :: 0 <= i < x ==> g.cells[i][y] != obj
      invariant found ==> forall i, k :: y < k < j && 0 <= i < g.width ==> g.cells[i][k] != obj
    {
      var i := 0;
      ghost var hit := false;
      while i < g.width
        invariant 0 <= i <= g.width
        invariant !hit
        invariant forall k :: 0 <= k < i ==> g.cells[k][j] != obj
        invariant !found ==> x == 0 && y == 0
        invariant found ==> 0 <= y < j && 0 <= x < g.width && g.cells[x][y] == obj
        invariant found ==> forall k :: 0 <= k < x ==> g.cells[k][y] != obj
        invariant found ==> forall a, k :: y < k < j && 0 <= a < g.width ==> g.cells[a][k] != obj
      {
        if g.cells[i][j] == obj {
          x, y := i, j;
          hit := true;
          break;
        }
        i := i + 1;
      }
      if hit {
        found := true;
      }
      j := j + 1;
    }
  }
}

=== FILE: health.dfy ===
/** `HealthSystem`: current and maximum health with the `OnUnitDied` and
    `OnHealthChanged` notifications, recorded in the order they fire. */
module Health {

  datatype HealthSystem = HealthSystem(health: int, maxHealth: int)

  datatype HealthEvent = UnitDied | HealthChanged

  function Count(es: seq<HealthEvent>, e: HealthEvent): nat {
    if |es| == 0 then 0 else (if es[0] == e then 1 else 0) + Count(es[1..], e)
  }

  function NewHealthSystem(maxHealth: int): (h: HealthSystem)
    ensures h.health == h.maxHealth == maxHealth
  {
    HealthSystem(maxHealth, maxHealth)
  }

  function Max(a: int, b: int): int {
    if a < b then b else a
  }

  function Min(a: int, b: int): int {
    if a < b then a else b
  }

  /** `TakeDamage(d)`: subtracts, floors at zero, fires `OnUnitDied` whenever
      the result is zero (again on every hit taken at zero), then
      `OnHealthChanged`. */
  function TakeDamage(h: HealthSystem, damage: int): (r: (HealthSystem, seq<HealthEvent>))
    ensures r.0.health == Max(h.health - damage, 0)
    ensures r.0.maxHealth == h.maxHealth
    ensures Count(r.1, UnitDied) == (if r.0.health == 0 then 1 else 0)
    ensures Count(r.1, HealthChanged) == 1
    ensures |r.1| > 0 && r.1[|r.1| - 1] == HealthChanged
    ensures InRange(h) && damage >= 0 ==> InRange(r.0)
    ensures h.health == 0 && damage >= 0 ==> Count(r.1, UnitDied) == 1
  {
    var hp := h.health - damage;
    if hp <= 0 then (h.(health := 0), [UnitDied, HealthChanged])
    else (h.(health := hp), [HealthChanged])
  }

  /** `Heal(a)`: adds and caps at the maximum; fires `OnHealthChanged`. */
  function Heal(h: HealthSystem, amount: int): (r: (HealthSystem, seq<HealthEvent>))
    ensures r.0.health == Min(h.health + amount, h.maxHealth)
    ensures r.0.maxHealth == h.maxHealth
    ensures r.1 == [HealthChanged]
    ensures InRange(h) && amount >= 0 ==> InRange(r.0)
  {
    var hp := h.health + amount;
    (h.(health := if hp > h.maxHealth then h.maxHealth else hp), [HealthChanged])
  }

  /** Health within [0, maxHealth]. */
  predicate InRange(h: HealthSystem) {
    0 <= h.health <= h.maxHealth
  }
}

=== FILE: pathnode.dfy ===
/** The pathfinding boundary. The A* search itself is not part of this model:
    `PathOracle` stands for `Pathfinder.FindPath(start, goal)`, returning the
    node sequence or `None` for `null`, and the model only ever asks whether a
    path exists and how many nodes it has. `PathNode` is the per-search record. */
module Pathfinding {
  import opened Wrappers
  import opened GridMap
  import opened Text
  import opened Cells

  type PathOracle = (Coord, Coord) -> Option<seq<Coord>>

  /** `path != null && path.Count <= range + 1`. */
  predicate WithinRange(p: Option<seq<Coord>>, range: int) {
    p.Some? && |p.value| <= range + 1
  }

  datatype PathNode<T> = PathNode(
    x: int, y: int,
    gCost: int, hCost: int, fCost: int,
    nodeObject: Option<T>,
    cameFrom: Option<Coord>,
    walkable: bool)

  /** `new PathNode(grid, x, y)`: coordinates fixed, everything else default. */
  function NewPathNode<T>(x: int, y: int): (n: PathNode<T>)
    ensures n.x == x && n.y == y
    ensures n.gCost == 0 && n.hCost == 0 && n.fCost == 0
    ensures n.nodeObject == None && n.cameFrom == None && !n.walkable
  {
    PathNode(x, y, 0, 0, 0, None, None, false)
  }

  /** `SetNodeObject(obj)`: keeps the object and copies its walkability as it
      is at the time of the call. */
  function SetNodeObject<T>(n: PathNode<T>, obj: T, isWalkable: T -> bool): (r: PathNode<T>)
    ensures r.nodeObject == Some(obj) && r.walkable == isWalkable(obj)
    ensures r.x == n.x && r.y == n.y
    ensures r.gCost == n.gCost && r.hCost == n.hCost && r.fCost == n.fCost && r.cameFrom == n.cameFrom
  {
    n.(nodeObject := Some(obj), walkable := isWalkable(obj))
  }

  function GetNodeObject<T>(n: PathNode<T>): Option<T> {
    n.nodeObject
  }

  function CalculateFCost<T>(n: PathNode<T>): (r: PathNode<T>)
    ensures r.fCost == n.gCost + n.hCost
    ensures r.x == n.x && r.y == n.y && r.gCost == n.gCost && r.hCost == n.hCost
    ensures r.nodeObject == n.nodeObject && r.cameFrom == n.cameFrom && r.walkable == n.walkable
  {
    n.(fCost := n.gCost + n.hCost)
  }

  /** Walkability of the cell a coordinate refers to in a given grid state. */
  function WalkableIn(g: Grid<Cell>): Coord -> bool
    requires g.Valid()
  {
    (c: Coord) => g.Contains(c) && g.cells[c.x][c.y].walkable
  }

  /** The node keeps the walkability the cell had when it was attached: after
      the cell is changed, `GetNodeObject` still names that cell (whose current
      walkability is the new one) while `walkable` keeps the old value. */
  lemma WalkableIsSnapshot(n: PathNode<Coord>, g: Grid<Cell>, c: Coord, b: bool)
    requires g.Valid() && g.Contains(c)
    ensures var node := SetNodeObject(n, c, WalkableIn(g));
            var g' := Put(g, c.x, c.y, SetWalkable(g.cells[c.x][c.y], b));
            && GetNodeObject(node) == Some(c)
            && node.walkable == g.cells[c.x][c.y].walkable
            && WalkableIn(g')(c) == b
  {
  }

  /** `ToString()` = `$"{x},{y}"`. */
  function NodeText<T>(n: PathNode<T>): string {
    IntToString(n.x) + "," + IntToString(n.y)
  }

  function ParseNodeText(s: string): Option<(int, int)> {
    match SplitAtComma(s)
    case None => None
    case Some((xs, ys)) =>
      match ParseInt(xs)
      case None => None
      case Some(x) =>
        match ParseInt(ys)
        case None => None
        case Some(y) => Some((x, y))
  }

  lemma NodeTextRoundTrip<T>(n: PathNode<T>)
    ensures ParseNodeText(NodeText(n)) == Some((n.x, n.y))
  {
    IntTextHasNoComma(n.x);
    SplitAtCommaJoin(IntToString(n.x), IntToString(n.y));
    IntRoundTrip(n.x);
    IntRoundTrip(n.y);
  }
}

=== FILE: sweep.dfy ===
/** `GridCombatSystem.UpdateValidMovePositions`: the two-pass reachability
    sweep that decides which cells the active unit may move to (and, since
    `CanAttackUnit` reads the same flag, which units it may attack). */
module Reachability {
  import opened Wrappers
  import opened GridMap
  import opened Cells
  import opened Pathfinding
  import WorldBuilder

  /** The square of radius r around u, bounds included. */
  predicate InSquare(u: Coord, r: int, x: int, y: int) {
    u.x - r <= x <= u.x + r && u.y - r <= y <= u.y + r
  }

  /** The flag a cell ends with: inside the square, walkable, and a path from
      the unit's cell with at most r + 1 nodes. Occupancy is not consulted. */
  predicate SweepFlag(g: Grid<Cell>, u: Coord, r: int, findPath: PathOracle, x: int, y: int)
    requires g.Valid() && g.InBounds(x, y)
  {
    InSquare(u, r, x, y) && g.cells[x][y].walkable && WithinRange(findPath(u, Coord(x, y)), r)
  }

  /** The grid after the sweep, defined cell by cell in one step; the method
      below computes it the way the source does, in two passes. */
  function Swept(g: Grid<Cell>, u: Coord, r: int, findPath: PathOracle): (h: Grid<Cell>)
    requires g.Valid()
  {
    g.(cells := seq(g.width, x requires 0 <= x < g.width =>
                  seq(g.height, y requires 0 <= y < g.height =>
                    SetValidMove(g.cells[x][y], SweepFlag(g, u, r, findPath, x, y)))))
  }

  lemma SweptShape(g: Grid<Cell>, u: Coord, r: int, findPath: PathOracle)
    requires g.Valid()
    ensures WorldBuilder.SameShape(g, Swept(g, u, r, findPath))
    ensures forall x, y :: g.InBounds(x, y) ==>
              Swept(g, u, r, findPath).cells[x][y] == SetValidMove(g.cells[x][y], SweepFlag(g, u, r, findPath, x, y))
  {
  }

  /** Flag after the first pass, once the columns before `cx` and the rows of
      column `cx` before `cy` have been visited. */
  ghost predicate FirstPassFlag(g: Grid<Cell>, u: Coord, r: int, cx: int, cy: int, a: int, b: int)
    requires g.Valid() && g.InBounds(a, b)
  {
    InSquare(u, r, a, b) && (a < cx || (a == cx && b < cy)) && g.cells[a][b].walkable
  }

  /** Flag during the second pass: visited candidates hold the path verdict,
      unvisited ones keep the first-pass value. */
  ghost predicate SecondPassFlag(g: Grid<Cell>, u: Coord, r: int, findPath: PathOracle, cx: int, cy: int, a: int, b: int)
    requires g.Valid() && g.InBounds(a, b)
  {
    InSquare(u, r, a, b) && g.cells[a][b].walkable &&
    ((a < cx || (a == cx && b < cy)) ==> WithinRange(findPath(u, Coord(a, b)), r))
  }

  /** `UpdateValidMovePositions()` for a unit standing on `u` with
      `maxMoveDistance` r: clear every flag, flag the walkable cells of the
      square, then keep only those a short enough path reaches. */
  method UpdateValidMovePositions(g: Grid<Cell>, u: Coord, r: int, findPath: PathOracle) returns (h: Grid<Cell>)
    requires g.Valid()
    ensures WorldBuilder.SameShape(g, h)
    ensures forall x, y :: g.InBounds(x, y) ==>
              (h.cells[x][y].validMove <==>
                 InSquare(u, r, x, y) && g.cells[x][y].walkable && WithinRange(findPath(u, Coord(x, y)), r))
    ensures forall x, y :: g.InBounds(x, y) ==> h.cells[x][y] == SetValidMove(g.cells[x][y], h.cells[x][y].validMove)
    ensures h == Swept(g, u, r, findPath)
  {
    h := WorldBuilder.SetAllValidMovePositions(g, false);
    var lo, hi := u.x - r, u.x + r;
    var ylo, yhi := u.y - r, u.y + r;

    // First pass: flag the walkable cells of the square.
    var x := lo;
    while x <= hi
      invariant lo <= x && (lo <= hi ==> x <= hi + 1)
      invariant WorldBuilder.SameShape(g, h)
      invariant forall a, b :: g.InBounds(a, b) ==>
                  h.cells[a][b] == SetValidMove(g.cells[a][b], FirstPassFlag(g, u, r, x, ylo, a, b))
    {
      var y := ylo;
      while y <= yhi
        invariant ylo <= y && (ylo <= yhi ==> y <= yhi + 1)
        invariant WorldBuilder.SameShape(g, h)
        invariant forall a, b :: g.InBounds(a, b) ==>
                    h.cells[a][b] == SetValidMove(g.cells[a][b], FirstPassFlag(g, u, r, x, y, a, b))
      {
        var cell := GetGridObject(h, x, y);
        if cell.Some? {
          if cell.value.walkable {
            h := Put(h, x, y, SetValidMove(cell.value, true));
          } else {
            h := Put(h, x, y, SetValidMove(cell.value, false));
          }
        }
        y := y + 1;
      }
      x := x + 1;
    }

    // Second pass: keep a candidate only if a path of at most r + 1 nodes reaches it.
    x := lo;
    while x <= hi
      invariant lo <= x && (lo <= hi ==> x <= hi + 1)
      invariant WorldBuilder.SameShape(g, h)
      invariant forall a, b :: g.InBounds(a, b) ==>
                  h.cells[a][b] == SetValidMove(g.cells[a][b], SecondPassFlag(g, u, r, findPath, x, ylo, a, b))
    {
      var y := ylo;
      while y <= yhi
        invariant ylo <= y && (ylo <= yhi ==> y <= yhi + 1)
        invariant WorldBuilder.SameShape(g, h)
        invariant forall a, b :: g.InBounds(a, b) ==>
                    h.cells[a][b] == SetValidMove(g.cells[a][b], SecondPassFlag(g, u, r, findPath, x, y, a, b))
      {
        var cell := GetGridObject(h, x, y);
        if cell.Some? && cell.value.validMove {
          var path := findPath(u, Coord(x, y));
          h := Put(h, x, y, SetValidMove(cell.value, path.Some? && |path.value| <= r + 1));
        }
        y := y + 1;
      }
      x := x + 1;
    }

    SweptShape(g, u, r, findPath);
    var s := Swept(g, u, r, findPath);
    forall a | 0 <= a < g.width
      ensures h.cells[a] == s.cells[a]
    {
      assert forall b :: 0 <= b < g.height ==> h.cells[a][b] == s.cells[a][b];
    }
  }
}

=== FILE: text.dfy ===
/** Decimal rendering of integers and booleans as C# string interpolation
    produces them (`int.ToString()`, `bool.ToString()` = "True"/"False"),
    together with the decoders used to show that rendering loses nothing. */
module Text {
  import opened Wrappers

  predicate IsDigit(c: char) {
    '0' <= c <= '9'
  }

  predicate AllDigits(s: string) {
    forall i :: 0 <= i < |s| ==> IsDigit(s[i])
  }

  function DigitChar(d: int): (c: char)
    requires 0 <= d < 10
    ensures IsDigit(c)
  {
    (48 + d) as char
  }

  function DigitValue(c: char): (d: int)
    requires IsDigit(c)
    ensures 0 <= d < 10
  {
    c as int - 48
  }

  /** Decimal digits of `n`, most significant first, without leading zeros. */
  function NatToString(n: nat): (s: string)
    ensures 0 < |s|
    ensures AllDigits(s)
    ensures |s| > 1 ==> s[0] != '0'
    decreases n
  {
    if n < 10 then [DigitChar(n)]
    else NatToString(n / 10) + [DigitChar(n % 10)]
  }

  /** `int.ToString()` with the invariant-culture minus sign. */
  function IntToString(i: int): string {
    if i < 0 then "-" + NatToString(-i) else NatToString(i)
  }

  function BoolToString(b: bool): string {
    if b then "True" else "False"
  }

  function ParseNat(s: string): nat
    requires AllDigits(s)
  {
    if |s| == 0 then 0 else ParseNat(s[..|s| - 1]) * 10 + DigitValue(s[|s| - 1])
  }

  /** Reads back what IntToString writes: an optional minus sign and at least one digit. */
  function ParseInt(s: string): Option<int> {
    if 0 < |s| && s[0] == '-' && 1 < |s| && AllDigits(s[1..]) then Some(-(ParseNat(s[1..]) as int))
    else if 0 < |s| && AllDigits(s) then Some(ParseNat(s))
    else None
  }

  function ParseBool(s: string): Option<bool> {
    if s == "True" then Some(true) else if s == "False" then Some(false) else None
  }

  /** Index of the first occurrence of `c` in `s`, or |s| when there is none. */
  function IndexOf(s: string, c: char): (k: nat)
    ensures k <= |s|
    ensures k < |s| ==> s[k] == c
    ensures forall i :: 0 <= i < k ==> s[i] != c
  {
    if |s| == 0 then 0 else if s[0] == c then 0 else 1 + IndexOf(s[1..], c)
  }

  lemma {:induction false} ParseNatRoundTrip(n: nat)
    ensures ParseNat(NatToString(n)) == n
    decreases n
  {
    if n >= 10 {
      var s := NatToString(n);
      var p := NatToString(n / 10);
      assert s == p + [DigitChar(n % 10)];
      assert s[..|s| - 1] == p;
      ParseNatRoundTrip(n / 10);
    }
  }

  /** Decoding what IntToString writes gives back the number. */
  lemma IntRoundTrip(i: int)
    ensures ParseInt(IntToString(i)) == Some(i)
  {
    if i < 0 {
      var p := NatToString(-i);
      var s := "-" + p;
      assert s == IntToString(i);
      assert s[1..] == p;
      assert AllDigits(s[1..]);
      ParseNatRoundTrip(-i);
      assert ParseInt(s) == Some(-(ParseNat(p) as int));
    } else {
      var s := NatToString(i);
      assert s == IntToString(i);
      assert IsDigit(s[0]);
      ParseNatRoundTrip(i);
      assert ParseInt(s) == Some(ParseNat(s));
    }
  }

  lemma BoolRoundTrip(b: bool)
    ensures ParseBool(BoolToString(b)) == Some(b)
  {
  }

  /** A rendered integer never contains a comma, so a comma after it delimits it. */
  lemma IntTextHasNoComma(i: int)
    ensures NoComma(IntToString(i))
  {
    var s := IntToString(i);
    if i < 0 {
      assert forall k :: 1 <= k < |s| ==> s[k] == NatToString(-i)[k - 1];
    }
  }

  predicate NoComma(s: string) {
    forall k :: 0 <= k < |s| ==> s[k] != ','
  }

  /** Splits at the first comma: the text before it and the text after it. */
  function SplitAtComma(s: string): Option<(string, string)> {
    var i := IndexOf(s, ',');
    if i == |s| then None else Some((s[..i], s[i + 1..]))
  }

  /** Splitting `a + "," + b` gives back `a` and `b` when `a` has no comma. */
  lemma SplitAtCommaJoin(a: string, b: string)
    requires NoComma(a)
    ensures SplitAtComma(a + "," + b) == Some((a, b))
  {
    var s := a + "," + b;
    assert s[|a|] == ',';
    assert forall k :: 0 <= k < |a| ==> s[k] == a[k];
    assert IndexOf(s, ',') == |a|;
    assert s[..|a|] == a;
    assert s[|a| + 1..] == b;
  }
}

=== FILE: unit.dfy ===
/** `Unit`: team, position, health and the pending-completion bookkeeping of
    its move and attack requests. A completion callback is one of the
    closures the source hands over, kept as data (`Continuation`) and run by
    the orchestrator when the engine reports the animation finished. The
    unit's `transform.position` is modelled as the cell it stands on. */
module Units {
  import opened Wrappers
  import opened GridMap
  import opened Cells
  import opened Pathfinding
  import opened Health

  /** The source declares `Team { Player, Enemy }` but every caller uses
      `Team.Blue` / `Team.Red`; Blue is the player's faction. */
  datatype Team = Blue | Red

  datatype Continuation =
    | PlayerMove(from: Coord, to: Coord)
    | PlayerAttack(target: UnitId)
    | EnemyMove(mover: UnitId, from: Coord, to: Coord)
    | EnemyAttack(attacker: UnitId, target: UnitId)

  /** A move in progress (`UnitMovement.SetPath`): the path being followed and
      the callback to run on arrival. */
  datatype Movement = Movement(path: seq<Coord>, onArrival: Option<Continuation>)

  datatype Unit = Unit(
    team: Team,
    pos: Coord,
    health: HealthSystem,
    attackDamage: int,
    movement: Option<Movement>,
    onAttackCompleted: Option<Continuation>,
    spawn: Option<Coord>)

  /** `isMoving`. */
  predicate IsMoving(u: Unit) {
    u.movement.Some?
  }

  /** `u.IsEnemy(other)`. */
  predicate IsEnemy(u: Unit, other: Unit) {
    other.team != u.team
  }

  /** Being enemies is exactly being on different teams: never reflexive,
      always symmetric. */
  lemma EnemyIsTeamDifference(a: Unit, b: Unit)
    ensures !IsEnemy(a, a)
    ensures IsEnemy(a, b) <==> IsEnemy(b, a)
    ensures IsEnemy(a, b) <==> a.team != b.team
  {
  }

  /** The guards `MoveTo` passes before it starts moving: not already moving,
      both cells exist, the destination is walkable, and a non-empty path. */
  predicate MoveAccepted(u: Unit, g: Grid<Cell>, dest: Coord, findPath: PathOracle)
    requires g.Valid()
  {
    && !IsMoving(u)
    && g.Contains(u.pos)
    && g.Contains(dest)
    && g.cells[dest.x][dest.y].walkable
    && findPath(u.pos, dest).Some?
    && |findPath(u.pos, dest).value| > 0
  }

  /** `MoveTo(destination, onReached)`. A refused request leaves the unit as
      it was and never runs the callback; an accepted one starts following
      the path and holds the callback until arrival. */
  function MoveTo(u: Unit, g: Grid<Cell>, dest: Coord, onReached: Option<Continuation>, findPath: PathOracle): (r: Unit)
    requires g.Valid()
    ensures !MoveAccepted(u, g, dest, findPath) ==> r == u
    ensures MoveAccepted(u, g, dest, findPath) ==>
              && IsMoving(r)
              && r.movement.value.path == findPath(u.pos, dest).value
              && r.movement.value.onArrival == onReached
              && r.pos == u.pos && r.team == u.team && r.health == u.health
              && r.onAttackCompleted == u.onAttackCompleted && r.spawn == u.spawn
              && r.attackDamage == u.attackDamage
  {
    if IsMoving(u) then u
    else
      var start := GetGridObject(g, u.pos.x, u.pos.y);
      var end := GetGridObject(g, dest.x, dest.y);
      if start.None? || end.None? || !end.value.walkable then u
      else
        var path := findPath(u.pos, dest);
        if path.None? || |path.value| == 0 then u
        else u.(movement := Some(Movement(path.value, onReached)))
  }

  /** Where `UnitMovement` leaves the unit: the centre of the last path node's
      cell, located with `GetObjectGridPosition`, whose answer for an object
      not in the grid is (0, 0). */
  function ArrivalCell(g: Grid<Cell>, from: Coord, path: seq<Coord>): (c: Coord)
    requires g.Valid()
    ensures |path| > 0 && g.Contains(path[|path| - 1]) ==> c == path[|path| - 1]
    ensures g.Contains(from) ==> g.Contains(c)
  {
    if |path| == 0 then from
    else if g.Contains(path[|path| - 1]) then path[|path| - 1]
    else Coord(0, 0)
  }

  /** The end of a move: `isMoving` is cleared and then the callback handed
      to `MoveTo` is returned to be run, once. */
  function CompleteMove(u: Unit, g: Grid<Cell>): (r: (Unit, Option<Continuation>))
    requires g.Valid() && IsMoving(u)
    ensures !IsMoving(r.0)
    ensures r.1 == u.movement.value.onArrival
    ensures r.0.pos == ArrivalCell(g, u.pos, u.movement.value.path)
    ensures r.0.team == u.team && r.0.health == u.health && r.0.spawn == u.spawn
    ensures r.0.onAttackCompleted == u.onAttackCompleted && r.0.attackDamage == u.attackDamage
  {
    (u.(movement := None, pos := ArrivalCell(g, u.pos, u.movement.value.path)), u.movement.value.onArrival)
  }

  /** A move in progress ignores further requests and keeps its callback;
      its single completion hands that callback back and leaves the unit idle,
      so no second completion can follow. */
  lemma MoveCallbackRunsOnce(u: Unit, g: Grid<Cell>, dest: Coord, k: Option<Continuation>, findPath: PathOracle, dest2: Coord, k2: Option<Continuation>)
    requires g.Valid() && MoveAccepted(u, g, dest, findPath)
    ensures var moving := MoveTo(u, g, dest, k, findPath);
            && MoveTo(moving, g, dest2, k2, findPath) == moving
            && CompleteMove(moving, g).1 == k
            && !IsMoving(CompleteMove(moving, g).0)
  {
  }

  /** `AttackUnit(target, onCompleted)`: stores the callback, replacing any
      pending one. */
  function AttackUnit(u: Unit, onCompleted: Continuation): (r: Unit)
    ensures r.onAttackCompleted == Some(onCompleted)
    ensures r.pos == u.pos && r.team == u.team && r.health == u.health
    ensures r.movement == u.movement && r.spawn == u.spawn && r.attackDamage == u.attackDamage
  {
    u.(onAttackCompleted := Some(onCompleted))
  }

  /** `OnAnimationComplete()`: runs the pending callback (if any) and clears it. */
  function OnAnimationComplete(u: Unit): (r: (Unit, Option<Continuation>))
    ensures r.1 == u.onAttackCompleted
    ensures r.0.onAttackCompleted == None
    ensures r.0.pos == u.pos && r.0.team == u.team && r.0.health == u.health
    ensures r.0.movement == u.movement && r.0.spawn == u.spawn && r.0.attackDamage == u.attackDamage
  {
    (u.(onAttackCompleted := None), u.onAttackCompleted)
  }

  /** Only the latest attack callback survives, and it runs at most once. */
  lemma AttackCallbackRunsOnce(u: Unit, k1: Continuation, k2: Continuation)
    ensures var done := OnAnimationComplete(AttackUnit(AttackUnit(u, k1), k2));
            done.1 == Some(k2) && OnAnimationComplete(done.0).1 == None
  {
  }

  /** `CanAttackUnit(target)`: the valid-move flag of the target's cell. */
  function CanAttackUnit(g: Grid<Cell>, target: Unit): bool
    requires g.Valid() && g.Contains(target.pos)
  {
    g.cells[target.pos.x][target.pos.y].validMove
  }

  /** `TakeDamage(d)`: forwards to the health system; reports whether
      `OnUnitDied` fired. */
  function TakeDamage(u: Unit, damage: int): (r: (Unit, bool))
    ensures r.0.health.health == Max(u.health.health - damage, 0)
    ensures r.1 <==> r.0.health.health == 0
    ensures r.0.pos == u.pos && r.0.team == u.team && r.0.movement == u.movement
    ensures r.0.onAttackCompleted == u.onAttackCompleted && r.0.spawn == u.spawn
    ensures r.0.attackDamage == u.attackDamage
  {
    var (h, events) := Health.TakeDamage(u.health, damage);
    (u.(health := h), Count(events, UnitDied) > 0)
  }

  /** `GetSpawner()?.ResetUnitPosition()`: a unit with a spawner goes back to
      the spawner's cell; one without stays. The spawner's own code is not
      part of this model. */
  function ResetToSpawn(u: Unit): (r: Unit)
    ensures u.spawn.Some? ==> r.pos == u.spawn.value
    ensures u.spawn.None? ==> r == u
    ensures r.team == u.team && r.health == u.health && r.movement == u.movement
    ensures r.onAttackCompleted == u.onAttackCompleted && r.spawn == u.spawn
    ensures r == u.(pos := r.pos)
  {
    match u.spawn
    case Some(p) => u.(pos := p)
    case None => u
  }

  /** The same units, each changed at most in where it stands and in its
      health. */
  ghost predicate OnlyMovedOrHit(a: map<UnitId, Unit>, b: map<UnitId, Unit>) {
    && a.Keys == b.Keys
    && forall id :: id in a ==> b[id] == a[id].(pos := b[id].pos, health := b[id].health)
  }

  /** The same units, each changed at most in where it stands. */
  ghost predicate OnlyMoved(a: map<UnitId, Unit>, b: map<UnitId, Unit>) {
    && a.Keys == b.Keys
    && forall id :: id in a ==> b[id] == a[id].(pos := b[id].pos)
  }

  /** Moving units leaves every health as it was. */
  lemma MovedKeepsHealth(a: map<UnitId, Unit>, b: map<UnitId, Unit>, id: UnitId)
    requires OnlyMoved(a, b) && id in a
    ensures id in b && b[id].health == a[id].health
  {
    assert b[id] == a[id].(pos := b[id].pos);
  }

  lemma OnlyMovedIsOnlyMovedOrHit(a: map<UnitId, Unit>, b: map<UnitId, Unit>)
    requires OnlyMoved(a, b)
    ensures OnlyMovedOrHit(a, b)
  {
    forall id | id in a ensures b[id] == a[id].(pos := b[id].pos, health := b[id].health) {
      assert b[id] == a[id].(pos := b[id].pos);
    }
  }

  lemma UnchangedIsOnlyMovedOrHit(a: map<UnitId, Unit>)
    ensures OnlyMovedOrHit(a, a)
  {
    forall id | id in a ensures a[id] == a[id].(pos := a[id].pos, health := a[id].health) {
    }
  }
}

=== FILE: utils.dfy ===
/** The ring arithmetic of `Utils`: how many concentric rings a group of
    units needs around its centre unit, how big and how far out each ring
    is, and how many positions the position lists hold. The positions
    themselves are float geometry; a ring position is kept as its ring
    distance and its angle. */
module Rings {
  import opened Wrappers
  import Health

  /** Units held by the first `k` rings when ring `i` (from 1) holds `b * i`. */
  function RingsTotal(b: int, k: nat): int {
    if k == 0 then 0 else RingsTotal(b, k - 1) + b * k
  }

  /** The closed form: the first `k` rings hold `b * k * (k + 1) / 2` units. */
  lemma {:induction false} RingsTotalClosedForm(b: int, k: nat)
    ensures 2 * RingsTotal(b, k) == b * k * (k + 1)
  {
    if k > 0 {
      RingsTotalClosedForm(b, k - 1);
      assert b * k * (k + 1) == b * (k - 1) * k + 2 * b * k;
    }
  }

  /** With a positive ring base, more rings hold more units. */
  lemma {:induction false} RingsTotalGrows(b: int, j: nat, k: nat)
    requires b > 0 && j <= k
    ensures RingsTotal(b, j) <= RingsTotal(b, k)
    ensures j < k ==> RingsTotal(b, j) < RingsTotal(b, k)
    decreases k
  {
    if j < k {
      RingsTotalGrows(b, j, k - 1);
      assert b * k > 0;
    }
  }

  /** `CalculateRingAmount(unitCount, baseUnitCount)`: no ring for one unit
      or none; otherwise the fewest rings, at least one, that hold every unit
      but the centre one. With a zero base the loop never ends, and with a
      negative base it ends only through 32-bit wrap-around of the
      remainder, which unbounded integers do not have; so the base is
      required to be positive. */
  method CalculateRingAmount(unitCount: int, baseUnitCount: int) returns (ringCount: nat)
    requires unitCount <= 1 || baseUnitCount > 0
    ensures unitCount <= 1 ==> ringCount == 0
    ensures unitCount > 1 ==> ringCount >= 1 && RingsTotal(baseUnitCount, ringCount) >= unitCount - 1
    ensures unitCount > 1 ==> RingsTotal(baseUnitCount, ringCount - 1) < unitCount - 1
  {
    if unitCount <= 1 {
      return 0;
    }
    ringCount := 0;
    var remainingUnits := unitCount - 1;
    var unitsInRing := baseUnitCount;
    while remainingUnits > 0
      invariant remainingUnits == unitCount - 1 - RingsTotal(baseUnitCount, ringCount)
      invariant unitsInRing == baseUnitCount * (ringCount + 1)
      invariant ringCount > 0 ==> RingsTotal(baseUnitCount, ringCount - 1) < unitCount - 1
      invariant ringCount == 0 ==> remainingUnits > 0
      decreases remainingUnits
    {
      ringCount := ringCount + 1;
      remainingUnits := remainingUnits - unitsInRing;
      unitsInRing := unitsInRing + baseUnitCount;
    }
  }

  /** The rings `CalcRingSizeAndAmount` describes. */
  datatype RingLayout = RingLayout(ringDistances: seq<real>, unitsPerRing: seq<int>)

  /** `CalcRingSizeAndAmount`: ring `i` (from 0) lies at `(i + 1)` times the
      base distance and holds `(i + 1)` times the base count. A negative ring
      count makes the array allocation throw: None. */
  method CalcRingSizeAndAmount(ringCount: int, baseUnitCount: int, baseRingDistance: real) returns (r: Option<RingLayout>)
    ensures r.None? <==> ringCount < 0
    ensures r.Some? ==> |r.value.ringDistances| == ringCount && |r.value.unitsPerRing| == ringCount
    ensures r.Some? ==> forall i :: 0 <= i < ringCount ==>
              r.value.ringDistances[i] == baseRingDistance * (i + 1) as real && r.value.unitsPerRing[i] == baseUnitCount * (i + 1)
  {
    if ringCount < 0 {
      return None;
    }
    var distances: seq<real> := [];
    var counts: seq<int> := [];
    for i := 0 to ringCount
      invariant |distances| == i && |counts| == i
      invariant forall j :: 0 <= j < i ==> distances[j] == baseRingDistance * (j + 1) as real && counts[j] == baseUnitCount * (j + 1)
    {
      distances := distances + [baseRingDistance * (i + 1) as real];
      counts := counts + [baseUnitCount * (i + 1)];
    }
    return Some(RingLayout(distances, counts));
  }

  /** The sum of a sequence, from the front. */
  function Sum(xs: seq<int>): int {
    if |xs| == 0 then 0 else Sum(xs[..|xs| - 1]) + xs[|xs| - 1]
  }

  /** The per-ring counts `CalcRingSizeAndAmount` produces add up to what
      the rings hold. */
  lemma {:induction false} SumOfRingCounts(counts: seq<int>, b: int, k: nat)
    requires k <= |counts|
    requires forall i :: 0 <= i < k ==> counts[i] == b * (i + 1)
    ensures Sum(counts[..k]) == RingsTotal(b, k)
  {
    if k > 0 {
      assert counts[..k][..k - 1] == counts[..k - 1];
      SumOfRingCounts(counts, b, k - 1);
    }
  }

  /** `CalculateRingAmount` fed into `CalcRingSizeAndAmount`: the rings have
      room for every unit but the centre one, and one ring fewer would not. */
  method LayoutFor(unitCount: int, baseUnitCount: int, baseRingDistance: real) returns (layout: RingLayout)
    requires unitCount <= 1 || baseUnitCount > 0
    ensures |layout.unitsPerRing| == |layout.ringDistances|
    ensures unitCount <= 1 ==> |layout.unitsPerRing| == 0
    ensures forall i :: 0 <= i < |layout.unitsPerRing| ==> layout.unitsPerRing[i] == baseUnitCount * (i + 1)
    ensures Sum(layout.unitsPerRing) >= unitCount - 1
    ensures unitCount > 1 ==> Sum(layout.unitsPerRing) - layout.unitsPerRing[|layout.unitsPerRing| - 1] < unitCount - 1
  {
    var k := CalculateRingAmount(unitCount, baseUnitCount);
    var r := CalcRingSizeAndAmount(k, baseUnitCount, baseRingDistance);
    layout := r.value;
    assert layout.unitsPerRing[..k] == layout.unitsPerRing;
    SumOfRingCounts(layout.unitsPerRing, baseUnitCount, k);
    if unitCount > 1 {
      assert layout.unitsPerRing[..k][..k - 1] == layout.unitsPerRing[..k - 1];
      SumOfRingCounts(layout.unitsPerRing, baseUnitCount, k - 1);
    }
  }

  // ---------------------------------------------------------------------
  // Position lists

  /** An entry of a position list: the start position, or the point at the
      given distance and angle (degrees) around it. */
  datatype Slot = Start | OnRing(distance: real, angle: real)

  /** The single-ring `GetPositionListAround`: `positionsCount` points spread
      evenly round the circle, the i-th at angle `i * (360 / positionsCount)`;
      a count of zero or less gives an empty list. */
  method RingPositions(distance: real, positionsCount: int) returns (r: seq<Slot>)
    ensures |r| == Health.Max(positionsCount, 0)
    ensures positionsCount != 0 ==> forall i :: 0 <= i < |r| ==> r[i] == OnRing(distance, (i as real) * (360.0 / positionsCount as real))
    ensures r == RingSlots(distance, positionsCount)
  {
    r := [];
    var i := 0;
    while i < positionsCount
      invariant 0 <= i && |r| == i
      invariant i == 0 || i <= positionsCount
      invariant positionsCount != 0 ==> forall j :: 0 <= j < i ==> r[j] == OnRing(distance, (j as real) * (360.0 / positionsCount as real))
      decreases positionsCount - i
    {
      r := r + [OnRing(distance, (i as real) * (360.0 / positionsCount as real))];
      i := i + 1;
    }
    var whole := RingSlots(distance, positionsCount);
    forall j | 0 <= j < |r| ensures r[j] == whole[j] {
      RingSlotAt(distance, positionsCount, j);
    }
  }

  /** The j-th point of a ring, read off the whole ring. */
  lemma RingSlotAt(distance: real, count: int, j: int)
    requires 0 <= j < Produced(count)
    ensures RingSlots(distance, count)[j] == OnRing(distance, (j as real) * (360.0 / count as real))
  {
  }

  /** A count as the number of points its ring loop produces. */
  function Produced(c: int): nat {
    Health.Max(c, 0)
  }

  /** The points all rings produce together. */
  function TotalProduced(counts: seq<int>): nat {
    if |counts| == 0 then 0 else TotalProduced(counts[..|counts| - 1]) + Produced(counts[|counts| - 1])
  }

  /** The points of one ring, as a whole: `count` evenly spaced angles at
      `distance`, none for a count of zero or less. */
  function RingSlots(distance: real, count: int): (r: seq<Slot>)
    ensures |r| == Produced(count)
  {
    if count <= 0 then []
    else seq(count, i => OnRing(distance, (i as real) * (360.0 / count as real)))
  }

  /** The rings one after another, ring `i` at `ds[i]` with `cs[i]` points. */
  function AllRings(ds: seq<real>, cs: seq<int>): (r: seq<Slot>)
    requires |ds| == |cs|
  {
    if |ds| == 0 then []
    else AllRings(ds[..|ds| - 1], cs[..|cs| - 1]) + RingSlots(ds[|ds| - 1], cs[|cs| - 1])
  }

  /** Ring `i` occupies the stretch of the rings' list that starts after the
      points of the rings before it, and holds its own points in order. */
  lemma {:induction false} AllRingsSlot(ds: seq<real>, cs: seq<int>, i: int, j: int)
    requires |ds| == |cs| && 0 <= i < |ds| && 0 <= j < Produced(cs[i])
    ensures |AllRings(ds, cs)| == TotalProduced(cs)
    ensures TotalProduced(cs[..i]) + j < TotalProduced(cs)
    ensures AllRings(ds, cs)[TotalProduced(cs[..i]) + j] == RingSlots(ds[i], cs[i])[j]
  {
    var n := |ds| - 1;
    var front := AllRings(ds[..n], cs[..n]);
    AllRingsLength(ds[..n], cs[..n]);
    if i == n {
      assert cs[..i] == cs[..n];
    } else {
      assert ds[..n][i] == ds[i] && cs[..n][i] == cs[i] && cs[..n][..i] == cs[..i];
      AllRingsSlot(ds[..n], cs[..n], i, j);
    }
  }

  /** The rings' list holds every point the rings produce. */
  lemma {:induction false} AllRingsLength(ds: seq<real>, cs: seq<int>)
    requires |ds| == |cs|
    ensures |AllRings(ds, cs)| == TotalProduced(cs)
  {
    if |ds| > 0 {
      AllRingsLength(ds[..|ds| - 1], cs[..|cs| - 1]);
    }
  }

  /** The multi-ring `GetPositionListAround`: the start position, then every
      ring in order. Reading a count past the end of the count array throws:
      None. */
  method PositionListAround(ringDistances: seq<real>, ringPositionCounts: seq<int>) returns (r: Option<seq<Slot>>)
    ensures r.None? <==> |ringPositionCounts| < |ringDistances|
    ensures r.Some? ==> |r.value| > 0 && r.value[0] == Start
    ensures r.Some? ==> |r.value| == 1 + TotalProduced(ringPositionCounts[..|ringDistances|])
    ensures r.Some? ==> forall k :: 1 <= k < |r.value| ==> r.value[k].OnRing? && r.value[k].distance in ringDistances
    ensures r.Some? ==> r.value == [Start] + AllRings(ringDistances, ringPositionCounts[..|ringDistances|])
  {
    if |ringPositionCounts| < |ringDistances| {
      return None;
    }
    var list := [Start];
    for i := 0 to |ringDistances|
      invariant |list| == 1 + TotalProduced(ringPositionCounts[..i]) && list[0] == Start
      invariant forall k :: 1 <= k < |list| ==> list[k].OnRing? && list[k].distance in ringDistances
      invariant list == [Start] + AllRings(ringDistances[..i], ringPositionCounts[..i])
    {
      var ring := RingPositions(ringDistances[i], ringPositionCounts[i]);
      assert ringPositionCounts[..i + 1][..i] == ringPositionCounts[..i];
      assert ringDistances[..i + 1][..i] == ringDistances[..i];
      assert AllRings(ringDistances[..i + 1], ringPositionCounts[..i + 1])
          == AllRings(ringDistances[..i], ringPositionCounts[..i]) + ring;
      forall k | 0 <= k < |ring| ensures ring[k].OnRing? && ring[k].distance in ringDistances {
        RingSlotAt(ringDistances[i], ringPositionCounts[i], k);
      }
      list := list + ring;
    }
    assert ringDistances[..|ringDistances|] == ringDistances;
    return Some(list);
  }

  /** Positions for a whole group: the position list over the rings the
      group needs has a place for every unit. */
  method GroupPositions(unitCount: int, baseUnitCount: int, baseRingDistance: real) returns (r: seq<Slot>)
    requires unitCount <= 1 || baseUnitCount > 0
    ensures |r| > 0 && r[0] == Start && |r| >= unitCount
  {
    var layout := LayoutFor(unitCount, baseUnitCount, baseRingDistance);
    var list := PositionListAround(layout.ringDistances, layout.unitsPerRing);
    r := list.value;
    assert layout.unitsPerRing[..|layout.ringDistances|] == layout.unitsPerRing;
    if unitCount > 1 {
      forall i | 0 <= i < |layout.unitsPerRing| ensures layout.unitsPerRing[i] >= 0 {
        assert baseUnitCount * (i + 1) >= 0;
      }
      ProducedMatchesSum(layout.unitsPerRing);
    }
  }

  /** Counts that are never negative produce exactly their sum. */
  lemma {:induction false} ProducedMatchesSum(counts: seq<int>)
    requires forall i :: 0 <= i < |counts| ==> counts[i] >= 0
    ensures TotalProduced(counts) == Sum(counts)
  {
    if |counts| > 0 {
      ProducedMatchesSum(counts[..|counts| - 1]);
    }
  }
}

=== FILE: worldbuilder.dfy ===
/** `WorldBuilder`: resetting cells, carving rooms and tunnels from a supplied
    stream of random draws, the spawner layout, and bulk flag updates. */
module WorldBuilder {
  import opened Wrappers
  import opened GridMap
  import opened Cells
  import opened Health

  /** Same geometry, both well formed. */
  ghost predicate SameShape(g: Grid<Cell>, h: Grid<Cell>) {
    && g.Valid() && h.Valid()
    && h.width == g.width && h.height == g.height
    && h.cellSize == g.cellSize && h.origin == g.origin
  }

  /** The `for x / for y` sweep over every cell shared by `ResetCells` and
      `SetAllValidMovePositions`: applies `f` to each existing cell. */
  method ForEachCell(g: Grid<Cell>, f: Cell -> Cell) returns (h: Grid<Cell>)
    requires g.Valid()
    ensures SameShape(g, h)
    ensures forall a, b :: g.InBounds(a, b) ==> h.cells[a][b] == f(g.cells[a][b])
  {
    h := g;
    var x := 0;
    while x < g.width
      invariant 0 <= x <= g.width
      invariant SameShape(g, h)
      invariant forall a, b :: g.InBounds(a, b) ==> h.cells[a][b] == if a < x then f(g.cells[a][b]) else g.cells[a][b]
    {
      var y := 0;
      while y < g.height
        invariant 0 <= y <= g.height
        invariant SameShape(g, h)
        invariant forall a, b :: g.InBounds(a, b) ==>
                    h.cells[a][b] == if a < x || (a == x && b < y) then f(g.cells[a][b]) else g.cells[a][b]
      {
        var cell := GetGridObject(h, x, y);
        if cell.Some? {
          h := Put(h, x, y, f(cell.value));
        }
        y := y + 1;
      }
      x := x + 1;
    }
  }

  /** `ResetCells`: every cell becomes unwalkable; nothing else changes. */
  method ResetCells(g: Grid<Cell>) returns (h: Grid<Cell>)
    requires g.Valid()
    ensures SameShape(g, h)
    ensures forall a, b :: g.InBounds(a, b) ==> !h.cells[a][b].walkable
    ensures forall a, b :: g.InBounds(a, b) ==> h.cells[a][b] == SetWalkable(g.cells[a][b], false)
  {
    h := ForEachCell(g, c => SetWalkable(c, false));
  }

  /** `SetAllValidMovePositions(state)`: every cell's flag becomes `state`;
      nothing else changes. */
  method SetAllValidMovePositions(g: Grid<Cell>, state: bool) returns (h: Grid<Cell>)
    requires g.Valid()
    ensures SameShape(g, h)
    ensures forall a, b :: g.InBounds(a, b) ==> h.cells[a][b].validMove == state
    ensures forall a, b :: g.InBounds(a, b) ==> h.cells[a][b] == SetValidMove(g.cells[a][b], state)
  {
    h := ForEachCell(g, c => SetValidMove(c, state));
  }

  // ---------------------------------------------------------------------
  // Random draws

  /** The raw outputs of the builder's `System.Random`, in the order they are
      drawn. */
  type Draws = nat -> int

  /** `rng.Next(lo, hi)` on a raw draw: a value in `[lo, hi)`, `lo` itself
      when the range is empty, and an `ArgumentOutOfRangeException` (None)
      when `lo > hi`. */
  function Next(draw: int, lo: int, hi: int): (r: Option<int>)
    ensures r.None? <==> lo > hi
    ensures r.Some? ==> lo <= r.value && (r.value < hi || r.value == lo == hi)
  {
    if lo > hi then None
    else if lo == hi then Some(lo)
    else Some(lo + draw % (hi - lo))
  }

  // ---------------------------------------------------------------------
  // Rooms

  /** Unity's `RectInt(x, y, width, height)`. */
  datatype Room = Room(x: int, y: int, w: int, h: int)
  {
    /** `xMin`, `xMax`, `yMin`, `yMax`: the edges, in order even for a
        negative extent. */
    function XMin(): int { Min(x, x + w) }
    function XMax(): int { Max(x, x + w) }
    function YMin(): int { Min(y, y + h) }
    function YMax(): int { Max(y, y + h) }
  }

  /** `a.Overlaps(b)`: the open interiors intersect on both axes. */
  predicate Overlaps(a: Room, b: Room) {
    b.XMin() < a.XMax() && b.XMax() > a.XMin() && b.YMin() < a.YMax() && b.YMax() > a.YMin()
  }

  /** Overlap does not depend on the order of the two rooms, and two rooms
      side by side (one ending where the other starts) do not overlap. */
  lemma OverlapsSymmetric(a: Room, b: Room)
    ensures Overlaps(a, b) <==> Overlaps(b, a)
    ensures a.w >= 0 && b.w >= 0 && a.x + a.w == b.x ==> !Overlaps(a, b)
  {
  }

  /** The test a drawn room must pass: `x >= 0`, `y >= 0`,
      `x + width < width of the grid`, `y + height < height of the grid`. */
  predicate Fits(r: Room, width: int, height: int) {
    r.x >= 0 && r.y >= 0 && r.x + r.w < width && r.y + r.h < height
  }

  /** Cell (a, b) is one of the room's cells, the ones its fill loops visit. */
  predicate InRoom(r: Room, a: int, b: int) {
    r.x <= a < r.x + r.w && r.y <= b < r.y + r.h
  }

  /** `Mathf.RoundToInt(n / 2f)`: the nearest integer to half of `n`,
      halves going to the even neighbour. */
  function RoundHalf(n: int): (k: int)
    ensures 2 * k - 1 <= n <= 2 * k + 1
    ensures n % 2 == 0 ==> 2 * k == n
    ensures n % 2 == 1 ==> k % 2 == 0
  {
    if n % 2 == 0 then n / 2
    else
      var lo := (n - 1) / 2;
      if lo % 2 == 0 then lo else lo + 1
  }

  /** `Vector2Int.RoundToInt(room.center)`, with `center` the exact point
      `(x + width / 2, y + height / 2)`. */
  function Centre(r: Room): Coord {
    Coord(RoundHalf(2 * r.x + r.w), RoundHalf(2 * r.y + r.h))
  }

  /** The centre of a room with a non-negative extent lies on the room or on
      its far edge, so the centre of a fitting room is a cell of the grid. */
  lemma CentreInsideRoom(r: Room, width: int, height: int)
    requires r.w >= 0 && r.h >= 0
    ensures r.x <= Centre(r).x <= r.x + r.w && r.y <= Centre(r).y <= r.y + r.h
    ensures Fits(r, width, height) ==> 0 <= Centre(r).x < width && 0 <= Centre(r).y < height
  {
  }

  /** `h2` is `h` with possibly more cells walkable and nothing else
      changed: no carving step ever makes a cell unwalkable. */
  ghost predicate Widens(h: Grid<Cell>, h2: Grid<Cell>) {
    && SameShape(h, h2)
    && forall a, b :: h.InBounds(a, b) ==>
         && h2.cells[a][b] == SetWalkable(h.cells[a][b], h2.cells[a][b].walkable)
         && (h.cells[a][b].walkable ==> h2.cells[a][b].walkable)
  }

  /** The cell loops that follow an accepted room: every cell of the room
      becomes walkable, and no other cell changes. */
  method CarveRoom(g: Grid<Cell>, room: Room) returns (h: Grid<Cell>)
    requires g.Valid() && Fits(room, g.width, g.height)
    ensures Widens(g, h)
    ensures forall a, b :: g.InBounds(a, b) ==>
              h.cells[a][b] == if InRoom(room, a, b) then SetWalkable(g.cells[a][b], true) else g.cells[a][b]
  {
    h := g;
    // A negative extent runs no iteration, as the source's `x < x0 + w` test.
    for x := room.x to Max(room.x, room.x + room.w)
      invariant SameShape(g, h)
      invariant forall a, b :: g.InBounds(a, b) ==>
                  h.cells[a][b] == if InRoom(room, a, b) && a < x then SetWalkable(g.cells[a][b], true) else g.cells[a][b]
    {
      for y := room.y to Max(room.y, room.y + room.h)
        invariant SameShape(g, h)
        invariant forall a, b :: g.InBounds(a, b) ==>
                    h.cells[a][b] == if InRoom(room, a, b) && (a < x || (a == x && b < y)) then SetWalkable(g.cells[a][b], true) else g.cells[a][b]
      {
        h := Put(h, x, y, SetWalkable(h.cells[x][y], true));
      }
    }
  }

  // ---------------------------------------------------------------------
  // Tunnels

  /** Cell (a, b) lies on the row-`y` segment between `x1` and `x2`, both
      ends included. */
  predicate OnRow(x1: int, x2: int, y: int, a: int, b: int) {
    b == y && Min(x1, x2) <= a <= Max(x1, x2)
  }

  /** Cell (a, b) lies on the column-`x` segment between `y1` and `y2`. */
  predicate OnColumn(y1: int, y2: int, x: int, a: int, b: int) {
    a == x && Min(y1, y2) <= b <= Max(y1, y2)
  }

  /** `CreateHorizontalTunnel(x1, x2, y)`: makes the inclusive segment
      walkable. A segment that leaves the grid reaches a null cell and
      throws (None). */
  method CreateHorizontalTunnel(g: Grid<Cell>, x1: int, x2: int, y: int) returns (r: Option<Grid<Cell>>)
    requires g.Valid()
    ensures r.None? <==> !(g.InBounds(Min(x1, x2), y) && g.InBounds(Max(x1, x2), y))
    ensures r.Some? ==> SameShape(g, r.value)
    ensures r.Some? ==> forall a, b :: g.InBounds(a, b) ==>
              r.value.cells[a][b] == if OnRow(x1, x2, y, a, b) then SetWalkable(g.cells[a][b], true) else g.cells[a][b]
  {
    var h := g;
    for x := Min(x1, x2) to Max(x1, x2) + 1
      invariant SameShape(g, h)
      invariant forall a :: Min(x1, x2) <= a < x ==> g.InBounds(a, y)
      invariant forall a, b :: g.InBounds(a, b) ==>
                  h.cells[a][b] == if OnRow(x1, x2, y, a, b) && a < x then SetWalkable(g.cells[a][b], true) else g.cells[a][b]
    {
      if !h.InBounds(x, y) {
        return None;
      }
      h := Put(h, x, y, SetWalkable(h.cells[x][y], true));
    }
    r := Some(h);
  }

  /** `CreateVerticalTunnel(y1, y2, x)`: the same along column `x`. */
  method CreateVerticalTunnel(g: Grid<Cell>, y1: int, y2: int, x: int) returns (r: Option<Grid<Cell>>)
    requires g.Valid()
    ensures r.None? <==> !(g.InBounds(x, Min(y1, y2)) && g.InBounds(x, Max(y1, y2)))
    ensures r.Some? ==> SameShape(g, r.value)
    ensures r.Some? ==> forall a, b :: g.InBounds(a, b) ==>
              r.value.cells[a][b] == if OnColumn(y1, y2, x, a, b) then SetWalkable(g.cells[a][b], true) else g.cells[a][b]
  {
    var h := g;
    for y := Min(y1, y2) to Max(y1, y2) + 1
      invariant SameShape(g, h)
      invariant forall b :: Min(y1, y2) <= b < y ==> g.InBounds(x, b)
      invariant forall a, b :: g.InBounds(a, b) ==>
                  h.cells[a][b] == if OnColumn(y1, y2, x, a, b) && b < y then SetWalkable(g.cells[a][b], true) else g.cells[a][b]
    {
      if !h.InBounds(x, y) {
        return None;
      }
      h := Put(h, x, y, SetWalkable(h.cells[x][y], true));
    }
    r := Some(h);
  }

  /** The L-shaped corridor from the previous room's centre to the new one's:
      with coin 0 along the previous centre's row and then the new centre's
      column, otherwise along the previous centre's column and then the new
      centre's row. */
  predicate OnCorridor(prev: Coord, cur: Coord, coin: int, a: int, b: int) {
    if coin == 0 then OnRow(prev.x, cur.x, prev.y, a, b) || OnColumn(prev.y, cur.y, cur.x, a, b)
    else OnColumn(prev.y, cur.y, prev.x, a, b) || OnRow(prev.x, cur.x, cur.y, a, b)
  }

  /** The two tunnel calls that join a new room to the previous one. Between
      two centres inside the grid neither tunnel can leave it. */
  method ConnectRooms(g: Grid<Cell>, prev: Coord, cur: Coord, coin: int) returns (r: Option<Grid<Cell>>)
    requires g.Valid()
    ensures g.Contains(prev) && g.Contains(cur) ==> r.Some?
    ensures r.Some? ==> Widens(g, r.value)
    ensures r.Some? ==> forall a, b :: g.InBounds(a, b) ==>
              r.value.cells[a][b] == if OnCorridor(prev, cur, coin, a, b) then SetWalkable(g.cells[a][b], true) else g.cells[a][b]
  {
    var first: Option<Grid<Cell>>;
    if coin == 0 {
      first := CreateHorizontalTunnel(g, prev.x, cur.x, prev.y);
      if first.None? {
        return None;
      }
      r := CreateVerticalTunnel(first.value, prev.y, cur.y, cur.x);
    } else {
      first := CreateVerticalTunnel(g, prev.y, cur.y, prev.x);
      if first.None? {
        return None;
      }
      r := CreateHorizontalTunnel(first.value, prev.x, cur.x, cur.y);
    }
  }

  // ---------------------------------------------------------------------
  // GenerateRoomsAndCorridors

  /** The room parameters of `WorldSettingsSO`. */
  datatype RoomSettings = RoomSettings(roomCount: int, minRoomSize: int, maxRoomSize: int)

  /** Settings under which no draw can throw: non-negative sizes in order,
      and rooms narrow enough to leave a position range on both axes. */
  predicate DrawsCannotFail(s: RoomSettings, width: int, height: int) {
    0 <= s.minRoomSize <= s.maxRoomSize && s.maxRoomSize <= width - 2 && s.maxRoomSize <= height - 2
  }

  /** `rooms.Exists(r => r.Overlaps(newRoom))`. */
  predicate OverlapsAny(rooms: seq<Room>, room: Room) {
    exists i :: 0 <= i < |rooms| && Overlaps(rooms[i], room)
  }

  /** A corridor: from the previous room's centre to the new room's, with
      the coin that chose its shape. */
  datatype Link = Link(from: Coord, to: Coord, coin: int)

  /** Some room contains cell (a, b). */
  ghost predicate InSomeRoom(rooms: seq<Room>, a: int, b: int) {
    exists i :: 0 <= i < |rooms| && InRoom(rooms[i], a, b)
  }

  /** Some corridor passes through cell (a, b). */
  ghost predicate OnSomeCorridor(links: seq<Link>, a: int, b: int) {
    exists j :: 0 <= j < |links| && OnCorridor(links[j].from, links[j].to, links[j].coin, a, b)
  }

  /** Corridor j joins room j to room j + 1, centre to centre. */
  ghost predicate Joins(rooms: seq<Room>, links: seq<Link>) {
    && (|rooms| == 0 ==> |links| == 0)
    && (|rooms| > 0 ==> |links| == |rooms| - 1)
    && forall j :: 0 <= j < |links| ==> links[j].from == Centre(rooms[j]) && links[j].to == Centre(rooms[j + 1])
  }

  /** What the generation keeps true of the grid `h` it is carving out of
      `g`, the rooms accepted so far and the corridors between them: only
      walkability changed; every room fits; no earlier room overlaps a later
      one; every room cell and every corridor cell is walkable; and every
      walkable cell lies in a room or on a corridor. */
  ghost predicate Carved(g: Grid<Cell>, h: Grid<Cell>, rooms: seq<Room>, links: seq<Link>) {
    && SameShape(g, h)
    && (forall a, b :: g.InBounds(a, b) ==> h.cells[a][b] == SetWalkable(g.cells[a][b], h.cells[a][b].walkable))
    && (forall i :: 0 <= i < |rooms| ==> Fits(rooms[i], g.width, g.height))
    && (forall i, j :: 0 <= i < j < |rooms| ==> !Overlaps(rooms[i], rooms[j]))
    && (forall i, a, b :: 0 <= i < |rooms| && g.InBounds(a, b) && InRoom(rooms[i], a, b) ==> h.cells[a][b].walkable)
    && (forall j, a, b :: 0 <= j < |links| && g.InBounds(a, b) && OnCorridor(links[j].from, links[j].to, links[j].coin, a, b) ==>
          h.cells[a][b].walkable)
    && (forall a, b :: g.InBounds(a, b) && h.cells[a][b].walkable ==> InSomeRoom(rooms, a, b) || OnSomeCorridor(links, a, b))
    && Joins(rooms, links)
  }

  /** Every room has a non-negative extent. */
  predicate Upright(rooms: seq<Room>) {
    forall i :: 0 <= i < |rooms| ==> rooms[i].w >= 0 && rooms[i].h >= 0
  }

  /** A fitting room that overlaps no earlier one, once carved, joins the
      carved rooms (its corridor is not dug yet). */
  lemma CarvedAddRoom(g: Grid<Cell>, h: Grid<Cell>, rooms: seq<Room>, links: seq<Link>, room: Room, h2: Grid<Cell>)
    requires Carved(g, h, rooms, links) && Fits(room, g.width, g.height) && !OverlapsAny(rooms, room)
    requires |rooms| == 0 && SameShape(h, h2)
    requires forall a, b :: h.InBounds(a, b) ==>
               h2.cells[a][b] == if InRoom(room, a, b) then SetWalkable(h.cells[a][b], true) else h.cells[a][b]
    ensures links == [] && Carved(g, h2, [room], links)
  {
    assert links == [];
    forall a, b | g.InBounds(a, b) && h2.cells[a][b].walkable ensures InSomeRoom([room], a, b) {
      assert InRoom(room, a, b);
      assert [room][0] == room;
    }
  }

  /** A room and the corridor that joins it to the previous one, both dug,
      extend what has been carved. */
  lemma CarvedAddRoomAndLink(g: Grid<Cell>, h: Grid<Cell>, rooms: seq<Room>, links: seq<Link>, room: Room, coin: int,
                             h1: Grid<Cell>, h2: Grid<Cell>)
    requires Carved(g, h, rooms, links) && Fits(room, g.width, g.height) && !OverlapsAny(rooms, room)
    requires |rooms| > 0 && SameShape(h, h1) && SameShape(h1, h2)
    requires forall a, b :: h.InBounds(a, b) ==>
               h1.cells[a][b] == if InRoom(room, a, b) then SetWalkable(h.cells[a][b], true) else h.cells[a][b]
    requires var prev := Centre(rooms[|rooms| - 1]); var cur := Centre(room);
             forall a, b :: h.InBounds(a, b) ==>
               h2.cells[a][b] == if OnCorridor(prev, cur, coin, a, b) then SetWalkable(h1.cells[a][b], true) else h1.cells[a][b]
    ensures Carved(g, h2, rooms + [room], links + [Link(Centre(rooms[|rooms| - 1]), Centre(room), coin)])
  {
    var rs := rooms + [room];
    var link := Link(Centre(rooms[|rooms| - 1]), Centre(room), coin);
    var ls := links + [link];
    forall i, j | 0 <= i < j < |rs| ensures !Overlaps(rs[i], rs[j]) {
      if j == |rooms| {
        assert rs[i] == rooms[i] && rs[j] == room;
      }
    }
    forall i, a, b | 0 <= i < |rs| && g.InBounds(a, b) && InRoom(rs[i], a, b) ensures h2.cells[a][b].walkable {
      if i < |rooms| {
        assert rs[i] == rooms[i];
      }
    }
    forall a, b | g.InBounds(a, b) && h2.cells[a][b].walkable ensures InSomeRoom(rs, a, b) || OnSomeCorridor(ls, a, b) {
      if OnCorridor(link.from, link.to, link.coin, a, b) {
        assert ls[|links|] == link;
      } else if InRoom(room, a, b) {
        assert rs[|rooms|] == room;
      } else {
        assert h.cells[a][b].walkable;
        if InSomeRoom(rooms, a, b) {
          var i :| 0 <= i < |rooms| && InRoom(rooms[i], a, b);
          assert rs[i] == rooms[i];
        } else {
          var j :| 0 <= j < |links| && OnCorridor(links[j].from, links[j].to, links[j].coin, a, b);
          assert ls[j] == links[j];
        }
      }
    }
    forall j, a, b | 0 <= j < |ls| && g.InBounds(a, b) && OnCorridor(ls[j].from, ls[j].to, ls[j].coin, a, b)
      ensures h2.cells[a][b].walkable
    {
      if j < |links| {
        assert ls[j] == links[j];
      }
    }
    forall j | 0 <= j < |ls| ensures ls[j].from == Centre(rs[j]) && ls[j].to == Centre(rs[j + 1]) {
      if j < |links| {
        assert ls[j] == links[j] && rs[j] == rooms[j] && rs[j + 1] == rooms[j + 1];
      } else {
        assert rs[j] == rooms[|rooms| - 1] && rs[j + 1] == room;
      }
    }
  }

  /** The part of a pass after a room is accepted: carve it and, when it is
      not the first, join it to the previous room with `coin` deciding the
      corridor's shape. `ok` is false when a tunnel throws. */
  method AcceptRoom(g: Grid<Cell>, h: Grid<Cell>, rooms: seq<Room>, links: seq<Link>, room: Room, coin: int)
    returns (ok: bool, h2: Grid<Cell>, links2: seq<Link>)
    requires Carved(g, h, rooms, links) && Fits(room, g.width, g.height) && !OverlapsAny(rooms, room)
    ensures ok ==> Carved(g, h2, rooms + [room], links2)
    ensures Upright(rooms + [room]) ==> ok
  {
    var carved := CarveRoom(h, room);
    if |rooms| == 0 {
      CarvedAddRoom(g, h, rooms, links, room, carved);
      assert rooms + [room] == [room];
      return true, carved, links;
    }
    var prev := rooms[|rooms| - 1];
    if Upright(rooms + [room]) {
      assert (rooms + [room])[|rooms| - 1] == prev && (rooms + [room])[|rooms|] == room;
      CentreInsideRoom(prev, g.width, g.height);
      CentreInsideRoom(room, g.width, g.height);
    }
    var joined := ConnectRooms(carved, Centre(prev), Centre(room), coin);
    if joined.None? {
      return false, h, links;
    }
    CarvedAddRoomAndLink(g, h, rooms, links, room, coin, carved, joined.value);
    return true, joined.value, links + [Link(Centre(prev), Centre(room), coin)];
  }

  /** The room a pass draws from `rand` at `k` on: width, height, then the
      x and y positions, each position range shrunk by the drawn extent.
      None when a draw throws. */
  function DrawnRoom(width: int, height: int, s: RoomSettings, rand: Draws, k: nat): (r: Option<Room>)
    ensures DrawsCannotFail(s, width, height) ==> r.Some? && Fits(r.value, width, height)
    ensures DrawsCannotFail(s, width, height) ==> r.value.w >= 0 && r.value.h >= 0
    ensures r.Some? ==> r.value.x >= 1 && r.value.y >= 1
    ensures r.Some? ==> s.minRoomSize <= r.value.w && s.minRoomSize <= r.value.h
  {
    var rw := Next(rand(k), s.minRoomSize, s.maxRoomSize);
    var rh := Next(rand(k + 1), s.minRoomSize, s.maxRoomSize);
    if rw.None? || rh.None? then None
    else
      var rx := Next(rand(k + 2), 1, width - rw.value - 1);
      var ry := Next(rand(k + 3), 1, height - rh.value - 1);
      if rx.None? || ry.None? then None
      else Some(Room(rx.value, ry.value, rw.value, rh.value))
  }

  /** One pass of the generation loop, drawing from `rand` at `k` on: four
      draws for the room, one more for the corridor shape when the room is
      accepted after another. A drawn room that fits and overlaps no earlier
      one is accepted; any other is dropped and nothing changes. `ok` is
      false when a draw or a tunnel throws. */
  method TryRoom(g: Grid<Cell>, h: Grid<Cell>, rooms: seq<Room>, links: seq<Link>, s: RoomSettings, rand: Draws, k: nat)
    returns (ok: bool, h2: Grid<Cell>, rooms2: seq<Room>, links2: seq<Link>, k2: nat)
    requires Carved(g, h, rooms, links)
    ensures ok ==> Carved(g, h2, rooms2, links2)
    ensures ok ==> rooms2 == rooms || (|rooms2| == |rooms| + 1 && rooms2[..|rooms|] == rooms)
    ensures DrawnRoom(g.width, g.height, s, rand, k).None? ==> !ok
    ensures var d := DrawnRoom(g.width, g.height, s, rand, k);
            d.Some? && !(Fits(d.value, g.width, g.height) && !OverlapsAny(rooms, d.value)) ==>
              ok && h2 == h && rooms2 == rooms && links2 == links && k2 == k + 4
    ensures var d := DrawnRoom(g.width, g.height, s, rand, k);
            d.Some? && Fits(d.value, g.width, g.height) && !OverlapsAny(rooms, d.value) ==>
              && rooms2 == rooms + [d.value]
              && k2 == (if |rooms| > 0 then k + 5 else k + 4)
              && (Upright(rooms2) ==> ok)
    ensures DrawsCannotFail(s, g.width, g.height) && Upright(rooms) ==> ok && Upright(rooms2)
  {
    h2, rooms2, links2, k2 := h, rooms, links, k + 4;
    var drawn := DrawnRoom(g.width, g.height, s, rand, k);
    if drawn.None? {
      return false, h2, rooms2, links2, k2;
    }
    var room := drawn.value;
    if !Fits(room, g.width, g.height) || OverlapsAny(rooms, room) {
      return true, h2, rooms2, links2, k2;
    }
    var coin := 0;
    if |rooms| > 0 {
      coin := Next(rand(k2), 0, 2).value;
      k2 := k2 + 1;
    }
    assert DrawsCannotFail(s, g.width, g.height) && Upright(rooms) ==> Upright(rooms + [room]);
    ok, h2, links2 := AcceptRoom(g, h, rooms, links, room, coin);
    rooms2 := rooms + [room];
    assert rooms2[..|rooms|] == rooms;
  }

  /** `GenerateRoomsAndCorridors`: every cell is made unwalkable, then rooms
      are drawn until `roomCount` are placed or `10 * roomCount` attempts are
      spent. None stands for an exception thrown by a draw or a tunnel. */
  method GenerateRoomsAndCorridors(g: Grid<Cell>, s: RoomSettings, rand: Draws)
    returns (r: Option<(Grid<Cell>, seq<Room>, seq<Link>)>, attempts: int)
    requires g.Valid()
    ensures DrawsCannotFail(s, g.width, g.height) ==> r.Some?
    ensures r.Some? ==> Carved(g, r.value.0, r.value.1, r.value.2)
    ensures r.Some? ==> |r.value.1| <= Max(s.roomCount, 0) && 0 <= attempts <= Max(10 * s.roomCount, 0)
    ensures r.Some? && |r.value.1| < s.roomCount ==> attempts == 10 * s.roomCount
    ensures DrawsCannotFail(s, g.width, g.height) && s.roomCount >= 1 ==> |r.value.1| >= 1
  {
    var h := ResetCells(g);
    var rooms: seq<Room> := [];
    var links: seq<Link> := [];
    attempts := 0;
    var maxAttempts := s.roomCount * 10;
    var k: nat := 0;
    while |rooms| < s.roomCount && attempts < maxAttempts
      invariant Carved(g, h, rooms, links)
      invariant DrawsCannotFail(s, g.width, g.height) ==> Upright(rooms)
      invariant |rooms| <= Max(s.roomCount, 0) && 0 <= attempts <= Max(maxAttempts, 0)
      invariant DrawsCannotFail(s, g.width, g.height) && attempts > 0 ==> |rooms| >= 1
      decreases maxAttempts - attempts
    {
      attempts := attempts + 1;
      var ok;
      ok, h, rooms, links, k := TryRoom(g, h, rooms, links, s, rand, k);
      if !ok {
        return None, attempts;
      }
    }
    r := Some((h, rooms, links));
  }

  // ---------------------------------------------------------------------
  // PlaceEscapeAndSpawners and RegenerateWorld

  /** Where the markers go, as grid cells: the escape marker, the blue
      spawner, and the red spawners in order. */
  datatype Placement = Placement(escape: Coord, blueSpawn: Coord, redSpawns: seq<Coord>)

  /** `GetAllUnitSpawners`: the blue spawner first, then the red ones, in
      room order. */
  function GetAllUnitSpawners(p: Placement): (r: seq<Coord>)
    ensures |r| == 1 + |p.redSpawns| && r[0] == p.blueSpawn
    ensures forall i :: 0 <= i < |p.redSpawns| ==> r[i + 1] == p.redSpawns[i]
  {
    [p.blueSpawn] + p.redSpawns
  }

  /** `PlaceEscapeAndSpawners`: the escape at the centre of the last room,
      the blue spawner at the centre of the first, a red spawner at the
      centre of every room in between. With no room, `rooms[^1]` throws; with
      one, the red spawner array gets length -1 and its allocation throws;
      both are None. */
  method PlaceEscapeAndSpawners(rooms: seq<Room>) returns (r: Option<Placement>)
    ensures r.None? <==> |rooms| < 2
    ensures r.Some? ==> r.value.escape == Centre(rooms[|rooms| - 1]) && r.value.blueSpawn == Centre(rooms[0])
    ensures r.Some? ==> |r.value.redSpawns| == |rooms| - 2
    ensures r.Some? ==> forall i :: 0 <= i < |rooms| - 2 ==> r.value.redSpawns[i] == Centre(rooms[i + 1])
  {
    if |rooms| < 2 {
      return None;
    }
    var escape := Centre(rooms[|rooms| - 1]);
    var blue := Centre(rooms[0]);
    var reds: seq<Coord> := [];
    for i := 1 to |rooms| - 1
      invariant |reds| == i - 1
      invariant forall j :: 0 <= j < i - 1 ==> reds[j] == Centre(rooms[j + 1])
    {
      reds := reds + [Centre(rooms[i])];
    }
    return Some(Placement(escape, blue, reds));
  }

  /** Every room's centre is a corridor end, so once two rooms are joined
      each centre inside the grid is walkable. */
  lemma {:induction false} CentresWalkable(g: Grid<Cell>, h: Grid<Cell>, rooms: seq<Room>, links: seq<Link>, i: int)
    requires Carved(g, h, rooms, links) && |rooms| >= 2 && 0 <= i < |rooms|
    requires g.InBounds(Centre(rooms[i]).x, Centre(rooms[i]).y)
    ensures h.cells[Centre(rooms[i]).x][Centre(rooms[i]).y].walkable
  {
    var c := Centre(rooms[i]);
    if i < |links| {
      var l := links[i];
      assert l.from == c;
      assert OnRow(l.from.x, l.to.x, l.from.y, c.x, c.y) && OnColumn(l.from.y, l.to.y, l.from.x, c.x, c.y);
      assert OnCorridor(l.from, l.to, l.coin, c.x, c.y);
    } else {
      var l := links[i - 1];
      assert l.to == c;
      assert OnRow(l.from.x, l.to.x, l.to.y, c.x, c.y) && OnColumn(l.from.y, l.to.y, l.to.x, c.x, c.y);
      assert OnCorridor(l.from, l.to, l.coin, c.x, c.y);
    }
  }

  /** What `RegenerateWorld` leaves behind: the carved grid, its rooms and
      corridors, and where the markers stand. */
  datatype World = World(grid: Grid<Cell>, rooms: seq<Room>, links: seq<Link>, placement: Placement)

  /** `RegenerateWorld`: generate the rooms and corridors, then place the
      escape and the spawners (the graphics refresh and the selector reset
      only touch what is drawn). `generated` is what the generation step
      produced; None when a step throws. The world is built exactly when the
      generation went through and placed at least two rooms. */
  method RegenerateWorld(g: Grid<Cell>, s: RoomSettings, rand: Draws)
    returns (r: Option<World>, generated: Option<(Grid<Cell>, seq<Room>, seq<Link>)>)
    requires g.Valid()
    ensures DrawsCannotFail(s, g.width, g.height) ==> generated.Some?
    ensures generated.Some? ==> Carved(g, generated.value.0, generated.value.1, generated.value.2)
    ensures r.Some? <==> generated.Some? && |generated.value.1| >= 2
    ensures r.Some? ==> (r.value.grid, r.value.rooms, r.value.links) == generated.value
    ensures r.Some? ==> Carved(g, r.value.grid, r.value.rooms, r.value.links) && |r.value.rooms| >= 2
    ensures r.Some? ==> r.value.placement.escape == Centre(r.value.rooms[|r.value.rooms| - 1])
    ensures r.Some? && Upright(r.value.rooms) ==>
              var w := r.value;
              && w.grid.Contains(w.placement.escape) && w.grid.cells[w.placement.escape.x][w.placement.escape.y].walkable
              && forall c :: c in GetAllUnitSpawners(w.placement) ==> w.grid.Contains(c) && w.grid.cells[c.x][c.y].walkable
  {
    var attempts;
    generated, attempts := GenerateRoomsAndCorridors(g, s, rand);
    if generated.None? {
      return None, generated;
    }
    var (h, rooms, links) := generated.value;
    var p := PlaceEscapeAndSpawners(rooms);
    if p.None? {
      return None, generated;
    }
    r := Some(World(h, rooms, links, p.value));
    if Upright(rooms) {
      forall i | 0 <= i < |rooms|
        ensures h.Contains(Centre(rooms[i])) && h.cells[Centre(rooms[i]).x][Centre(rooms[i]).y].walkable
      {
        CentreInsideRoom(rooms[i], g.width, g.height);
        CentresWalkable(g, h, rooms, links, i);
      }
      forall c | c in GetAllUnitSpawners(p.value) ensures h.Contains(c) && h.cells[c.x][c.y].walkable {
        var k :| 0 <= k < |GetAllUnitSpawners(p.value)| && GetAllUnitSpawners(p.value)[k] == c;
        if k > 0 {
          assert c == Centre(rooms[k]);
        }
      }
    }
  }
}

=== FILE: wrappers.dfy ===
/** The optional-value datatype the model uses wherever the source returns
    `null`/`default` or a nullable value. */
module Wrappers {

  datatype Option<+T> = None | Some(value: T) {

    /** Returns the value held in Some, or `default` when None. */
    function GetOr(default: T): T {
      match this
      case Some(v) => v
      case None => default
    }
  }
}
